=== FILE: README.md ===
# evoSearch treasure search, modelled in Dafny

evoSearch evolves search strategies for a treasure hunt on rays. The plane
is cut into `positions` rays that leave the origin at equal angles. A
*discrete point* names one ray by its slot index and a distance out along
it. A *gene* wraps one point, and a *chromosome* is the ordered list of
points a searcher visits. The searcher starts at the origin. A treasure is
found once the searcher reaches its ray at least as far out as the
treasure. A chromosome's fitness is the length of the path walked until
then, combined over all treasures in one of several ways.

This project models the pure logic around that encoding, one module per
source class:

- **Encoding.** `DiscretePoints`, `DiscreteGenes` and `DiscreteChromosomes`
  hold the point, gene and chromosome, their factories, shuffles and
  validity checks.
- **Mutators.** `Mutators` holds the swap mutators (distances and
  positions, in both revisions), the clamped distance perturbation and the
  position resample.
- **Scoring.** `Environment` holds `finds`, `trace` and the average
  fitness. `SearchExperiment` holds the ratio fitness of the experiment
  class and its random instance. `Evolution` holds the four fitness
  variants and the bookkeeping of `run`. `AnalysisUtils` holds the spiral
  likeness score. `Configurations` holds the configuration record and its
  random generators.
- **Utilities.** The utilities are `ListUtils`, `RandomUtils`, `Vectors`
  (`Vector2D`), `Transformation` (the canvas transform), and `ExperimentCli`,
  which holds the experiment command line's progress bar, file names, seeds
  and unique paths.
- **Containers.** `SortedListModels` is the sorted list model, checked
  against the functional sort `Sorting.SortSpec`. `CellMaps` holds the
  two-level editor and renderer maps.
- **Serialisation.** `LegacyJsonService` and `JsonService` are the two
  revisions of the JSON mapping, over the JSON values of `Json`.
  `XmlService` is the XML property and register encoding, over the dom4j
  elements of `Dom`. `Workspaces`, `IndexEntries` and `Projects` are the
  XML entities. `FileService` is the file naming of `save`.

`Wrappers`, `Numerics`, `Doubles`, `Decimal` and `UnixPaths` supply the
Java semantics the model needs:
- `Result` values stand for thrown exceptions.
- `Numerics` gives 32-bit wrap-around, truncating casts, `Math.round` and
  `%` on negative operands.
- `Doubles` gives doubles with infinities where the source relies on them.
- `Decimal` gives `Integer.toString` and `Integer.parseInt`.
- `UnixPaths` gives `Path.of` normalisation.

**One point type.** The source files come from several revisions that do
not compile together. For example, the mutators construct genes from three
numbers while the gene class of another revision only wraps a point. The
model therefore uses a single `Point(positions, position, distance)` record
and gives each file its own semantics on that record. Where a revision has
no slot count, the field is 0.

**Randomness.** Every draw from `RandomRegistry` or `Random` is an explicit
parameter. Its documented range is a precondition. A shuffle is any
permutation handed in.

**Leg lengths.** The law-of-cosines leg between two points is a function
parameter `leg`. The scoring facts that need it non-negative assume that
as a hypothesis.

**Shared points.** The swap mutators copy the gene list but not the
points, and change the points through their setters, so the parent
chromosome changes too. `Mutators.Mutate` is the value view of the
result; `Mutators.MutateInPlace` keeps the points in a heap addressed by
references, and `Mutators.MutateAltersParent` connects the two.

**Documentation and code.** Where the documentation and the code disagree,
the model follows the code:
- `Configuration.shuffle()` draws between 1 and 9 distances, not up to 10
  (`Configurations.ShuffleDefault`).
- `DiscreteGene.isValid` accepts the slot `positions` and negative slots
  (`DiscreteGenes.IsValidAcceptsOutOfRange`).
- `Experiment.finds` and `Experiment.trace` are the same code as in
  `Environment`, so `SearchExperiment` reuses `Environment.Trace`.

`Environment.fitness`, `fitnessSingular` and `trace` (Environment.java:158-205) reach the written `finds`, whose position test is
listed under Findings. The trace, the fitness variants and
`Environment.Evaluate` take the rule as a parameter: `FindsAsWritten` is
the code, `Finds` the documented rule.

The four places where the code evidently differs from its intent are
listed under Findings. Each one has an as-written model and a corrected
model.

## Model

| member | source | states |
|---|---|---|
| DiscretePoints.Angle | src/main/java/evo/search/ga/DiscretePoint.java:43-46 | the angle is finite exactly when there are slots; slot 0 has angle 0 and every valid slot an angle in [0, 2π) |
| DiscretePoints.AngleLinear | src/main/java/evo/search/ga/DiscretePoint.java:43-46 | the angle is linear in the slot index: the angle of slot a + b is the sum of the angles of a and b |
| DiscretePoints.DistanceSquared | src/main/java/evo/search/ga/DiscretePoint.java:88-90 | the squared radius is never negative |
| DiscretePoints.Clone | src/main/java/evo/search/ga/DiscretePoint.java:53-60 | a clone has the same slot, distance and slot count |
| DiscretePoints.SwapDistance | src/main/java/evo/search/ga/DiscretePoint.java:97-101 | despite its name, the two slot indices change places and both distances stay where they were |
| DiscretePoints.SwapDistanceInvolution | src/main/java/evo/search/ga/DiscretePoint.java:97-101 | swapping twice restores both points |
| DiscretePoints.SwapDistanceSelf | src/main/java/evo/search/ga/DiscretePoint.java:97-101 | swapping a point with itself changes nothing |
| DiscreteGenes.Of | src/main/java/evo/search/ga/DiscreteGene.java:27-29 | the gene's allele has the point's slot, distance and slot count |
| DiscreteGenes.OfDistance | src/main/java/evo/search/ga/DiscreteGene.java:37-41 | succeeds exactly when there are slots; it then keeps the distance and draws a slot in [0, positions) |
| DiscreteGenes.GetAllele | src/main/java/evo/search/ga/DiscreteGene.java:47-49 | wrapping the returned point gives back the gene |
| DiscreteGenes.NewInstance | src/main/java/evo/search/ga/DiscreteGene.java:57-63 | succeeds exactly when there are slots and distances; the distance is one of the configured ones and the slot lies in [0, positions) |
| DiscreteGenes.IsValidMeaning | src/main/java/evo/search/ga/DiscreteGene.java:81-85 | a gene is valid iff its distance occurs in the configured list and its slot is at most `positions` |
| DiscreteGenes.NewInstanceIsValid | src/main/java/evo/search/ga/DiscreteGene.java:57-85 | every gene `newInstance()` can produce is valid |
| DiscreteGenes.IsValidAcceptsOutOfRange | src/main/java/evo/search/ga/DiscreteGene.java:83 | the bound is inclusive and there is no lower bound: slot `positions` and slot -1 are accepted |
| DiscreteChromosomes.Distances | src/main/java/evo/search/ga/DiscreteChromosome.java:120-131 | one distance per gene, in gene order |
| DiscreteChromosomes.Positions | src/main/java/evo/search/ga/DiscreteChromosome.java:126-129 | one slot index per gene, in gene order |
| DiscreteChromosomes.OfDistances | src/main/java/evo/search/ga/DiscreteChromosome.java:44-49 | fails only on a non-empty list with no slots; gene i then carries distances[i], the i-th drawn slot and the slot count |
| DiscreteChromosomes.OfPoints | src/main/java/evo/search/ga/DiscreteChromosome.java:68-70 | one gene per point, wrapping that point, in order |
| DiscreteChromosomes.OfGenesRoundTrip | src/main/java/evo/search/ga/DiscreteChromosome.java:57-59 | `toSeq(of(genes))` is the gene sequence, `of(toSeq(c))` is c, and `length()` counts the genes |
| DiscreteChromosomes.GetGene | src/main/java/evo/search/ga/DiscreteChromosome.java:76-78 | in bounds it is `toSeq()[index]`; outside the bounds it fails |
| DiscreteChromosomes.NewInstanceWith | src/main/java/evo/search/ga/DiscreteChromosome.java:84-86 | `toSeq` of the new instance is the given gene sequence, whatever the receiver |
| DiscreteChromosomes.Shuffle | src/main/java/evo/search/ga/DiscreteChromosome.java:32-36 | the gene distances are a permutation of the configured ones, one gene per distance, every slot in [0, positions) |
| DiscreteChromosomes.IsValidNeedsLength | src/main/java/evo/search/ga/DiscreteChromosome.java:121-124 | a chromosome whose length differs from the number of configured distances is invalid |
| DiscreteChromosomes.ShuffleIsValid | src/main/java/evo/search/ga/DiscreteChromosome.java:32-36 | every chromosome `shuffle()` can produce passes the intended validity check |
| DiscreteChromosomes.IsValidAsWrittenOnlyEmpty | src/main/java/evo/search/ga/DiscreteChromosome.java:131 | as written, `isValid` holds only for an empty chromosome under an empty distance list |
| DiscreteChromosomes.IsValidAsWrittenRejectsShuffle | src/main/java/evo/search/ga/DiscreteChromosome.java:120-131 | a one-gene chromosome that the intended check accepts and the check as written rejects |
| AnalysisUtils.DoubleLeIsTotalPreorder | src/main/java/evo/search/ga/AnalysisUtils.java:39 | `Double::compareTo` on finite values is a total preorder, so the sort is well defined |
| AnalysisUtils.CounterStepMod | src/main/java/evo/search/ga/AnalysisUtils.java:52-53 | a counter-clockwise step from x mod n lands on (x + 1) mod n |
| AnalysisUtils.ClockStepMod | src/main/java/evo/search/ga/AnalysisUtils.java:55-58 | a clockwise step from x mod n lands on (x - 1) mod n |
| AnalysisUtils.CounterAtClosedForm | src/main/java/evo/search/ga/AnalysisUtils.java:52-53 | from a valid slot, k counter-clockwise steps reach (start + k) mod n |
| AnalysisUtils.ClockAtClosedForm | src/main/java/evo/search/ga/AnalysisUtils.java:55-58 | from a valid slot, k clockwise steps reach (start - k) mod n |
| AnalysisUtils.StepsStayInRange | src/main/java/evo/search/ga/AnalysisUtils.java:52-58 | both steps stay in [0, n), and each undoes the other |
| AnalysisUtils.Walk | src/main/java/evo/search/ga/AnalysisUtils.java:47-63 | with non-negative legs both accumulated deviations are non-negative |
| AnalysisUtils.WalkMatchesReference | src/main/java/evo/search/ga/AnalysisUtils.java:40-63 | the stepping walk visits exactly the closed-form slots start + k and start - k (mod n) |
| AnalysisUtils.Score | src/main/java/evo/search/ga/AnalysisUtils.java:65-69 | 1 when either sum is exactly 0, otherwise the reciprocal of the smaller sum; positive for non-negative sums |
| AnalysisUtils.SpiralLikeness | src/main/java/evo/search/ga/AnalysisUtils.java:23-70 | an empty chromosome scores 0 and leaves the list alone; otherwise the configured list ends up sorted (same multiset); it fails with an index error when there are more genes than distances and with an arithmetic error for zero slots; with non-negative legs a non-empty chromosome scores > 0 |
| AnalysisUtils.SpiralLikenessReference | src/main/java/evo/search/ga/AnalysisUtils.java:39-69 | step k compares gene k with the k-th smallest configured distance at slots start + k and start - k, start being the first gene's slot |
| Mutators.SwapComponent | src/main/java/evo/search/ga/mutators/SwapDistanceMutator.java:30-34 | the distance swap exchanges the two distances, the position swap the two slots; every other gene is kept |
| Mutators.SwapComponentSelf | src/main/java/evo/search/ga/mutators/SwapPositionsMutator.java:62-64 | swapping an index with itself leaves the genes unchanged |
| Mutators.SwapComponentInvolution | src/main/java/evo/search/ga/SwapPositionsMutator.java:36-38 | the same swap done twice restores the genes |
| Mutators.Mutate | src/main/java/evo/search/ga/mutators/SwapPropertyMutator.java:27-43 | a chromosome of at most one gene comes back unchanged with no mutations; otherwise the length is kept and the count is the number of selected indexes |
| Mutators.SwapComponentPreserves | src/main/java/evo/search/ga/mutators/SwapDistanceMutator.java:30-34 | one swap keeps the multiset of the swapped component and every value of the other one |
| Mutators.ApplySwapsPreserves | src/main/java/evo/search/ga/SwapPositionsMutator.java:22-25 | any sequence of swaps keeps the multiset of the swapped component and every value of the other one |
| Mutators.MutatePermutes | src/main/java/evo/search/ga/mutators/SwapPositionsMutator.java:37-52 | the distance mutator permutes the distances and keeps every slot; the positions mutators permute the slots and keep every distance |
| Mutators.Delta | src/main/java/evo/search/ga/mutators/DistanceMutator.java:44 | the width is 1 without a configuration and the configured delta otherwise |
| Mutators.MutateDistance | src/main/java/evo/search/ga/mutators/DistanceMutator.java:43-47 | the new distance is max(0, d + (2r - 1)·delta), never negative; slot and slot count are kept |
| Mutators.MutateDistanceBounds | src/main/java/evo/search/ga/mutators/DistanceMutator.java:45-46 | before clamping the distance lies in [d - delta, d + delta); after clamping a non-negative distance moves by at most delta |
| Mutators.MutatePositionAsWritten | src/main/java/evo/search/ga/mutators/PositionMutator.java:36-40 | the distance and slot count are kept and the new slot lies in [0, positions], the upper end included |
| Mutators.MutatePositionAsWrittenOffByOne | src/main/java/evo/search/ga/mutators/PositionMutator.java:38 | with one slot, a draw of 0.9 rounds to slot 1, past the only valid slot 0 |
| Mutators.MutatePosition | src/main/java/evo/search/ga/mutators/PositionMutator.java:36-40 | the intended resample keeps distance and slot count and picks a slot in [0, positions) |
| Mutators.SwapInPlace | src/main/java/evo/search/ga/mutators/SwapDistanceMutator.java:30-34 | a swap through the setters changes the two shared alleles it names and no other point of the heap |
| Mutators.ApplySwapsInPlace | src/main/java/evo/search/ga/SwapPositionsMutator.java:22-25 | the swaps in index order touch only points some gene of the list refers to |
| Mutators.MutateInPlace | src/main/java/evo/search/ga/mutators/SwapPropertyMutator.java:27-43 | the result's chromosome reads through the parent's own references; a chromosome of at most one gene leaves the heap alone and comes back with no mutations |
| Mutators.SwapInPlaceAgrees | src/main/java/evo/search/ga/DiscretePoint.java:97-101 | on pairwise distinct alleles one in-place swap reads as the value swap `SwapComponent`, and the alleles stay distinct |
| Mutators.ApplySwapsInPlaceAgrees | src/main/java/evo/search/ga/SwapPositionsMutator.java:22-25 | on pairwise distinct alleles the in-place swaps read as the value swaps |
| Mutators.MutateAltersParent | src/main/java/evo/search/ga/mutators/SwapPropertyMutator.java:30-35 | `MSeq.of` copies the gene list but not the alleles: afterwards the parent reads as the mutated chromosome, the result is `Mutate` of the parent's former genes, and no other point changes |
| Environment.FindsAsWritten | src/main/java/evo/search/Environment.java:142-146 | as written a point finds a treasure iff its distance reaches the treasure's; the slot never matters |
| Environment.FindsAsWrittenIgnoresPosition | src/main/java/evo/search/Environment.java:144 | a point on another ray, further out, finds the treasure as written but not under the documented rule |
| Environment.FindsRefinesAsWritten | src/main/java/evo/search/Environment.java:142-146 | the documented rule (same slot, at least as far) implies the written one, and both agree on the treasure's ray |
| Environment.TraceFrom | src/main/java/evo/search/Environment.java:193-207 | with non-negative legs the trace is non-negative; a start that already finds the treasure costs nothing |
| Environment.Trace | src/main/java/evo/search/Environment.java:193-207 | with non-negative legs the trace from the origin is non-negative |
| Environment.FirstHit | src/main/java/evo/search/Environment.java:197-200 | the index of the first visited point that finds the treasure, with none before it; the number of points if none does |
| Environment.TraceIsPathToFirstHit | src/main/java/evo/search/Environment.java:194-206 | the trace is the length of the path origin, g1, …, gk where gk is the first point that finds the treasure, and the whole path when none does |
| Environment.TraceStep | src/main/java/evo/search/Environment.java:197-203 | past a start that misses, the trace is one more leg in front of the rest of the path |
| Environment.TraceAsWrittenStopsOnDistance | src/main/java/evo/search/Environment.java:196-199 | as written the walk stops at the first visited point whose distance reaches the treasure's, and a treasure at distance ≤ 0 costs nothing |
| Environment.FirstHitAsWrittenNoLater | src/main/java/evo/search/Environment.java:142-146 | along any path the written rule finds the treasure no later than the documented one |
| Environment.Traces | src/main/java/evo/search/Environment.java:179-180 | one trace per treasure, in treasure order |
| Environment.Fitness | src/main/java/evo/search/Environment.java:174-183 | 0 without treasures, otherwise the mean of the traces; never negative with non-negative legs |
| Environment.FitnessSingular | src/main/java/evo/search/Environment.java:158-161 | the trace to the first treasure; an index error when there is none |
| Environment.FitnessOfOneTreasure | src/main/java/evo/search/Environment.java:158-183 | with a single treasure the global fitness equals the singular one |
| Environment.EvaluateSpec | src/main/java/evo/search/Environment.java:224-233 | under any `finds` rule, the variants SINGULAR, GLOBAL and SPIRAL fail only on a configuration they cannot score (GLOBAL never does), and never score below zero with non-negative legs |
| Environment.EvaluateAsWritten | src/main/java/evo/search/Environment.java:224-233 | as the code evaluates, GLOBAL is the mean of the traces under the written `finds`, and SPIRAL does not depend on the rule |
| Environment.SetConfiguration | src/main/java/evo/search/Environment.java:123-129 | fails with a runtime error without an experiment; otherwise installs the configuration and clears the recorded individuals |
| Environment.SetConfigurationLastWins | src/main/java/evo/search/Environment.java:123-129 | setting twice is the same as setting the second configuration once |
| SearchExperiment.FitnessSingular | src/main/java/evo/search/Experiment.java:87-90 | the first treasure's distance over its trace in IEEE arithmetic: the finite quotient when the trace is non-zero, +∞ or NaN when it is zero; an index error without treasures |
| SearchExperiment.Ratios | src/main/java/evo/search/Experiment.java:97-98 | one distance/trace ratio per treasure, in order |
| SearchExperiment.SumDoubles | src/main/java/evo/search/Experiment.java:99-100 | the IEEE sum is finite exactly when every summand is, and is then the real sum; a NaN summand makes it NaN |
| SearchExperiment.Fitness | src/main/java/evo/search/Experiment.java:92-96 | 0 without treasures |
| SearchExperiment.FitnessFiniteIffTracesNonZero | src/main/java/evo/search/Experiment.java:92-101 | with treasures, the fitness is finite exactly when no trace is zero, and is then the mean of the ratios |
| SearchExperiment.FitnessOfOneTreasure | src/main/java/evo/search/Experiment.java:87-101 | with one treasure the mean ratio is the singular ratio |
| SearchExperiment.Init | src/main/java/evo/search/Experiment.java:51-79 | stores the slot count and exactly amountDistances distances in [0, 50); throws only when there are distances but no slots, leaving the treasures alone; otherwise one treasure per distance, slot in [0, positions), distance in [0, that distance) |
| SearchExperiment.TreasureDistance | src/main/java/evo/search/Experiment.java:73 | a draw in [0, 1) scales a distance d into [0, d), or 0 when d is 0 |
| Evolution.GetMethods | src/main/java/evo/search/Evolution.java:272-274 | every variant is listed, each at the index of its ordinal (SINGULAR, MULTI, WORST_CASE, MAX_AREA) |
| Evolution.GetMethodsDistinct | src/main/java/evo/search/Evolution.java:231-274 | no variant is listed twice |
| Evolution.FitnessSingular | src/main/java/evo/search/Evolution.java:174-177 | the trace length to the first treasure; an index error without treasures |
| Evolution.TraceLengths | src/main/java/evo/search/Evolution.java:192-193 | one trace length per treasure, in order |
| Evolution.FitnessMulti | src/main/java/evo/search/Evolution.java:190-196 | 0 without treasures, otherwise the mean trace length |
| Evolution.FitnessMultiOfOneTreasure | src/main/java/evo/search/Evolution.java:174-196 | with one treasure the multi fitness is the singular one |
| Evolution.FitnessMaximisingArea | src/main/java/evo/search/Evolution.java:206-212 | +∞ exactly when the covered area is not positive, otherwise the path length per unit of area |
| Evolution.EvaluateSpec | src/main/java/evo/search/Evolution.java:97 | the configured variant's method is applied: only SINGULAR can throw, and only without treasures; only MAX_AREA can be infinite |
| Evolution.ShuffleInstance | src/main/java/evo/search/Evolution.java:148-162 | fails only for configured distances without slots; otherwise one gene per configured distance, the distances a permutation of the configured ones and every slot in [0, positions) |
| Evolution.GenotypeFailure | src/main/java/evo/search/Evolution.java:97-100 | building the initial genotype throws exactly when the population is not positive or a distance needs a slot of none; the exception is `IllegalArgumentException` except for a negative population |
| Evolution.SplitAlterers | src/main/java/evo/search/Evolution.java:106-112 | no split for an empty list; otherwise head followed by rest is the configured list, which is left as it was |
| Evolution.Emitted | src/main/java/evo/search/Evolution.java:128-129 | the stream passes at most `limit` generations, none seen aborted, and stops early only at one seen aborted |
| Evolution.BestOf | src/main/java/evo/search/Evolution.java:139 | the chosen generation has the lowest fitness of all emitted ones |
| Evolution.Run | src/main/java/evo/search/Evolution.java:90-140 | a null configuration leaves everything as it was; otherwise the history is cleared, and a failure to build the initial genotype throws with the previous result kept; a rejected size returns quietly; otherwise the history is replaced, one best chromosome per emitted generation with progress 1, 2, 3, …, at most `limit` of them, the stream stopping only at an abort; the result is the best emitted generation's chromosome |
| Evolution.RunForgetsPreviousRun | src/main/java/evo/search/Evolution.java:94-139 | when the engine runs, the last progress value is the history length and the outcome does not depend on the previous run's state |
| Evolution.RunKeepsResultOnGenotypeFailure | src/main/java/evo/search/Evolution.java:94-100 | with no slots and one distance, `run` throws with the history cleared, no progress and the previous result kept |
| Configurations.GeneratedDistances | src/main/java/evo/search/Configuration.java:78-81 | one distance per draw, each in [1, 10) |
| Configurations.TreasureFor | src/main/java/evo/search/Configuration.java:84-87 | the treasure has the drawn slot and a distance in [1, d], below d when d > 1 |
| Configurations.Shuffle | src/main/java/evo/search/Configuration.java:75-94 | fails with an illegal-argument error unless both counts are positive; otherwise exactly amountDistances distances in [1, 10), a permutation of the generated ones, and between 1 and amountDistances treasures, each with a slot in [0, positions) and a distance in [1, the distance it came from] |
| Configurations.ShuffleDefault | src/main/java/evo/search/Configuration.java:63-65 | always succeeds with 3 slots, 1 to 9 distances and at most as many treasures as distances |
| ListUtils.Separator | src/main/java/evo/search/util/ListUtils.java:27-29 | the joiner puts the separator between its two arguments |
| ListUtils.Generate | src/main/java/evo/search/util/ListUtils.java:39-44 | max(0, limit) items, the i-th being the supplier's i-th answer |
| ListUtils.ChooseRandomIn | src/main/java/evo/search/util/ListUtils.java:55-57 | without overflow it succeeds iff max(0, min) < min(size - 1, max) and returns an item at an index in [max(0, min), min(size - 1, max)), so the upper one is never chosen; any result is an item of the list |
| ListUtils.ChooseRandom | src/main/java/evo/search/util/ListUtils.java:66-68 | fails exactly on an empty list; otherwise returns one of its items |
| ListUtils.ConsecMap | src/main/java/evo/search/util/ListUtils.java:79-84 | max(0, n - 1) items, item i being the mapping of items i and i + 1 |
| ListUtils.Transpose | src/main/java/evo/search/util/ListUtils.java:119-130 | succeeds iff the matrix is non-empty and every row has at least as many entries as the first; then N = first-row-length rows of length |matrix| with result[i][j] = matrix[j][i] |
| ListUtils.TransposeTwice | src/main/java/evo/search/util/ListUtils.java:119-130 | transposing a rectangular matrix with a column twice gives it back |
| ListUtils.FoldLeftSnoc | src/main/java/evo/search/util/ListUtils.java:226-230 | the loop's fold over items + [x] is one more reducer step after the fold over items |
| ListUtils.ReduceIgnoresDefault | src/main/java/evo/search/util/ListUtils.java:224-232 | on a non-empty list the default never matters |
| ListUtils.PrintConsecutive | src/main/java/evo/search/util/ListUtils.java:141-148 | the loop's string is the mapped items joined by the separator |
| ListUtils.JoinShape | src/main/java/evo/search/util/ListUtils.java:141-148 | the separator goes only between items: one item prints alone, and one more item appends the separator and that item |
| ListUtils.Map | src/main/java/evo/search/util/ListUtils.java:256-264 | no more items than the input, each the non-null image of some input item |
| ListUtils.MapTotal | src/main/java/evo/search/util/ListUtils.java:256-264 | without nulls every item is mapped in place |
| ListUtils.MapAppend | src/main/java/evo/search/util/ListUtils.java:256-264 | mapping distributes over concatenation, so relative order is kept |
| ListUtils.FoldLeftSum | src/main/java/evo/search/util/ListUtils.java:211-213 | the left fold with addition adds the items' sum to the seed |
| ListUtils.SumIsSumOf | src/main/java/evo/search/util/ListUtils.java:211-213 | `sum` is the items' sum, 0 for the empty list |
| ListUtils.SumOfAppend | src/main/java/evo/search/util/ListUtils.java:211-213 | the sum of a concatenation is the sum of the sums |
| ListUtils.SumOfNonNegative | src/main/java/evo/search/util/ListUtils.java:211-213 | non-negative items have a non-negative sum |
| ListUtils.Mean | src/main/java/evo/search/util/ListUtils.java:240-244 | 0 for no numbers, otherwise mean · n is the sum |
| ListUtils.SquaredDeviations | src/main/java/evo/search/util/ListUtils.java:164-165 | one non-negative squared deviation per number |
| ListUtils.Variance | src/main/java/evo/search/util/ListUtils.java:156-168 | 0 for no numbers, never negative, otherwise the mean squared deviation from the mean |
| ListUtils.DivideByCount | src/main/java/evo/search/util/ListUtils.java:167 | the quotient times the count is the dividend, non-negative for a non-negative dividend |
| ListUtils.VarianceOfConstant | src/main/java/evo/search/util/ListUtils.java:156-168 | a constant list has variance 0 |
| ListUtils.SumOfConstant | src/main/java/evo/search/util/ListUtils.java:211-213 | n copies of c sum to c · n |
| ListUtils.RemoveRepeating | src/main/java/evo/search/util/ListUtils.java:177-191 | shorter lists come back unchanged; otherwise the result starts with the first item, has no equal neighbours, is no longer than the input and holds exactly the input's items |
| RandomUtils.InRangeInt | src/main/java/evo/search/util/RandomUtils.java:21-23 | succeeds iff the 32-bit bound max - min is positive; without overflow the value lies in [min, max) |
| RandomUtils.InRangeIntNoOverflow | src/main/java/evo/search/util/RandomUtils.java:21-23 | without overflow the range is usable exactly when min < max |
| RandomUtils.InRangeIntSingleton | src/main/java/evo/search/util/RandomUtils.java:21-23 | inRange(min, min + 1) always yields min |
| RandomUtils.InRangeIntFullRangeRejected | src/main/java/evo/search/util/RandomUtils.java:22 | the full int range wraps its bound to a negative number and is rejected |
| RandomUtils.InRangeReal | src/main/java/evo/search/util/RandomUtils.java:33-35 | for min < max the value lies in [min, max): max is never reached |
| RandomUtils.GeneratePoint | src/main/java/evo/search/util/RandomUtils.java:48-50 | succeeds iff there are slots; the gene has the slot count, a slot in [0, positions) and a distance in [min, max) |
| ExperimentCli.ProgressCount | src/main/java/evo/search/experiments/Experiment.java:30-32 | for a positive amount and non-negative progress, the count lies in [0, 40], brackets min(amount, progress)·40/amount from below, and, with the double operations taken as exact real ones, is 40 once progress reaches amount; a zero amount gives 0, or the cast of -∞ for negative progress |
| ExperimentCli.ScaledProgress | src/main/java/evo/search/experiments/Experiment.java:32 | the factor 40.0 / amount scales a progress in [0, amount] into [0, 40], reaching 40 exactly at amount |
| ExperimentCli.ProgressBounds | src/main/java/evo/search/experiments/Experiment.java:30-32 | the truncated product stays within the bar and brackets the exact fraction |
| ExperimentCli.ScaledTruncates | src/main/java/evo/search/experiments/Experiment.java:32 | with a positive amount and real arithmetic in place of doubles, the product is finite and the cast only truncates |
| ExperimentCli.PrintProgress | src/main/java/evo/search/experiments/Experiment.java:29-36 | 44 backspaces are always printed first; then a 40-cell bar between pipes with the first k cells '#' and the rest blank, or, exactly when k is outside [0, 40], the exception `repeat` throws with nothing more printed |
| ExperimentCli.PrintProgressDraws | src/main/java/evo/search/experiments/Experiment.java:29-36 | a positive amount and non-negative progress always draw the bar |
| ExperimentCli.PrintProgressFull | src/main/java/evo/search/experiments/Experiment.java:30-35 | under exact real arithmetic, progress at or past the amount draws the full bar of 40 '#' |
| ExperimentCli.PrintProgressZeroAmount | src/main/java/evo/search/experiments/Experiment.java:32-35 | a zero amount draws an empty bar for non-negative progress; negative progress prints the backspaces and then throws |
| ExperimentCli.FileName | src/main/java/evo/search/experiments/Experiment.java:47 | the last name element, without separators; `null` exactly for a path of separators only |
| ExperimentCli.ParseFileName | src/main/java/evo/search/experiments/Experiment.java:44-53 | "experiment" without arguments or for an empty name; `Path.of` rejects a name holding NUL; a null dereference for a root path; otherwise a non-empty name without separators |
| ExperimentCli.ParseFileNameOfChild | src/main/java/evo/search/experiments/Experiment.java:44-53 | a non-empty name without NUL under any NUL-free directory comes back unchanged |
| ExperimentCli.ParseSeed | src/main/java/evo/search/experiments/Experiment.java:61-69 | -1 with fewer than two arguments or an invalid `long`; always within the `long` range |
| ExperimentCli.ParseSeedRoundTrip | src/main/java/evo/search/experiments/Experiment.java:61-69 | every `long` written in decimal as the second argument is the seed |
| ExperimentCli.CandidateInjective | src/main/java/evo/search/experiments/Experiment.java:79-82 | different counts give different candidate names |
| ExperimentCli.CandidateNul | src/main/java/evo/search/experiments/Experiment.java:79-82 | a candidate holds a NUL exactly when the name or the extension does, since the count adds only `-` and digits |
| ExperimentCli.CandidatePath | src/main/java/evo/search/experiments/Experiment.java:79-82 | `Path.of` / `Paths.get` of a candidate fail with `IllegalArgumentException` exactly when the name or extension holds a NUL, whatever the count, and otherwise give a normal path |
| ExperimentCli.UniquePath | src/main/java/evo/search/experiments/Experiment.java:78-84 | `IllegalArgumentException` on the first candidate exactly when the name or extension holds a NUL; otherwise the parsed, normalised path of the first candidate (name + ext, then name-1 + ext, …) that does not exist, every earlier candidate's path existing |
| Vectors.Reduce | src/main/java/evo/search/experiments/Vector2D.java:39-41 | the function is applied to each pair of coordinates |
| Vectors.Map | src/main/java/evo/search/experiments/Vector2D.java:43-45 | the function is applied to each coordinate on its own |
| Vectors.Divide | src/main/java/evo/search/experiments/Vector2D.java:59-61 | the quotient leaves the reals exactly for a zero divisor |
| Vectors.AddSubtractComponentwise | src/main/java/evo/search/experiments/Vector2D.java:47-53 | adding and subtracting are componentwise, and the default (0, 0) vector is neutral |
| Vectors.SubtractThenAdd | src/main/java/evo/search/experiments/Vector2D.java:47-53 | subtracting and then adding the same vector gives the vector back, in either order |
| Vectors.AddCommutative | src/main/java/evo/search/experiments/Vector2D.java:47-49 | adding is commutative |
| Vectors.MultiplyThenDivide | src/main/java/evo/search/experiments/Vector2D.java:55-61 | for a non-zero factor, dividing undoes multiplying and multiplying undoes dividing |
| Vectors.MultiplyIsMap | src/main/java/evo/search/experiments/Vector2D.java:43-57 | scaling is `map` with a multiplication |
| Transformation.Revert | src/main/java/evo/search/view/render/Transformation.java:51-53 | the inverse map leaves the reals exactly when the scale is zero |
| Transformation.RevertAfterTransform | src/main/java/evo/search/view/render/Transformation.java:51-63 | for a non-zero scale, reverting a transformed point gives the point back |
| Transformation.TransformAfterRevert | src/main/java/evo/search/view/render/Transformation.java:51-63 | for a non-zero scale, transforming a reverted point gives the point back |
| Transformation.TransformLine | src/main/java/evo/search/view/render/Transformation.java:71-73 | both endpoints of the line are transformed |
| Transformation.ApplyTranslate | src/main/java/evo/search/view/render/Transformation.java:82 | a translated matrix moves a point first, then applies the original matrix |
| Transformation.ApplyScale | src/main/java/evo/search/view/render/Transformation.java:83 | a scaled matrix stretches a point first, then applies the original matrix |
| Transformation.AffineAgreesWithTransform | src/main/java/evo/search/view/render/Transformation.java:80-85 | the matrix handed to the graphics context maps every point as `transform` does |
| Transformation.Press | src/main/java/evo/search/view/render/Transformation.java:95-98 | the press point and the current offset are remembered; offset and scale stay |
| Transformation.Drag | src/main/java/evo/search/view/render/Transformation.java:111-117 | the new offset minus the saved one equals the mouse's travel since the press; a drag before any press dereferences `null` |
| Transformation.DragBackRestores | src/main/java/evo/search/view/render/Transformation.java:95-117 | dragging back to the press point restores the saved offset, and every drag depends only on the press |
| Transformation.Zoom | src/main/java/evo/search/view/render/Transformation.java:130-142 | a positive rotation multiplies the scale and the cursor-to-offset vector by the amount, otherwise both are divided |
| Transformation.RevertScaledAround | src/main/java/evo/search/view/render/Transformation.java:132-139 | scaling the scale and the cursor-to-offset vector by the same non-zero factor keeps the reverted cursor |
| Transformation.ZoomKeepsCursorFixed | src/main/java/evo/search/view/render/Transformation.java:130-140 | the world point under the cursor stays under it |
| Transformation.ZoomInThenOut | src/main/java/evo/search/view/render/Transformation.java:134-140 | zooming in and then out by the same amount at the same cursor restores scale and offset |
| SortedListModels.Empty | src/main/java/evo/search/view/model/SortedListModel.java:25 | a new model holds no elements |
| SortedListModels.GetElementAt | src/main/java/evo/search/view/model/SortedListModel.java:33-35 | the element at the index inside the list; an index error outside it |
| SortedListModels.SortModel | src/main/java/evo/search/view/model/SortedListModel.java:95-98 | the contents are permuted (same multiset) and, for a well-behaved comparator, end up in comparator order |
| Sorting.SortSpec | src/main/java/evo/search/view/model/SortedListModel.java:96 | the sort yields a permutation of its input in comparator order |
| SortedListModels.AddElement | src/main/java/evo/search/view/model/SortedListModel.java:42-46 | one element more, the new one among them, the others all kept, and the list sorted |
| SortedListModels.AddElementInserts | src/main/java/evo/search/view/model/SortedListModel.java:42-46 | on a sorted model, adding inserts the element after its equals and keeps the others in order; sorting a sorted model changes nothing |
| SortedListModels.Remove | src/main/java/evo/search/view/model/SortedListModel.java:53-56 | inside the list exactly the element at the index leaves and the others keep their order; an index error outside it |
| SortedListModels.RemoveRange | src/main/java/evo/search/view/model/SortedListModel.java:70-78 | a reversed range throws and changes nothing; an in-range one removes from..to inclusive, shrinking by to - from + 1 and keeping the rest in order; an index outside the list throws when the loop reaches it, keeping the removals made so far |
| SortedListModels.IndexOf | src/main/java/evo/search/view/model/SortedListModel.java:88-90 | the first index holding an equal element, or -1 exactly when there is none |
| CellMaps.Put | src/main/java/evo/search/view/model/SpecificCellEditor.java:28-31 | the row exists afterwards; a value is stored at its cell and every other cell keeps its value; a `null` value throws after the row was created |
| CellMaps.Get | src/main/java/evo/search/view/model/SpecificCellRenderer.java:40-42 | a value exactly when the row and the column were set, and then the stored one; `null` otherwise |
| CellMaps.GetAfterPut | src/main/java/evo/search/view/model/SpecificCellEditor.java:28-43 | a value set for a cell is read back, and every other cell reads as before |
| CellMaps.PutNullKeepsValues | src/main/java/evo/search/view/model/SpecificCellRenderer.java:28-31 | a rejected `null` changes no cell's value |
| CellMaps.GetEmpty | src/main/java/evo/search/view/model/SpecificCellEditor.java:40-43 | a fresh table answers `null` for every cell |
| CellMaps.PutTwiceLastWins | src/main/java/evo/search/view/model/SpecificCellRenderer.java:30 | setting the same cell twice keeps only the last value |
| LegacyJsonService.Invalid | src/main/java/evo/search/io/JsonService.java:201-206 | true when the key count differs; for distinct required keys it holds iff the key set is not exactly the required set; a repeated required key makes `Set.of` throw once the counts agree |
| LegacyJsonService.WritePoint | src/main/java/evo/search/io/JsonService.java:40-44 | exactly the keys "position" and "distance", holding the slot and the distance |
| LegacyJsonService.GeneObjects | src/main/java/evo/search/io/JsonService.java:52-54 | one written gene per gene, in gene order |
| LegacyJsonService.WriteChromosome | src/main/java/evo/search/io/JsonService.java:62-66 | the genes under "chromosome" in order; an empty chromosome gives the empty object |
| LegacyJsonService.WriteRun | src/main/java/evo/search/io/JsonService.java:74-77 | the written chromosome plus the limit |
| LegacyJsonService.AddLists | src/main/java/evo/search/io/JsonService.java:92-100 | "treasures" and "history" are added, as empty arrays for empty lists, and the header is kept |
| LegacyJsonService.WriteConfiguration | src/main/java/evo/search/io/JsonService.java:85-102 | exactly the keys ver, positions, distance, limit, treasures and history, with the version, slot count, distance list, limit, the written treasures and the written runs |
| LegacyJsonService.ReadPoint | src/main/java/evo/search/io/JsonService.java:110-115 | `null` exactly when the keys are not "position" and "distance"; otherwise the cast slot and the distance, or a format error for a value of the wrong kind |
| LegacyJsonService.ReadGene | src/main/java/evo/search/io/JsonService.java:123-129 | a gene around the read point, `null` exactly when the point is |
| LegacyJsonService.ReadGenes | src/main/java/evo/search/io/JsonService.java:141-147 | never more genes than elements (`null`s are dropped) |
| LegacyJsonService.ReadChromosome | src/main/java/evo/search/io/JsonService.java:137-150 | `null` exactly unless "chromosome" is the only key; a result holds the array's readable genes in order |
| LegacyJsonService.ReadRun | src/main/java/evo/search/io/JsonService.java:152-159 | `null` exactly unless the keys are "limit" and "chromosome"; a result needs an object under "chromosome" |
| LegacyJsonService.ReadConfiguration | src/main/java/evo/search/io/JsonService.java:168-192 | never yields a configuration: `null` exactly when the keys differ from ver, positions, distances, treasures, history, and a format error otherwise |
| LegacyJsonService.PointRoundTrip | src/main/java/evo/search/io/JsonService.java:40-44 | a point with an `int` slot reads back with its slot and distance under the reader's slot count, also as a gene |
| LegacyJsonService.GeneRoundTrip | src/main/java/evo/search/io/JsonService.java:52-54 | a gene with an `int` slot and the reader's slot count reads back as itself |
| LegacyJsonService.GenesRoundTrip | src/main/java/evo/search/io/JsonService.java:141-147 | the written genes read back as the same genes, in order |
| LegacyJsonService.ChromosomeRoundTrip | src/main/java/evo/search/io/JsonService.java:62-66 | a non-empty chromosome reads back as itself; the empty one is written as `{}` and reads as `null` |
| LegacyJsonService.RunNeverReadsBack | src/main/java/evo/search/io/JsonService.java:74-77 | a written run never reads back: its chromosome is an array where `readRun` wants an object, and an empty chromosome leaves only the limit |
| LegacyJsonService.ReadRunOfArray | src/main/java/evo/search/io/JsonService.java:156-157 | an array under "chromosome" makes `readRun` fail |
| LegacyJsonService.ConfigurationNeverReadsBack | src/main/java/evo/search/io/JsonService.java:24-32 | a written configuration reads as `null`: it has "distance" and "limit" where the reader demands "distances" and no limit |
| JsonService.NamesInjective | src/main/java/evo/search/io/service/JsonService.java:96-116 | distinct alterer classes and distinct fitness variants are written under distinct names |
| JsonService.WriteAlterer | src/main/java/evo/search/io/service/JsonService.java:114-118 | exactly the keys "method" and "probability", holding the class's simple name and the probability |
| JsonService.AltererObjects | src/main/java/evo/search/io/service/JsonService.java:109 | one written alterer per alterer, in order |
| JsonService.Identity | src/main/java/evo/search/io/service/JsonService.java:90-95 | the version, name, slot count, distance list and limit under their keys |
| JsonService.Settings | src/main/java/evo/search/io/service/JsonService.java:96-99 | the fitness by name and the three sizes are added and the earlier fields kept |
| JsonService.Sizes | src/main/java/evo/search/io/service/JsonService.java:97-99 | population, offspring and survivors are added and the earlier fields kept |
| JsonService.SettingsKeysDiffer | src/main/java/evo/search/io/service/JsonService.java:28-46 | the configuration's keys are pairwise distinct |
| JsonService.AddLists | src/main/java/evo/search/io/service/JsonService.java:101-110 | "alterers" and "treasures" are added, as empty arrays for empty lists, and the earlier fields kept |
| JsonService.WriteConfiguration | src/main/java/evo/search/io/service/JsonService.java:89-112 | every configuration key is present, with the written treasures and alterers in order |
| JsonService.WrittenSettings | src/main/java/evo/search/io/service/JsonService.java:91-96 | the version and name are strings, the slot count a number and the fitness its name |
| JsonService.IdentityLeavesOut | src/main/java/evo/search/io/service/JsonService.java:90-99 | the identifying fields do not use the keys the settings and lists add |
| JsonService.SettingsLeaveOut | src/main/java/evo/search/io/service/JsonService.java:96-110 | the settings do not use the list keys |
| JsonService.ChromosomeObjects | src/main/java/evo/search/io/service/JsonService.java:129 | one written chromosome per individual, in order |
| JsonService.AppendIndividuals | src/main/java/evo/search/io/service/JsonService.java:127-130 | the configuration entry is kept; "individuals" is there exactly when something was appended, holding the items in order |
| JsonService.WriteExperiment | src/main/java/evo/search/io/service/JsonService.java:126-131 | the written configuration, and the written individuals under "individuals", which is absent when there are none |
| JsonService.ReadPoint | src/main/java/evo/search/io/service/JsonService.java:139-141 | no key check: succeeds exactly when the slot reads as an `int` and the distance as a double, and then holds them on the reader's slot count |
| JsonService.ReadPointStringDistance | src/main/java/evo/search/io/service/JsonService.java:139-141 | a distance given as the string "2.5" is parsed: slot 1, distance 2.5 |
| JsonService.ReadGene | src/main/java/evo/search/io/service/JsonService.java:149-155 | a gene around the read point, failing exactly when the point does; never `null` |
| JsonService.ReadChromosome | src/main/java/evo/search/io/service/JsonService.java:163-173 | one gene per element, in order, each read from an object; any non-object element makes it fail |
| JsonService.Objects | src/main/java/evo/search/io/service/JsonService.java:234-238 | exactly the object elements, in order |
| JsonService.ReadArray | src/main/java/evo/search/io/service/JsonService.java:232-240 | the reader applied to exactly the object elements, in order; it fails iff the reader fails on one of them |
| JsonService.ReadPoints | src/main/java/evo/search/io/service/JsonService.java:215-216 | one point per element, in order, each read from an object on the configuration's slot count |
| JsonService.ReadConfiguration | src/main/java/evo/search/io/service/JsonService.java:196-226 | succeeds iff name, slot count, distance entry and readable treasures are there; the version defaults to "undefined", the limit is always 1000, the distances come back empty, and fitness and sizes are the builder defaults |
| JsonService.ReadExperiment | src/main/java/evo/search/io/service/JsonService.java:175-187 | succeeds exactly when the configuration object reads and every array element of "individuals" reads as a chromosome; the individuals are those chromosomes, in order, and every other element is skipped |
| JsonService.Arrays | src/main/java/evo/search/io/service/JsonService.java:180-184 | the array elements in order, none for an array without arrays |
| JsonService.ReadChromosomes | src/main/java/evo/search/io/service/JsonService.java:180-184 | succeeds exactly when every array reads; then one chromosome per array, in order |
| JsonService.ReadConfigurations | src/main/java/evo/search/io/service/JsonService.java:228-230 | one configuration per object element, each the one that element reads as; fails iff one of them does not read |
| JsonService.ReadProject | src/main/java/evo/search/io/service/JsonService.java:246-251 | succeeds iff version, name and path are strings, which it keeps; no configuration is selected or listed |
| JsonService.ReadProjects | src/main/java/evo/search/io/service/JsonService.java:242-244 | one project per object element, in order; fails iff one of them does not read |
| JsonService.ProjectsRoundTrip | src/main/java/evo/search/io/service/JsonService.java:242-251 | a list of projects written with their three strings reads back as fresh projects holding them, in order |
| JsonService.PointRoundTrip | src/main/java/evo/search/io/service/JsonService.java:55-59 | a written point reads back with its slot and distance on the reader's slot count, and so does a written gene |
| JsonService.PointsRoundTrip | src/main/java/evo/search/io/service/JsonService.java:110 | the written treasures read back as the same points, in order |
| JsonService.GenesRoundTrip | src/main/java/evo/search/io/service/JsonService.java:163-173 | the written genes read back as the same chromosome, the empty one included |
| JsonService.ChromosomeRoundTrip | src/main/java/evo/search/io/service/JsonService.java:77-81 | a non-empty written chromosome holds an array under "chromosome" that reads back as it |
| JsonService.Reread | src/main/java/evo/search/io/service/JsonService.java:218-225 | what survives a write and read: version, name, slot count and treasures; the limit becomes 1000, the distances are lost once written to text and parsed back, fitness and sizes are the defaults |
| JsonService.ConfigurationRoundTrip | src/main/java/evo/search/io/service/JsonService.java:89-226 | a configuration with an `int` slot count and readable treasures reads back as its `Reread` form |
| JsonService.WrittenFields | src/main/java/evo/search/io/service/JsonService.java:197-216 | the getters of `readConfiguration` find the written version, name, slot count, distance entry and treasures |
| JsonService.WrittenStrings | src/main/java/evo/search/io/service/JsonService.java:197-205 | the version and name read back as written |
| JsonService.WrittenNumbers | src/main/java/evo/search/io/service/JsonService.java:207-216 | the slot count reads back as written and the distance entry and treasures are there |
| JsonService.RereadIdempotent | src/main/java/evo/search/io/service/JsonService.java:218-225 | writing and reading twice is writing and reading once |
| JsonService.ExperimentLosesIndividuals | src/main/java/evo/search/io/service/JsonService.java:126-187 | an experiment never reads back its individuals: without any the array is missing and reading throws; with some each is an object, which the reader skips |
| JsonService.WrittenIndividuals | src/main/java/evo/search/io/service/JsonService.java:129 | "individuals" is there exactly when there are individuals, and holds only objects |
| JsonService.ReadExperimentOfObjects | src/main/java/evo/search/io/service/JsonService.java:175-187 | without "individuals" reading throws; with an array of objects it yields the configuration and no individuals |
| Dom.ChildrenNamed | src/main/java/evo/search/io/service/XmlService.java:58-63 | `forEach` visits exactly the children with the name, in document order |
| XmlService.IntValue | src/main/java/evo/search/io/service/XmlService.java:42-43 | an `Integer` value is written as its decimal text with class name "Integer" |
| XmlService.StringValue | src/main/java/evo/search/io/service/XmlService.java:42-43 | a `String` value is written as itself with class name "String" |
| XmlService.WritePropertyTyped | src/main/java/evo/search/io/service/XmlService.java:46-56 | a `null` name or value throws; otherwise a childless "property" element with name and value, plus a type only when the type is neither `null` nor empty |
| XmlService.WriteProperty | src/main/java/evo/search/io/service/XmlService.java:41-44 | a "property" element with the name and the value's text; a `null` value is written as "null" with no type |
| XmlService.Decode | src/main/java/evo/search/io/service/XmlService.java:36 | the text "null" reads as `null`, any other text as itself |
| XmlService.PropertyOf | src/main/java/evo/search/io/service/XmlService.java:32-37 | a pair exactly when the element has both a name and a value attribute, holding the name and the decoded value |
| XmlService.Pairs | src/main/java/evo/search/io/service/XmlService.java:31-38 | at most one pair per element, exactly one each, in order, when every element carries both attributes |
| XmlService.PairsAppend | src/main/java/evo/search/io/service/XmlService.java:31-38 | the pairs of a concatenation are the pairs of each part |
| XmlService.ReadProperties | src/main/java/evo/search/io/service/XmlService.java:27-39 | nothing for a `null` parent; otherwise the pairs of its "property" children in document order |
| XmlService.PropertyRoundTrip | src/main/java/evo/search/io/service/XmlService.java:36-44 | a written property reads back under its name with the value's text; `null` reads as `null`, and so does a genuine text "null" |
| XmlService.ReadWrittenProperties | src/main/java/evo/search/io/service/XmlService.java:27-44 | properties added to an element read back after the existing ones, in the order they were added |
| XmlService.ReadElementList | src/main/java/evo/search/io/service/XmlService.java:97-101 | a `null` parent throws; otherwise one result per child with the name, in order, failing iff the action fails on one of them |
| XmlService.MapAll | src/main/java/evo/search/io/service/XmlService.java:99 | the action on every element in order; a failure is the failure of one of them |
| XmlService.Present | src/main/java/evo/search/io/service/XmlService.java:88-93 | the parsed entries in order, the `null` ones dropped |
| XmlService.ReadRegister | src/main/java/evo/search/io/service/XmlService.java:75-95 | no entries unless the root is "register" with an "entries" child; then the "entry" children that parse, in order |
| XmlService.AppendElementList | src/main/java/evo/search/io/service/XmlService.java:103-105 | the existing children are kept and each item's element appended in order |
| XmlService.WriteRegister | src/main/java/evo/search/io/service/XmlService.java:65-73 | a "register" root with the version and one "entries" child holding the serialised entries |
| XmlService.EntriesElement | src/main/java/evo/search/io/service/XmlService.java:70-71 | one serialised entry per entry, in order |
| XmlService.ParseAll | src/main/java/evo/search/io/service/XmlService.java:87 | serialised entries parse back one by one |
| XmlService.RegisterRoundTrip | src/main/java/evo/search/io/service/XmlService.java:65-95 | a written register reads back its entries in order, each as `parse` rereads it |
| XmlService.RegisterShape | src/main/java/evo/search/io/service/XmlService.java:67-71 | the written "entries" element comes first and all its children are "entry" elements |
| XmlService.RegisterReads | src/main/java/evo/search/io/service/XmlService.java:82-94 | a register with an "entries" child reads as the entries that parse, or fails as the parse does |
| XmlService.PresentAll | src/main/java/evo/search/io/service/XmlService.java:93 | when every entry parsed, none is dropped |
| XmlService.WritePoint | src/main/java/evo/search/io/service/XmlService.java:107-111 | exactly the attributes "position" and "distance"; the slot text parses back to the slot |
| Decimal.ParseIntegerRoundTrip | src/main/java/evo/search/io/entities/Workspace.java:111-117 | the decimal text `String.valueOf` writes for an integer parses back to that integer whenever it lies in the parser's range |
| Decimal.ParseIntRoundTrip | src/main/java/evo/search/io/entities/Workspace.java:111-117 | `Integer.parseInt` reads back every `int` `String.valueOf` wrote |
| Decimal.IntToStringInjective | src/main/java/evo/search/io/entities/Workspace.java:64-68 | distinct integers are written as distinct texts |
| Decimal.ParseDecimal | src/main/java/evo/search/io/service/JsonService.java:140 | plain decimal text with an optional sign reads as a value of that sign; any other text is rejected |
| Decimal.ParseDecimalExtendsInteger | src/main/java/evo/search/io/service/JsonService.java:140 | every text `parseInt` or `parseLong` accepts reads as the same number in decimal notation |
| Decimal.ParseUnsignedFraction | src/main/java/evo/search/io/service/JsonService.java:140 | digits, a point and digits read as the whole part plus the fraction over the matching power of ten |
| Json.GetInt | src/main/java/evo/search/io/service/JsonService.java:207 | a number is cast to `int`, a string is read by `parseInt`; a missing key, a rejected string or any other kind is a format error |
| Json.GetDouble | src/main/java/evo/search/io/service/JsonService.java:140 | a number's value, or a string read by `parseDouble`; a missing key, a rejected string or any other kind is a format error |
| Projects.Text | src/main/java/evo/search/io/entities/Project.java:36-38 | a `String` field is written as a String value, `null` as `null` |
| Projects.Properties | src/main/java/evo/search/io/entities/Project.java:35-40 | exactly four properties: name, version, path, then the selected configuration as an integer |
| Projects.Serialize | src/main/java/evo/search/io/entities/Project.java:33-42 | a "project" root whose children are the four properties |
| Projects.Apply | src/main/java/evo/search/io/entities/Project.java:47-56 | "name", "version" and "path" set their field; any other key, "selectedConfiguration" included, changes nothing |
| Projects.ApplyAll | src/main/java/evo/search/io/entities/Project.java:46-57 | applying properties never touches the selection or the configurations |
| Projects.Parse | src/main/java/evo/search/io/entities/Project.java:45-59 | the receiver keeps its selection and configurations; a document without a root leaves it unchanged |
| Projects.Reread | src/main/java/evo/search/io/entities/Project.java:36-38 | a string survives a property unless it is the text "null", which comes back as `null` |
| Projects.ParseSerialize | src/main/java/evo/search/io/entities/Project.java:33-59 | parsing a serialised project into any receiver sets exactly its name, version and path, and keeps the receiver's selection and configurations: the selection is written but not read |
| Projects.ParseSerializeFresh | src/main/java/evo/search/io/entities/Project.java:20-59 | a fresh project parsed from a serialised one has its strings, selection -1 and no configurations |
| Workspaces.SerializeLocation | src/main/java/evo/search/io/entities/Workspace.java:64-68 | an element with exactly the attributes "x" and "y", holding the coordinates' decimal text |
| Workspaces.SerializeSize | src/main/java/evo/search/io/entities/Workspace.java:78-82 | an element with exactly the attributes "width" and "height", holding the decimal text |
| Workspaces.IntProperty | src/main/java/evo/search/io/entities/Workspace.java:96-98 | an `int` setting is written as an Integer property |
| Workspaces.Serialize | src/main/java/evo/search/io/entities/Workspace.java:90-103 | a "workspace" root holding the seven children in the written order |
| Workspaces.IntAttribute | src/main/java/evo/search/io/entities/Workspace.java:114-115 | a missing attribute reads as 0; a present one reads as its `int` value and throws `NumberFormatException` exactly when it is no decimal `int` |
| Workspaces.ParseLocation | src/main/java/evo/search/io/entities/Workspace.java:111-117 | a point from "x" and "y", failing exactly when one of them fails |
| Workspaces.ParseSize | src/main/java/evo/search/io/entities/Workspace.java:125-131 | a size from "width" and "height", failing exactly when one of them fails |
| Workspaces.PropertyInt | src/main/java/evo/search/io/entities/Workspace.java:168-174 | a property value that is `null` or no decimal `int` throws; otherwise its value |
| Workspaces.ApplyProperty | src/main/java/evo/search/io/entities/Workspace.java:165-176 | "configSelected", "logDivider" and "mainDivider" set their field or throw; any other name changes nothing |
| Workspaces.Parse | src/main/java/evo/search/io/entities/Workspace.java:140-183 | without a root a fresh workspace comes back and the receiver is untouched; otherwise the receiver, with every child applied until the first throw, is what is returned |
| Workspaces.LocationRoundTrip | src/main/java/evo/search/io/entities/Workspace.java:64-117 | a serialised point parses back to itself |
| Workspaces.SizeRoundTrip | src/main/java/evo/search/io/entities/Workspace.java:78-131 | a serialised dimension parses back to itself |
| Workspaces.PropertyIntRoundTrip | src/main/java/evo/search/io/entities/Workspace.java:96-98 | a written integer setting is read as its decimal text, which parses back to it |
| Workspaces.NullIsNoInt | src/main/java/evo/search/io/entities/Workspace.java:168 | the text "null" a `null` property decodes from throws when parsed as an `int` |
| Workspaces.ParseSerialize | src/main/java/evo/search/io/entities/Workspace.java:90-183 | parsing a serialised workspace into any receiver restores every field and throws nothing |
| IndexEntries.Default | src/main/java/evo/search/io/entities/IndexEntry.java:31-46 | the defaults: the root path, "Unknown", "unknown" and the earliest date |
| IndexEntries.Parse | src/main/java/evo/search/io/entities/IndexEntry.java:54-69 | no entry without a path attribute; otherwise the path, the name or "Unknown", the version or "unknown", the parsed date or the clock's now |
| IndexEntries.Serialize | src/main/java/evo/search/io/entities/IndexEntry.java:76-83 | an "entry" element carrying the path and formatted date, and the name and version exactly when they are not `null` |
| IndexEntries.Reread | src/main/java/evo/search/io/entities/IndexEntry.java:64-65 | a serialised entry comes back with its path and date, and with the defaults in place of a `null` name or version |
| IndexEntries.ParseSerialize | src/main/java/evo/search/io/entities/IndexEntry.java:54-83 | an entry whose date the formatter reads back survives serialising and parsing, `null` fields replaced by their defaults, without consulting the clock |
| IndexEntries.ParsedIsStable | src/main/java/evo/search/io/entities/IndexEntry.java:54-83 | every parsed entry serialises and parses back to itself |
| FileService.FilePath | src/main/java/evo/search/io/service/FileService.java:69 | the path is the folder, a separator, the file name and ".xml", so distinct names give distinct paths |
| FileService.FilePathInjective | src/main/java/evo/search/io/service/FileService.java:69 | distinct file names in one folder are distinct paths |
| FileService.NumberedInjective | src/main/java/evo/search/io/service/FileService.java:65 | one base with two numbers gives one name only for the same number |
| FileService.StepAsWritten | src/main/java/evo/search/io/service/FileService.java:61-67 | a name already in the table gets its next number appended and the new name joins the table |
| FileService.FileNamingAsWritten | src/main/java/evo/search/io/service/FileService.java:58-72 | one file name per configuration |
| FileService.AsWrittenConsistent | src/main/java/evo/search/io/service/FileService.java:58-72 | the table's keys are exactly the file names handed out |
| FileService.SaveAsWritten | src/main/java/evo/search/io/service/FileService.java:57-73 | one write per configuration, in order, each with that configuration |
| FileService.RepeatedNamesAsWritten | src/main/java/evo/search/io/service/FileService.java:63-65 | a name repeated three times is written as "a", "a1", "a2" |
| FileService.CollisionAsWritten | src/main/java/evo/search/io/service/FileService.java:63-67 | configurations named "a", "a1", "a" get the file names "a", "a1", "a1" |
| FileService.Files | src/main/java/evo/search/io/service/FileService.java:71 | each written path holds what was written to it last, and no other path appears |
| FileService.SaveAsWrittenLosesConfiguration | src/main/java/evo/search/io/service/FileService.java:57-73 | saving "a", "a1", "a" leaves two files, the third configuration overwriting the second |
| FileService.NextFree | src/main/java/evo/search/io/service/FileService.java:63-66 | the least number from the start on whose numbered name is free |
| FileService.Step | src/main/java/evo/search/io/service/FileService.java:61-67 | the new file name is not in use yet, is the name itself when free and the name with a larger number otherwise |
| FileService.FileNaming | src/main/java/evo/search/io/service/FileService.java:58-72 | one file name per configuration |
| FileService.NamingInvariant | src/main/java/evo/search/io/service/FileService.java:58-72 | no two configurations get the same file name |
| FileService.StepValid | src/main/java/evo/search/io/service/FileService.java:61-67 | naming one configuration keeps the table consistent and the names distinct |
| FileService.Save | src/main/java/evo/search/io/service/FileService.java:57-73 | one write per configuration, in order, to the path of its collision-free file name |
| FileService.NamesKeepTheirBase | src/main/java/evo/search/io/service/FileService.java:61-65 | each configuration's file is its own name when free, and that name with a positive number otherwise |
| FileService.LastFileName | src/main/java/evo/search/io/service/FileService.java:61-65 | the last configuration is named after itself if still free, numbered otherwise |
| FileService.SaveKeepsEveryConfiguration | src/main/java/evo/search/io/service/FileService.java:57-73 | the folder ends with one file per configuration, each holding that configuration |
| FileService.DistinctWrites | src/main/java/evo/search/io/service/FileService.java:71 | writes to pairwise distinct paths leave one file per write with its content |
| FileService.OneMoreWrite | src/main/java/evo/search/io/service/FileService.java:71 | a write to a new path adds one file and keeps the others |
| FileService.RepeatedNames | src/main/java/evo/search/io/service/FileService.java:63-65 | on a plain repeated name the corrected naming agrees with the original |
| FileService.NoCollision | src/main/java/evo/search/io/service/FileService.java:63-67 | "a", "a1", "a" are written to "a", "a1" and "a2" |

## Left out

- The Swing user interface (forms, panels, dialogs, renderers beyond their two-level maps) is not modelled: it is presentation with no logic of its own.
- The jenetics engine is not modelled: `Evolution.Run` takes the stream of generations the engine would produce, and the abort flag as observed once per generation.
- Evolution.Run: a fitness method that throws while the engine evaluates (the SINGULAR variant without treasures, see `Evolution.EvaluateSpec`) ends `run` with that exception; the model takes the generations as given and does not raise it.
- Evolution.GenotypeFailure: the exceptions of `Genotype.of` come from jenetics, which is not part of this model; a negative population is taken to fail allocating the chromosome list, an empty list to be rejected by the genotype.
- Threads and the `aborted` flag's concurrent writes are not modelled; the flag is a sequence of observed values.
- File reading and writing, file dialogs and the console are not modelled: `FileService.Save` returns the writes it performs, `ExperimentCli.UniquePath` takes the set of existing files, and progress output is returned as the text printed together with the exception thrown after it.
- Trigonometry and square roots are not modelled: the leg length between two points is the parameter `leg`, and π is the double constant `Math.PI`.
- Doubles are modelled as reals: rounding is not modelled; where infinities or NaN matter (the ratio fitness, `MAX_AREA`), `Doubles.Double` adds them.
- `SwapDistanceMutator` keeps the swapped distance in a `float`; the narrowing to single precision is not modelled, the distance is swapped exactly.
- `Transformation` is the canvas transform of `view/render/Transformation.java`; its affine matrix is modelled only through `Transformation.AffineAgreesWithTransform`.
- `DiscretePoint.swapDistances` and `XmlService.readProperty` are called but not declared in the revision modelled; they are modelled like `swapDistance` and like one step of `readProperties`.
- `JsonService.readProject` passes name, version and path to a constructor the `Project` class of this revision does not declare; the model stores each value in the field of its key.
- `XmlService.writeRegister` calls an `IndexEntry::createElement` the entry class does not declare; the model uses `serialize`.
- FileService.Save: the per-name counter of the table is an unbounded integer, so the overflow of `Integer` after 2^31 repeats of one name is not modelled.
- A configuration without a name makes `save` throw a `NullPointerException`; names are always present in the model.
- `UnixPaths` normalises with the Unix separator `/` only.
- Documents are serialised to dom4j trees only; the text of the written XML and JSON files is not modelled.
- DiscretePoints.DistanceSquared: states only that the square is never negative; that it is `distance · distance` is its definition.
- LegacyJsonService.ReadGenes: states only that no more genes come back than items were read; which items read as genes is stated by `LegacyJsonService.GenesRoundTrip`.
- SearchExperiment.Fitness: states only the empty case; the mean of the ratios is stated by `SearchExperiment.FitnessFiniteIffTracesNonZero`.
- Mutators.Mutate: states the length and the mutation count only; the contents are stated by `Mutators.MutatePermutes`.
- ListUtils.RemoveRepeating: states membership both ways, the first item and no equal neighbours, not that the result is a subsequence of the input.
- ExperimentCli.ProgressCount: computes `40.0 / amount` and the product as exact reals; in IEEE doubles the quotient can round down, so for amounts such as 77, 154, 303 or 581 the finished bar shows 39 `#`, not 40.
- ExperimentCli.ScaledTruncates: holds for exact real arithmetic only; the double product can fall just below the exact one and truncate one lower.
- ExperimentCli.PrintProgressFull: the full bar of 40 `#` is promised under exact real arithmetic only, for the rounding reason given for `ProgressCount`.
- LegacyJsonService.ReadPoint: an integral JSON number outside the `int` range is cast with saturation; `org.json` keeps such a literal as a `Long`, whose `intValue` wraps.
- JsonService.ReadPoint: as for the legacy reader, an out-of-range integral slot saturates instead of wrapping; a string distance is read only in plain decimal notation (see `Decimal.ParseDecimal`).
- Decimal.ParseDecimal: reads only an optional sign, digits and an optional point with digits, as an exact value; `Double.parseDouble` also accepts exponents, "NaN", "Infinity", hexadecimal, type suffixes and surrounding blanks, and rounds to the nearest double.
- Json.GetInt: an integral number outside the `int` range saturates instead of wrapping as `Long.intValue` does, and a string is read with ASCII digits only.
- Json.GetDouble: a string value is read only in plain decimal notation (see `Decimal.ParseDecimal`).
- ExperimentCli.ParseSeed: accepts ASCII digits only; `Long.parseLong` also accepts other Unicode decimal digits.
- Workspaces.PropertyInt: accepts ASCII digits only; `Integer.parseInt` also accepts other Unicode decimal digits.
- `XmlService.readRegister` passes `IndexEntry::parse` as a `Function<Element, T>`, which matches no declared method: `IndexEntry.parse(Element)` is an instance method and needs a receiver, and `XmlEntity` declares `parse(Document)`; the model parses each element into a fresh entry.
- Decimal.ParseInt: accepts ASCII digits only; `Integer.parseInt` and `Long.parseLong` also accept other Unicode decimal digits (such as "٣" for 3), so `Workspaces.PropertyInt`, `Json.GetInt` and `ExperimentCli.ParseSeed` reject texts the source reads.
- ExperimentCli.UniquePath: needs a count whose candidate path is free, because the source loops forever when every candidate is taken; the count is unbounded, whereas the source's `int` counter wraps to negative numbers after 2^31 − 1 taken candidates; and the count is written in ASCII digits, whereas `String.format("%d")` uses the digits of the default locale.

## Findings

| source | as written | input that shows it | evidently intended | confidence | as-written member | corrected member |
|---|---|---|---|---|---|---|
| src/main/java/evo/search/ga/DiscreteChromosome.java:131 | `genes.containsAll(distances)` asks whether a `Double` equals a gene, which it never does | one gene at slot 0, distance 5.0, one slot, distances [5.0] | every configured distance is carried by some gene | high; not executed | DiscreteChromosomes.IsValidAsWrittenOnlyEmpty, DiscreteChromosomes.IsValidAsWrittenRejectsShuffle | DiscreteChromosomes.ShuffleIsValid |
| src/main/java/evo/search/ga/mutators/PositionMutator.java:38 | `Math.round(r · positions)` reaches `positions` for r ≥ 1 − 1/(2·positions) | one slot, draw r = 0.9 gives slot 1 | a slot uniformly in [0, positions) | high; not executed | Mutators.MutatePositionAsWritten, Mutators.MutatePositionAsWrittenOffByOne | Mutators.MutatePosition |
| src/main/java/evo/search/Environment.java:142-146 | the position test compares the point's slot with itself, so any point far enough out finds the treasure | point (2 slots, slot 1, 5.0) and treasure (2 slots, slot 0, 3.0) | the point must lie on the treasure's ray | high; not executed | Environment.FindsAsWritten, Environment.FindsAsWrittenIgnoresPosition, Environment.EvaluateAsWritten | Environment.FindsRefinesAsWritten, Environment.FirstHitAsWrittenNoLater |
| src/main/java/evo/search/io/service/FileService.java:57-73 | a repeated name gets its counter appended without checking that the numbered name is free | configurations named "a", "a1", "a": the third is written to "a1" over the second | one file per configuration | high; not executed | FileService.CollisionAsWritten, FileService.SaveAsWrittenLosesConfiguration | FileService.NoCollision, FileService.SaveKeepsEveryConfiguration |

=== FILE: analysis_utils.dfy ===
/** The spiral-likeness score: how closely a chromosome follows an ideal
    spiral that visits the configured distances in increasing order while
    turning one slot per step, in either direction. */
module AnalysisUtils {
  import opened Wrappers
  import opened Numerics
  import opened Sorting
  import opened DiscretePoints
  import opened DiscreteGenes
  import opened DiscreteChromosomes

  /** `Double::compareTo` on finite doubles. */
  function DoubleLe(a: real, b: real): bool {
    a <= b
  }

  lemma DoubleLeIsTotalPreorder()
    ensures TotalPreorder(DoubleLe)
  {
  }

  /** One counter-clockwise step: `++` followed by `%= positions`. */
  function CounterStep(p: int, n: int): int
    requires n != 0
  {
    JavaRem(p + 1, n)
  }

  /** One clockwise step: `--`, wrapping a negative slot to `positions - 1`. */
  function ClockStep(p: int, n: int): int {
    if p - 1 < 0 then n - 1 else p - 1
  }

  /** The counter-clockwise slot after `k` steps from `start`. */
  function CounterAt(start: int, k: nat, n: int): int
    requires n != 0
  {
    if k == 0 then start else CounterStep(CounterAt(start, k - 1, n), n)
  }

  /** The clockwise slot after `k` steps from `start`. */
  function ClockAt(start: int, k: nat, n: int): int {
    if k == 0 then start else ClockStep(ClockAt(start, k - 1, n), n)
  }

  /** Euclidean division is determined by any quotient/remainder pair. */
  lemma ModUnique(x: int, n: int, q: int, s: int)
    requires n > 0 && 0 <= s < n && x == q * n + s
    ensures x % n == s
  {
    var q', s' := x / n, x % n;
    assert (q - q') * n == s' - s;
    MulBound(q - q', n);
  }

  lemma MulBound(d: int, n: int)
    requires n > 0
    ensures d >= 1 ==> d * n >= n
    ensures d <= -1 ==> d * n <= -n
  {
    if d >= 1 {
      assert d * n == (d - 1) * n + n;
      assert (d - 1) * n >= 0;
    } else if d <= -1 {
      assert d * n == 0 - ((0 - d - 1) * n) - n;
      assert (0 - d - 1) * n >= 0;
    }
  }

  /** A counter-clockwise step from the remainder of any non-negative slot
      lands on the remainder of its successor. */
  lemma CounterStepMod(x: int, n: int)
    requires x >= 0 && n > 0
    ensures CounterStep(x % n, n) == (x + 1) % n
  {
    var r := x % n;
    var q := x / n;
    assert JavaRem(r + 1, n) == (r + 1) % n;
    if r + 1 < n {
      ModUnique(r + 1, n, 0, r + 1);
      ModUnique(x + 1, n, q, r + 1);
    } else {
      ModUnique(r + 1, n, 1, 0);
      ModUnique(x + 1, n, q + 1, 0);
    }
  }

  /** A clockwise step from the remainder of any slot lands on the
      remainder of its predecessor. */
  lemma ClockStepMod(x: int, n: int)
    requires n > 0
    ensures ClockStep(x % n, n) == (x - 1) % n
  {
    var r := x % n;
    var q := x / n;
    if r >= 1 {
      ModUnique(x - 1, n, q, r - 1);
    } else {
      ModUnique(x - 1, n, q - 1, n - 1);
    }
  }

  /** From a valid slot, the counter-clockwise walk advances by one modulo
      the number of slots: after `k` steps it is at (start + k) mod n. */
  lemma {:induction false} CounterAtClosedForm(start: int, k: nat, n: int)
    requires 0 <= start < n
    ensures CounterAt(start, k, n) == (start + k) % n
  {
    if k > 0 {
      CounterAtClosedForm(start, k - 1, n);
      CounterStepMod(start + k - 1, n);
    }
  }

  /** From a valid slot, the clockwise walk steps back by one and wraps to
      n - 1: after `k` steps it is at (start - k) mod n. */
  lemma {:induction false} ClockAtClosedForm(start: int, k: nat, n: int)
    requires 0 <= start < n
    ensures ClockAt(start, k, n) == (start - k) % n
  {
    if k > 0 {
      ClockAtClosedForm(start, k - 1, n);
      ClockStepMod(start - (k - 1), n);
    }
  }

  /** Both walks stay on valid slots, and a clockwise step undoes a
      counter-clockwise one and vice versa. */
  lemma StepsStayInRange(p: int, n: int)
    requires 0 <= p < n
    ensures 0 <= CounterStep(p, n) < n && 0 <= ClockStep(p, n) < n
    ensures ClockStep(CounterStep(p, n), n) == p
    ensures CounterStep(ClockStep(p, n), n) == p
  {
    CounterAtClosedForm(p, 1, n);
    if p + 1 < n {
      ModUnique(p + 1, n, 0, p + 1);
    } else {
      ModUnique(p + 1, n, 1, 0);
    }
    if p == 0 {
      ModUnique(n, n, 1, 0);
    } else {
      ModUnique(p, n, 0, p);
    }
  }

  /** The accumulated leg lengths from gene `k` on, against the
      counter-clockwise and the clockwise reference point of each step. The
      reference point of step `k` carries the `k`-th reference distance. */
  function Walk(genes: seq<Gene>, refs: seq<real>, k: nat, counter: int, clock: int, n: int, leg: Leg): (sums: (real, real))
    requires k <= |genes| <= |refs|
    requires n != 0
    ensures NonNegative(leg) ==> sums.0 >= 0.0 && sums.1 >= 0.0
    decreases |genes| - k
  {
    if k == |genes| then (0.0, 0.0)
    else
      var rest := Walk(genes, refs, k + 1, CounterStep(counter, n), ClockStep(clock, n), n, leg);
      (leg(genes[k].allele, Point(n, counter, refs[k])) + rest.0,
       leg(genes[k].allele, Point(n, clock, refs[k])) + rest.1)
  }

  /** The same sums, written with the closed-form slot of every step. */
  function ReferenceSums(genes: seq<Gene>, refs: seq<real>, k: nat, start: int, n: int, leg: Leg): (real, real)
    requires k <= |genes| <= |refs|
    requires n > 0
    decreases |genes| - k
  {
    if k == |genes| then (0.0, 0.0)
    else
      var rest := ReferenceSums(genes, refs, k + 1, start, n, leg);
      (leg(genes[k].allele, Point(n, (start + k) % n, refs[k])) + rest.0,
       leg(genes[k].allele, Point(n, (start - k) % n, refs[k])) + rest.1)
  }

  /** The stepping walk of the source visits exactly the closed-form slots. */
  lemma {:induction false} WalkMatchesReference(genes: seq<Gene>, refs: seq<real>, k: nat, start: int, n: int, leg: Leg)
    requires k <= |genes| <= |refs|
    requires 0 <= start < n
    ensures Walk(genes, refs, k, CounterAt(start, k, n), ClockAt(start, k, n), n, leg)
            == ReferenceSums(genes, refs, k, start, n, leg)
    decreases |genes| - k
  {
    if k < |genes| {
      var counter, clock := CounterAt(start, k, n), ClockAt(start, k, n);
      assert counter == (start + k) % n by {
        CounterAtClosedForm(start, k, n);
      }
      assert clock == (start - k) % n by {
        ClockAtClosedForm(start, k, n);
      }
      assert CounterAt(start, k + 1, n) == CounterStep(counter, n);
      assert ClockAt(start, k + 1, n) == ClockStep(clock, n);
      WalkMatchesReference(genes, refs, k + 1, start, n, leg);
    }
  }

  /** 1 when either sum is exactly zero, otherwise the reciprocal of the
      smaller sum. */
  function Score(sums: (real, real)): (s: real)
    ensures sums.0 == 0.0 || sums.1 == 0.0 ==> s == 1.0
    ensures sums.0 != 0.0 && sums.1 != 0.0 ==> s * MinReal(sums.0, sums.1) == 1.0
    ensures sums.0 >= 0.0 && sums.1 >= 0.0 ==> s > 0.0
  {
    if sums.0 == 0.0 || sums.1 == 0.0 then 1.0 else 1.0 / MinReal(sums.0, sums.1)
  }

  /** The outcome of `spiralLikeness`: the score or the exception it
      throws, and the configured distance list as the call leaves it (the
      method sorts that list in place before walking). */
  datatype SpiralOutcome = SpiralOutcome(score: Result<real>, distancesAfter: seq<real>)

  function SpiralLikeness(c: Chromosome, positions: int, distances: seq<real>, leg: Leg): (o: SpiralOutcome)
    ensures |c.genes| == 0 ==> o == SpiralOutcome(Ok(0.0), distances)
    ensures |c.genes| > 0 ==> SortedBy(o.distancesAfter, DoubleLe)
    ensures multiset(o.distancesAfter) == multiset(distances)
    ensures o.score.Ok? <==> |c.genes| == 0 || (positions != 0 && |c.genes| <= |distances|)
    ensures o.score.Err? && |distances| == 0 ==> o.score.error == IndexOutOfBounds
    ensures o.score.Err? && |distances| > 0 && positions == 0 ==> o.score.error == Arithmetic
    ensures NonNegative(leg) && |c.genes| > 0 && o.score.Ok? ==> o.score.value > 0.0
  {
    if |c.genes| == 0 then SpiralOutcome(Ok(0.0), distances)
    else
      DoubleLeIsTotalPreorder();
      SortSpec(distances, DoubleLe);
      var sorted := Sort(distances, DoubleLe);
      var start := c.genes[0].allele.position;
      var score :=
        if |sorted| == 0 then Err(IndexOutOfBounds)
        else if positions == 0 then Err(Arithmetic)
        else if |c.genes| > |sorted| then Err(IndexOutOfBounds)
        else Ok(Score(Walk(c.genes, sorted, 0, start, start, positions, leg)));
      SpiralOutcome(score, sorted)
  }

  /** On success, step `k` compares gene `k` with the `k`-th smallest
      configured distance at slots start + k and start - k (mod positions),
      where `start` is the first gene's slot. */
  lemma SpiralLikenessReference(c: Chromosome, positions: int, distances: seq<real>, leg: Leg)
    requires |c.genes| > 0
    requires 0 <= c.genes[0].allele.position < positions
    requires |c.genes| <= |distances|
    ensures SpiralLikeness(c, positions, distances, leg).score ==
            Ok(Score(ReferenceSums(c.genes, Sort(distances, DoubleLe), 0, c.genes[0].allele.position, positions, leg)))
  {
    DoubleLeIsTotalPreorder();
    SortSpec(distances, DoubleLe);
    WalkMatchesReference(c.genes, Sort(distances, DoubleLe), 0, c.genes[0].allele.position, positions, leg);
  }
}

=== FILE: cell_maps.dfy ===
/** The per-cell editor and renderer tables of the configuration table:
    `SpecificCellEditor` and `SpecificCellRenderer` keep the same
    two-level hash table from row to column to value, so one generic model
    serves both. */
module CellMaps {
  import opened Wrappers

  /** Row index to (column index to value). */
  type Table<V> = map<int, map<int, V>>

  /** What a `set` call leaves: the table and the exception it threw. */
  datatype SetOutcome<V> = SetOutcome(table: Table<V>, thrown: Option<Exception>)

  /** `setEditor(row, column, editor)` / `setRenderer(...)`: create the row
      if absent, then `put` the value. `Hashtable.put` throws for a `null`
      value, after the row has been created. */
  function Put<V>(t: Table<V>, row: int, column: int, value: Option<V>): (o: SetOutcome<V>)
    ensures o.thrown.Some? <==> value.None?
    ensures o.thrown.Some? ==> o.thrown.value == NullPointer
    ensures row in o.table && o.table.Keys == t.Keys + {row}
    ensures value.Some? ==> column in o.table[row] && o.table[row][column] == value.value
    ensures forall r :: r in t && r != row ==> o.table[r] == t[r]
    ensures forall c :: c in o.table[row] && c != column ==> row in t && c in t[row] && o.table[row][c] == t[row][c]
    ensures forall c :: row in t && c in t[row] ==> c in o.table[row]
  {
    var cells := if row in t then t[row] else map[];
    var withRow := t[row := cells];
    match value
    case None => SetOutcome(withRow, Some(NullPointer))
    case Some(v) => SetOutcome(t[row := cells[column := v]], None)
  }

  /** `getEditor(row, column)` / `getRenderer(...)`: `null` for a row never
      set, otherwise the row's entry for the column, `null` if absent. */
  function Get<V>(t: Table<V>, row: int, column: int): (r: Option<V>)
    ensures r.Some? <==> row in t && column in t[row]
    ensures r.Some? ==> r.value == t[row][column]
  {
    if row !in t then None
    else if column !in t[row] then None
    else Some(t[row][column])
  }

  /** A value set for a cell is the value read back for it, and no other
      cell's value changes. */
  lemma GetAfterPut<V>(t: Table<V>, row: int, column: int, v: V, r: int, c: int)
    ensures Put(t, row, column, Some(v)).thrown.None?
    ensures Get(Put(t, row, column, Some(v)).table, row, column) == Some(v)
    ensures (r, c) != (row, column) ==> Get(Put(t, row, column, Some(v)).table, r, c) == Get(t, r, c)
  {
  }

  /** A failed `put` of `null` changes no cell's value. */
  lemma PutNullKeepsValues<V>(t: Table<V>, row: int, column: int, r: int, c: int)
    ensures Get(Put(t, row, column, None).table, r, c) == Get(t, r, c)
  {
  }

  /** The fresh table answers `null` everywhere. */
  lemma GetEmpty<V>(t: Table<V>, r: int, c: int)
    requires t == map[]
    ensures Get(t, r, c).None?
  {
  }

  /** Setting the same cell twice keeps the last value only. */
  lemma PutTwiceLastWins<V>(t: Table<V>, row: int, column: int, v1: V, v2: V)
    ensures Put(Put(t, row, column, Some(v1)).table, row, column, Some(v2)).table
         == Put(t, row, column, Some(v2)).table
  {
    var once := Put(t, row, column, Some(v2)).table;
    var twice := Put(Put(t, row, column, Some(v1)).table, row, column, Some(v2)).table;
    assert twice[row] == once[row];
  }
}

=== FILE: configurations.dfy ===
/** The configuration records of the search and the old random
    configuration generator.

    Two revisions exist side by side: the builder record of the entity
    package (`Configuration`, generic over the fitness enum of the revision
    that uses it) and the older plain record with a run history
    (`SearchConfiguration`), whose `shuffle` generators are modelled here
    with every random draw passed in. */
module Configurations {
  import opened Wrappers
  import opened Numerics
  import opened DiscretePoints
  import opened DiscreteChromosomes
  import RandomUtils

  /** The alterer classes a configuration can list. */
  datatype AltererKind =
    | SwapGeneMutator
    | SwapPositionsMutator
    | SwapDistanceMutator
    | DistanceMutator
    | PositionMutator

  /** An alterer with the probability it was constructed with. */
  datatype Alterer = Alterer(kind: AltererKind, probability: real)

  /** The builder record; `F` is the fitness enum of the revision. */
  datatype Configuration<F> = Configuration(
    version: string,
    name: string,
    limit: int,
    positions: int,
    distances: seq<real>,
    treasures: seq<Point>,
    fitness: F,
    alterers: seq<Alterer>,
    offspring: int,
    survivors: int,
    population: int)

  /** `Main.UNKNOWN_VERSION`. */
  const UnknownVersion: string := "unknown"

  /** `Configuration.builder().build()`: every field at its declared
      default. The running version comes from the jar manifest and the
      default fitness from the revision's enum, so both are parameters. */
  function Defaults<F>(version: string, fitness: F): Configuration<F> {
    Configuration(
      version, "Unnamed", 1000, 3, [], [], fitness,
      [Alterer(SwapGeneMutator, 0.5), Alterer(SwapPositionsMutator, 0.5)],
      15, 10, 20)
  }

  /** A finished run of the older revision: its limit and best individual. */
  datatype Run = Run(limit: int, individual: Chromosome)

  /** The older configuration record: limit 1000 unless changed, an
      initially empty history. */
  datatype SearchConfiguration = SearchConfiguration(
    version: string,
    positions: int,
    distances: seq<real>,
    treasures: seq<Point>,
    limit: int,
    history: seq<Run>)

  /** `new Configuration(version, positions, distances, treasures)`. */
  function NewSearchConfiguration(version: string, positions: int, distances: seq<real>, treasures: seq<Point>): SearchConfiguration {
    SearchConfiguration(version, positions, distances, treasures, 1000, [])
  }

  predicate UnitDraws(rs: seq<real>) {
    forall i :: 0 <= i < |rs| ==> 0.0 <= rs[i] < 1.0
  }

  /** The distances `1 + nextDouble() * 9` in generation order, which is
      `inRange(1, 10)` written out. */
  function GeneratedDistances(rs: seq<real>): (ds: seq<real>)
    requires UnitDraws(rs)
    ensures |ds| == |rs|
    ensures forall i :: 0 <= i < |rs| ==> 1.0 <= ds[i] < 10.0
  {
    seq(|rs|, i requires 0 <= i < |rs| => RandomUtils.InRangeReal(1.0, 10.0, rs[i]))
  }

  /** The treasure derived from a generated distance `d`: slot `slot` and
      distance `1 + r * (d - 1)`, i.e. `inRange(1, d)` written out. The older point carries no slot count, so
      the generator's `positions` fills that field. */
  function TreasureFor(positions: int, slot: int, d: real, r: real): (t: Point)
    requires 1.0 <= d && 0.0 <= r < 1.0
    ensures t.position == slot && t.positions == positions
    ensures 1.0 <= t.distance <= d
    ensures d > 1.0 ==> t.distance < d
  {
    Point(positions, slot, RandomUtils.InRangeReal(1.0, d, r))
  }

  /** `shuffle(amountDistances, positions)`.

      `countDraw` is `nextInt(amountDistances)`, `distanceDraws` the
      `nextDouble()` behind each distance, `slotDraws` and `scaleDraws` the
      `nextInt(positions)` and `nextDouble()` behind each treasure, and
      `permuted` the distance list after `Collections.shuffle`. Both
      `nextInt` calls throw for a bound that is not positive. */
  function Shuffle(amountDistances: int, positions: int, version: string,
                   countDraw: int, distanceDraws: seq<real>, slotDraws: seq<int>,
                   scaleDraws: seq<real>, permuted: seq<real>): (r: Result<SearchConfiguration>)
    requires amountDistances > 0 ==> 0 <= countDraw < amountDistances
    requires |distanceDraws| == |slotDraws| == |scaleDraws| == Max(amountDistances, 0)
    requires UnitDraws(distanceDraws) && UnitDraws(scaleDraws)
    requires positions > 0 ==> forall i :: 0 <= i < |slotDraws| ==> 0 <= slotDraws[i] < positions
    requires multiset(permuted) == multiset(GeneratedDistances(distanceDraws))
    ensures r.Ok? <==> amountDistances > 0 && positions > 0
    ensures r.Err? ==> r.error == IllegalArgument
    ensures r.Ok? ==> r.value.positions == positions && r.value.version == version
    ensures r.Ok? ==> r.value.limit == 1000 && r.value.history == []
    ensures r.Ok? ==> |r.value.distances| == amountDistances
    ensures r.Ok? ==> multiset(r.value.distances) == multiset(GeneratedDistances(distanceDraws))
    ensures r.Ok? ==> forall i :: 0 <= i < |r.value.distances| ==> 1.0 <= r.value.distances[i] < 10.0
    ensures r.Ok? ==> 1 <= |r.value.treasures| <= amountDistances
    ensures r.Ok? ==> forall i :: 0 <= i < |r.value.treasures| ==> 0 <= r.value.treasures[i].position < positions
    ensures r.Ok? ==> forall i :: 0 <= i < |r.value.treasures| ==>
              1.0 <= r.value.treasures[i].distance <= GeneratedDistances(distanceDraws)[i]
  {
    if amountDistances <= 0 || positions <= 0 then Err(IllegalArgument)
    else
      var generated := GeneratedDistances(distanceDraws);
      var treasures := seq(amountDistances, i requires 0 <= i < amountDistances =>
                           TreasureFor(positions, slotDraws[i], generated[i], scaleDraws[i]));
      assert |permuted| == |multiset(permuted)| == amountDistances;
      forall i | 0 <= i < |permuted|
        ensures 1.0 <= permuted[i] < 10.0
      {
        assert permuted[i] in multiset(generated);
      }
      Ok(NewSearchConfiguration(version, positions, permuted, treasures[..1 + countDraw]))
  }

  /** `shuffle()`: three slots and `1 + nextInt(9)` distances. */
  function ShuffleDefault(version: string, amountDraw: int, countDraw: int, distanceDraws: seq<real>,
                          slotDraws: seq<int>, scaleDraws: seq<real>, permuted: seq<real>): (r: Result<SearchConfiguration>)
    requires 0 <= amountDraw < 9
    requires 0 <= countDraw < 1 + amountDraw
    requires |distanceDraws| == |slotDraws| == |scaleDraws| == 1 + amountDraw
    requires UnitDraws(distanceDraws) && UnitDraws(scaleDraws)
    requires forall i :: 0 <= i < |slotDraws| ==> 0 <= slotDraws[i] < 3
    requires multiset(permuted) == multiset(GeneratedDistances(distanceDraws))
    ensures r.Ok?
    ensures r.value.positions == 3
    ensures 1 <= |r.value.distances| <= 9
    ensures 1 <= |r.value.treasures| <= |r.value.distances|
  {
    Shuffle(1 + amountDraw, 3, version, countDraw, distanceDraws, slotDraws, scaleDraws, permuted)
  }
}

=== FILE: decimal.dfy ===
/** Decimal text of integers as the JDK writes and reads it:
    `Integer.toString`, `String.valueOf(int)`, `Integer.parseInt` and
    `Long.parseLong`, restricted to ASCII digits; and the plain decimal
    notation `Double.parseDouble` reads. */
module Decimal {
  import opened Wrappers
  import opened Numerics

  predicate IsDigit(c: char) {
    '0' <= c <= '9'
  }

  predicate AllDigits(s: string) {
    forall i :: 0 <= i < |s| ==> IsDigit(s[i])
  }

  function DigitChar(d: int): (c: char)
    requires 0 <= d < 10
    ensures IsDigit(c)
  {
    ('0' as int + d) as char
  }

  function DigitValue(c: char): (d: int)
    requires IsDigit(c)
    ensures 0 <= d < 10
  {
    c as int - '0' as int
  }

  /** The digits of `n`, most significant first, without leading zeros. */
  function NatToString(n: nat): string
    decreases n
  {
    if n < 10 then [DigitChar(n)] else NatToString(n / 10) + [DigitChar(n % 10)]
  }

  /** The number a string of digits denotes; leading zeros are allowed. */
  function DigitsValue(s: string): nat
    requires AllDigits(s)
  {
    if |s| == 0 then 0 else DigitsValue(s[..|s| - 1]) * 10 + DigitValue(s[|s| - 1])
  }

  /** `Integer.toString(i)` and `Long.toString(i)`: a minus sign for
      negative values, then the digits of the magnitude. */
  function IntToString(i: int): string {
    if i < 0 then "-" + NatToString(-i) else NatToString(i)
  }

  /** `Integer.parseInt` (with the `int` range) and `Long.parseLong` (with
      the `long` range): an optional sign, at least one digit, nothing else,
      and a value in `[lo, hi]`; `None` stands for `NumberFormatException`. */
  function ParseInteger(s: string, lo: int, hi: int): (r: Option<int>)
    ensures r.Some? ==> lo <= r.value <= hi
    ensures r.Some? ==> |s| > 0
  {
    if |s| == 0 then None
    else
      var signed := s[0] == '-' || s[0] == '+';
      var digits := if signed then s[1..] else s;
      if |digits| == 0 || !AllDigits(digits) then None
      else
        var v: int := if s[0] == '-' then 0 - DigitsValue(digits) else DigitsValue(digits);
        if lo <= v <= hi then Some(v) else None
  }

  function ParseInt(s: string): (r: Option<Int32>)
    ensures r == ParseInteger(s, MinInt32, MaxInt32)
  {
    match ParseInteger(s, MinInt32, MaxInt32)
    case Some(v) => Some(v)
    case None => None
  }

  function ParseLong(s: string): Option<int> {
    ParseInteger(s, MinInt64, MaxInt64)
  }

  /** The digits of a natural number read back as that number. */
  lemma {:induction false} NatToStringValue(n: nat)
    ensures |NatToString(n)| > 0 && AllDigits(NatToString(n))
    ensures DigitsValue(NatToString(n)) == n
    decreases n
  {
    if n >= 10 {
      NatToStringValue(n / 10);
      var s := NatToString(n);
      assert s[..|s| - 1] == NatToString(n / 10);
      assert s[|s| - 1] == DigitChar(n % 10);
    }
  }

  /** Parsing what `IntToString` wrote gives back the value, whenever the
      value lies in the parser's range. */
  lemma ParseIntegerRoundTrip(i: int, lo: int, hi: int)
    requires lo <= i <= hi
    ensures ParseInteger(IntToString(i), lo, hi) == Some(i)
  {
    if i < 0 {
      NatToStringValue(-i);
      var s := IntToString(i);
      assert s[1..] == NatToString(-i);
    } else {
      NatToStringValue(i);
      var s := NatToString(i);
      assert IsDigit(s[0]);
    }
  }

  lemma ParseIntRoundTrip(i: Int32)
    ensures ParseInt(IntToString(i)) == Some(i)
  {
    assert IsInt32(i);
    ParseIntegerRoundTrip(i, MinInt32, MaxInt32);
  }

  /** Distinct integers are written as distinct strings. */
  lemma IntToStringInjective(i: int, j: int)
    requires IntToString(i) == IntToString(j)
    ensures i == j
  {
    var lo := if i <= j then i else j;
    var hi := if i <= j then j else i;
    ParseIntegerRoundTrip(i, lo, hi);
    ParseIntegerRoundTrip(j, lo, hi);
  }

  /** The text of a non-negative integer never starts with a minus sign. */
  lemma NatToStringUnsigned(n: nat)
    ensures |NatToString(n)| > 0 && IsDigit(NatToString(n)[0])
  {
    NatToStringValue(n);
  }

  /** Ten to the power `n`. */
  function Pow10(n: nat): (p: nat)
    ensures p > 0
  {
    if n == 0 then 1 else 10 * Pow10(n - 1)
  }

  /** The index of the first '.', or the length when there is none. */
  function DotIndex(s: string): (k: nat)
    ensures k <= |s|
    ensures k < |s| ==> s[k] == '.'
    ensures forall i :: 0 <= i < k ==> s[i] != '.'
  {
    if |s| == 0 then 0 else if s[0] == '.' then 0 else 1 + DotIndex(s[1..])
  }

  /** The value of a whole part and a fraction written after the point. */
  function DecimalValue(whole: string, fraction: string): (v: real)
    requires AllDigits(whole) && AllDigits(fraction)
    ensures v >= 0.0
  {
    DigitsValue(whole) as real + DigitsValue(fraction) as real / Pow10(|fraction|) as real
  }

  /** Unsigned decimal notation: digits, then optionally a point and more
      digits, with at least one digit in all. */
  function ParseUnsignedDecimal(s: string): (r: Option<real>)
    ensures r.Some? ==> r.value >= 0.0
  {
    var k := DotIndex(s);
    var whole := s[..k];
    var fraction := if k < |s| then s[k + 1..] else "";
    if AllDigits(whole) && AllDigits(fraction) && |whole| + |fraction| > 0 then
      Some(DecimalValue(whole, fraction))
    else None
  }

  /** `Double.parseDouble` on plain decimal notation: an optional sign,
      then unsigned decimal notation, read as the exact value it denotes;
      `None` stands for `NumberFormatException`. */
  function ParseDecimal(s: string): (r: Option<real>)
    ensures r.Some? ==> |s| > 0
    ensures r.Some? && s[0] == '-' ==> r.value <= 0.0
    ensures r.Some? && s[0] != '-' ==> r.value >= 0.0
  {
    if |s| == 0 then None
    else
      var signed := s[0] == '-' || s[0] == '+';
      var body := if signed then s[1..] else s;
      match ParseUnsignedDecimal(body)
      case None => None
      case Some(v) => Some(if s[0] == '-' then -v else v)
  }

  /** A digit string has no point, so it reads as the integer it denotes. */
  lemma ParseUnsignedDigits(s: string)
    requires |s| > 0 && AllDigits(s)
    ensures ParseUnsignedDecimal(s) == Some(DigitsValue(s) as real)
  {
    var k := DotIndex(s);
    DotIndexOfDigits(s, ".");
    assert k == |s|;
    assert s[..k] == s;
    assert DecimalValue(s, "") == DigitsValue(s) as real by {
      assert AllDigits("") && DigitsValue("") == 0 && Pow10(0) == 1;
    }
  }

  /** Every text `Integer.parseInt` or `Long.parseLong` accepts reads as
      the same number in decimal notation. */
  lemma ParseDecimalExtendsInteger(s: string, lo: int, hi: int)
    requires ParseInteger(s, lo, hi).Some?
    ensures ParseDecimal(s) == Some(ParseInteger(s, lo, hi).value as real)
  {
    var signed := s[0] == '-' || s[0] == '+';
    var digits := if signed then s[1..] else s;
    ParseUnsignedDigits(digits);
  }

  /** A whole part, a point and a fraction read as the whole part plus the
      fraction over the matching power of ten. */
  lemma ParseUnsignedFraction(whole: string, fraction: string)
    requires AllDigits(whole) && AllDigits(fraction) && |whole| + |fraction| > 0
    ensures ParseUnsignedDecimal(whole + "." + fraction) == Some(DecimalValue(whole, fraction))
  {
    var rest := "." + fraction;
    var s := whole + rest;
    assert whole + "." + fraction == s;
    var k := DotIndex(s);
    DotIndexOfDigits(whole, rest);
    assert s[..k] == whole;
    assert s[k + 1..] == fraction;
  }

  /** A digit prefix is skipped by the search for the point. */
  lemma {:induction false} DotIndexOfDigits(digits: string, rest: string)
    requires AllDigits(digits) && |rest| > 0 && rest[0] == '.'
    ensures DotIndex(digits + rest) == |digits|
    decreases |digits|
  {
    if |digits| > 0 {
      assert IsDigit(digits[0]);
      assert (digits + rest)[1..] == digits[1..] + rest;
      DotIndexOfDigits(digits[1..], rest);
    }
  }
}

=== FILE: discrete_chromosome.dfy ===
/** An ordered sequence of discrete genes: one candidate search path. */
module DiscreteChromosomes {
  import opened Wrappers
  import opened DiscretePoints
  import opened DiscreteGenes

  datatype Chromosome = Chromosome(genes: seq<Gene>)

  /** The distances of the genes, in gene order. */
  function Distances(c: Chromosome): (ds: seq<real>)
    ensures |ds| == |c.genes|
    ensures forall i :: 0 <= i < |c.genes| ==> ds[i] == c.genes[i].allele.distance
  {
    seq(|c.genes|, i requires 0 <= i < |c.genes| => c.genes[i].allele.distance)
  }

  /** The slot indices of the genes, in gene order. */
  function Positions(c: Chromosome): (ps: seq<int>)
    ensures |ps| == |c.genes|
    ensures forall i :: 0 <= i < |c.genes| ==> ps[i] == c.genes[i].allele.position
  {
    seq(|c.genes|, i requires 0 <= i < |c.genes| => c.genes[i].allele.position)
  }

  predicate DrawsWithin(draws: seq<int>, positions: int) {
    forall i :: 0 <= i < |draws| ==> 0 <= draws[i] < positions
  }

  /** `of(distances)`: one gene per distance via `DiscreteGene.of`, each
      drawing its own slot, in list order. */
  function OfDistances(distances: seq<real>, positions: int, draws: seq<int>): (r: Result<Chromosome>)
    requires |draws| == |distances|
    requires positions > 0 ==> DrawsWithin(draws, positions)
    ensures r.Ok? <==> positions > 0 || |distances| == 0
    ensures r.Ok? ==> Distances(r.value) == distances
    ensures r.Ok? ==> Positions(r.value) == draws
    ensures r.Ok? ==> forall i :: 0 <= i < |r.value.genes| ==> r.value.genes[i].allele.positions == positions
    decreases |distances|
  {
    if |distances| == 0 then Ok(Chromosome([]))
    else if positions <= 0 then Err(IllegalArgument)
    else
      var g := OfDistance(distances[0], positions, draws[0]).value;
      var rest := OfDistances(distances[1..], positions, draws[1..]).value;
      Ok(Chromosome([g] + rest.genes))
  }

  /** `of(genes)`: a copy of the given sequence. */
  function OfGenes(genes: seq<Gene>): Chromosome {
    Chromosome(genes)
  }

  /** `ofPoints`: one gene per point, wrapping the point itself. */
  function OfPoints(points: seq<Point>): (c: Chromosome)
    ensures |c.genes| == |points|
    ensures forall i :: 0 <= i < |points| ==> c.genes[i].allele == points[i]
  {
    Chromosome(seq(|points|, i requires 0 <= i < |points| => Gene(points[i])))
  }

  function ToSeq(c: Chromosome): seq<Gene> {
    c.genes
  }

  function Length(c: Chromosome): nat {
    |c.genes|
  }

  /** `of(genes)` and `toSeq` are inverse, and `length` counts the genes. */
  lemma OfGenesRoundTrip(genes: seq<Gene>, c: Chromosome)
    ensures ToSeq(OfGenes(genes)) == genes
    ensures Length(OfGenes(genes)) == |genes|
    ensures OfGenes(ToSeq(c)) == c
  {
  }

  /** `getGene`: the sequence lookup, which throws outside the bounds. */
  function GetGene(c: Chromosome, index: int): (r: Result<Gene>)
    ensures r.Ok? <==> 0 <= index < Length(c)
    ensures r.Ok? ==> r.value == ToSeq(c)[index]
  {
    if 0 <= index < |c.genes| then Ok(c.genes[index]) else Err(IndexOutOfBounds)
  }

  /** `newInstance(genes)`: the receiver is ignored. */
  function NewInstanceWith(c: Chromosome, genes: seq<Gene>): (r: Chromosome)
    ensures ToSeq(r) == genes
  {
    Chromosome(genes)
  }

  /** `shuffle()` and `newInstance()`: the configured distances in the
      order of an arbitrary permutation `permuted` (what
      `Collections.shuffle` produced), then `of(distances)`. */
  function Shuffle(configured: seq<real>, permuted: seq<real>, positions: int, draws: seq<int>): (r: Result<Chromosome>)
    requires multiset(permuted) == multiset(configured)
    requires |draws| == |configured|
    requires positions > 0 ==> DrawsWithin(draws, positions)
    ensures r.Ok? <==> positions > 0 || |configured| == 0
    ensures r.Ok? ==> multiset(Distances(r.value)) == multiset(configured)
    ensures r.Ok? ==> Length(r.value) == |configured|
    ensures r.Ok? ==> forall i :: 0 <= i < Length(r.value) ==> 0 <= r.value.genes[i].allele.position < positions
  {
    assert |permuted| == |multiset(permuted)| == |configured|;
    OfDistances(permuted, positions, draws)
  }

  /** Java equality between a boxed `Double` and a `DiscreteGene`: the
      classes differ and the gene does not override `equals`, so it never
      holds. */
  predicate DoubleEqualsGene(d: real, g: Gene) {
    false
  }

  predicate PositionsWithin(c: Chromosome, positions: int) {
    forall i :: 0 <= i < |c.genes| ==> 0 <= c.genes[i].allele.position < positions
  }

  /** `isValid` as written: the length matches, every slot lies in
      [0, positions), and `genes.containsAll(distances)`, which asks
      whether every configured distance equals some gene. */
  predicate IsValidAsWritten(c: Chromosome, positions: int, distances: seq<real>) {
    && |distances| == |c.genes|
    && PositionsWithin(c, positions)
    && (forall i :: 0 <= i < |distances| ==>
          exists j :: 0 <= j < |c.genes| && DoubleEqualsGene(distances[i], c.genes[j]))
  }

  /** As written, only the empty chromosome under an empty distance list
      is valid. */
  lemma IsValidAsWrittenOnlyEmpty(c: Chromosome, positions: int, distances: seq<real>)
    ensures IsValidAsWritten(c, positions, distances) ==> |distances| == 0 && |c.genes| == 0
  {
    if |distances| > 0 {
      var d := distances[0];
      assert !exists j :: 0 <= j < |c.genes| && DoubleEqualsGene(d, c.genes[j]);
    }
  }

  /** The evidently intended check: the length matches, every slot lies in
      [0, positions), and every configured distance is carried by a gene. */
  predicate IsValid(c: Chromosome, positions: int, distances: seq<real>) {
    && |distances| == |c.genes|
    && PositionsWithin(c, positions)
    && (forall i :: 0 <= i < |distances| ==> distances[i] in Distances(c))
  }

  lemma IsValidNeedsLength(c: Chromosome, positions: int, distances: seq<real>)
    ensures |distances| != Length(c) ==> !IsValid(c, positions, distances) && !IsValidAsWritten(c, positions, distances)
  {
  }

  /** Every chromosome `shuffle()` can produce passes the intended check. */
  lemma ShuffleIsValid(configured: seq<real>, permuted: seq<real>, positions: int, draws: seq<int>)
    requires multiset(permuted) == multiset(configured)
    requires |draws| == |configured|
    requires positions > 0 ==> DrawsWithin(draws, positions)
    ensures Shuffle(configured, permuted, positions, draws).Ok? ==>
              IsValid(Shuffle(configured, permuted, positions, draws).value, positions, configured)
  {
    var r := Shuffle(configured, permuted, positions, draws);
    if r.Ok? {
      forall i | 0 <= i < |configured|
        ensures configured[i] in Distances(r.value)
      {
        assert configured[i] in multiset(configured);
        assert configured[i] in multiset(Distances(r.value));
      }
    }
  }

  /** A one-gene shuffle result that the intended check accepts and the
      check as written rejects. */
  lemma IsValidAsWrittenRejectsShuffle()
    ensures IsValid(Chromosome([Gene(Point(1, 0, 5.0))]), 1, [5.0])
    ensures !IsValidAsWritten(Chromosome([Gene(Point(1, 0, 5.0))]), 1, [5.0])
  {
    var c := Chromosome([Gene(Point(1, 0, 5.0))]);
    assert Distances(c)[0] == 5.0;
    IsValidAsWrittenOnlyEmpty(c, 1, [5.0]);
  }
}

=== FILE: discrete_gene.dfy ===
/** A gene carrying one discrete point as its allele. The random draws the
    source takes from the random registry are parameters here, each
    constrained to the range `nextInt` documents. */
module DiscreteGenes {
  import opened Wrappers
  import opened DiscretePoints

  datatype Gene = Gene(allele: Point)

  /** `of(point)`: a gene around a copy of the point. */
  function Of(value: Point): (g: Gene)
    ensures g.allele.position == value.position && g.allele.distance == value.distance
    ensures g.allele.positions == value.positions
  {
    Gene(Clone(value))
  }

  /** `of(distance)`: draws the slot with `nextInt(positions)`, which fails
      with `IllegalArgumentException` unless `positions` is positive. */
  function OfDistance(distance: real, positions: int, draw: int): (r: Result<Gene>)
    requires positions > 0 ==> 0 <= draw < positions
    ensures r.Ok? <==> positions > 0
    ensures r.Ok? ==> r.value.allele.distance == distance
    ensures r.Ok? ==> 0 <= r.value.allele.position < positions
    ensures r.Ok? ==> r.value.allele.positions == positions
  {
    if positions <= 0 then Err(IllegalArgument)
    else Ok(Gene(Point(positions, draw, distance)))
  }

  function GetAllele(g: Gene): (p: Point)
    ensures Gene(p) == g
  {
    g.allele
  }

  /** `newInstance()`: a random slot and a random distance out of the
      configured list, drawn in that order. */
  function NewInstance(positions: int, distances: seq<real>, positionDraw: int, indexDraw: int): (r: Result<Gene>)
    requires positions > 0 ==> 0 <= positionDraw < positions
    requires |distances| > 0 ==> 0 <= indexDraw < |distances|
    ensures r.Ok? <==> positions > 0 && |distances| > 0
    ensures r.Ok? ==> r.value.allele.distance in distances
    ensures r.Ok? ==> 0 <= r.value.allele.position < positions
  {
    if positions <= 0 || |distances| == 0 then Err(IllegalArgument)
    else Ok(Gene(Point(positions, positionDraw, distances[indexDraw])))
  }

  /** `newInstance(value)` */
  function NewInstanceOf(value: Point): (g: Gene)
    ensures g == Of(value)
  {
    Of(value)
  }

  /** `isValid`: the distance is one of the configured ones and the slot is
      at most `positions`; the bound is inclusive and there is no lower
      bound. */
  predicate IsValid(g: Gene, positions: int, distances: seq<real>) {
    g.allele.distance in distances && g.allele.position <= positions
  }

  lemma IsValidMeaning(g: Gene, positions: int, distances: seq<real>)
    ensures IsValid(g, positions, distances) <==>
              (exists i :: 0 <= i < |distances| && distances[i] == g.allele.distance) && g.allele.position <= positions
  {
  }

  /** Every gene `newInstance()` can produce is valid. */
  lemma NewInstanceIsValid(positions: int, distances: seq<real>, positionDraw: int, indexDraw: int)
    requires positions > 0 ==> 0 <= positionDraw < positions
    requires |distances| > 0 ==> 0 <= indexDraw < |distances|
    ensures NewInstance(positions, distances, positionDraw, indexDraw).Ok? ==>
              IsValid(NewInstance(positions, distances, positionDraw, indexDraw).value, positions, distances)
  {
  }

  /** A slot one past the last is still accepted, a negative slot too. */
  lemma IsValidAcceptsOutOfRange(d: real, n: int)
    requires n >= 0
    ensures IsValid(Gene(Point(n, n, d)), n, [d])
    ensures IsValid(Gene(Point(n, -1, d)), n, [d])
  {
  }
}

=== FILE: discrete_point.dfy ===
/** The discrete polar coordinate: an angular slot index out of a number of
    equally spaced slots, plus a radial distance. */
module DiscretePoints {
  import opened Doubles

  /** `positions` is the number of angular slots the point refers to. In
      the older revision it is read from the global configuration rather
      than stored; the model stores it in both cases. */
  datatype Point = Point(positions: int, position: int, distance: real)

  /** Length of the straight leg between two points (the law of cosines in
      the source). It is left abstract; proofs that need it assume only
      that it is never negative. */
  type Leg = (Point, Point) -> real

  ghost predicate NonNegative(leg: Leg) {
    forall p, q :: leg(p, q) >= 0.0
  }

  /** `Math.PI` */
  const Pi: real := 3.141592653589793

  /** The radian angle of the point's slot: position / positions · 2π,
      computed in doubles, so zero slots give an infinity or NaN. */
  function Angle(p: Point): (a: Double)
    ensures a.Finite? <==> p.positions != 0
    ensures p.positions != 0 && p.position == 0 ==> a == Finite(0.0)
    ensures a.Finite? && 0 <= p.position < p.positions ==> 0.0 <= a.r < 2.0 * Pi
  {
    match Divide(p.position as real, p.positions as real)
    case Finite(q) => Finite(q * 2.0 * Pi)
    case other => other
  }

  /** The angle is linear in the slot index. */
  lemma AngleLinear(n: int, a: int, b: int, d1: real, d2: real, d3: real)
    requires n != 0
    ensures Angle(Point(n, a + b, d3)).r == Angle(Point(n, a, d1)).r + Angle(Point(n, b, d2)).r
  {
    assert (a + b) as real / n as real == a as real / n as real + b as real / n as real;
  }

  function DistanceSquared(p: Point): (r: real)
    ensures r >= 0.0
  {
    p.distance * p.distance
  }

  /** `clone`: a value copy, so every field is kept. */
  function Clone(p: Point): (c: Point)
    ensures c.position == p.position && c.distance == p.distance && c.positions == p.positions
  {
    Point(p.positions, p.position, p.distance)
  }

  /** `swapDistance`: despite its name, it exchanges the two slot indices
      and leaves both distances in place. When both arguments are the same
      object the source's three assignments leave it unchanged, which is
      what the result for `p == q` shows. */
  function SwapDistance(p: Point, q: Point): (r: (Point, Point))
    ensures r.0.distance == p.distance && r.1.distance == q.distance
    ensures r.0.position == q.position && r.1.position == p.position
    ensures r.0.positions == p.positions && r.1.positions == q.positions
  {
    (p.(position := q.position), q.(position := p.position))
  }

  lemma SwapDistanceInvolution(p: Point, q: Point)
    ensures SwapDistance(SwapDistance(p, q).0, SwapDistance(p, q).1) == (p, q)
  {
  }

  lemma SwapDistanceSelf(p: Point)
    ensures SwapDistance(p, p) == (p, p)
  {
  }
}

=== FILE: dom.dfy ===
/** The part of the dom4j document model the XML entities use: elements
    with a name, attributes and child elements, and documents with an
    optional root. Text content, namespaces and attribute order play no
    part in the files read and written here. */
module Dom {
  import opened Wrappers

  datatype Element = Element(name: string, attributes: map<string, string>, children: seq<Element>)

  /** A document; `None` is a document without a root element. */
  datatype Document = Document(root: Option<Element>)

  /** `new DefaultElement(name)`: no attributes, no children. */
  function NewElement(name: string): (e: Element)
    ensures e.name == name && e.attributes == map[] && e.children == []
  {
    Element(name, map[], [])
  }

  /** `addAttribute(name, value)`: sets or replaces the attribute; a
      `null` value removes it. */
  function AddAttribute(e: Element, name: string, value: Option<string>): (r: Element)
    ensures r.name == e.name && r.children == e.children
    ensures value.Some? ==> name in r.attributes && r.attributes[name] == value.value
    ensures value.None? ==> name !in r.attributes
    ensures forall k :: k != name ==> (k in r.attributes <==> k in e.attributes)
    ensures forall k :: k in e.attributes && k != name ==> r.attributes[k] == e.attributes[k]
  {
    match value
    case Some(v) => e.(attributes := e.attributes[name := v])
    case None => e.(attributes := e.attributes - {name})
  }

  /** `add(child)`: appends a child element. */
  function AddChild(e: Element, child: Element): (r: Element)
    ensures r.name == e.name && r.attributes == e.attributes && r.children == e.children + [child]
  {
    e.(children := e.children + [child])
  }

  /** `elementIterator(name)`: the children with that name, in document
      order. */
  function ChildrenNamed(e: Element, name: string): (cs: seq<Element>)
    ensures forall i :: 0 <= i < |cs| ==> cs[i].name == name
    ensures forall c :: c in cs <==> c in e.children && c.name == name
  {
    Filter(e.children, name)
  }

  function Filter(children: seq<Element>, name: string): (cs: seq<Element>)
    ensures |cs| <= |children|
    ensures forall i :: 0 <= i < |cs| ==> cs[i].name == name
    ensures forall c :: c in cs <==> c in children && c.name == name
    decreases |children|
  {
    if |children| == 0 then []
    else
      var rest := Filter(children[1..], name);
      assert forall c :: c in children <==> c == children[0] || c in children[1..];
      if children[0].name == name then [children[0]] + rest else rest
  }

  /** Children all carrying the name are all visited, in order. */
  lemma {:induction false} FilterAll(children: seq<Element>, name: string)
    requires forall i :: 0 <= i < |children| ==> children[i].name == name
    ensures Filter(children, name) == children
    decreases |children|
  {
    if |children| > 0 {
      FilterAll(children[1..], name);
      assert [children[0]] + children[1..] == children;
    }
  }

  /** Filtering a concatenation filters each part. */
  lemma {:induction false} FilterAppend(a: seq<Element>, b: seq<Element>, name: string)
    ensures Filter(a + b, name) == Filter(a, name) + Filter(b, name)
    decreases |a|
  {
    if |a| > 0 {
      assert (a + b)[1..] == a[1..] + b;
      FilterAppend(a[1..], b, name);
    } else {
      assert a + b == b;
    }
  }

  /** `element(name)`: the first child with that name, `null` if none. */
  function FirstChild(e: Element, name: string): (r: Option<Element>)
    ensures r.None? <==> forall c :: c in e.children ==> c.name != name
    ensures r.Some? ==> r.value == ChildrenNamed(e, name)[0]
  {
    var cs := ChildrenNamed(e, name);
    if |cs| == 0 then None
    else
      assert cs[0] in e.children;
      Some(cs[0])
  }
}

=== FILE: doubles.dfy ===
/** Java `double` values as far as the model needs them: every finite
    double is a `real`, and the IEEE specials appear only where the source
    divides by a value that can be zero or returns an infinity on purpose. */
module Doubles {
  import opened Numerics

  datatype Double = Finite(r: real) | PosInf | NegInf | NaN

  /** IEEE division `a / b` of two finite doubles (the divisor's zero is
      taken to be +0.0). */
  function Divide(a: real, b: real): (d: Double)
    ensures d.Finite? <==> b != 0.0
    ensures d.Finite? ==> d.r * b == a
    ensures b == 0.0 ==> (d == NaN <==> a == 0.0)
    ensures b == 0.0 && a > 0.0 ==> d == PosInf
  {
    if b != 0.0 then Finite(a / b)
    else if a > 0.0 then PosInf
    else if a < 0.0 then NegInf
    else NaN
  }

  /** IEEE addition: NaN absorbs, opposite infinities give NaN. */
  function Add(a: Double, b: Double): (s: Double)
    ensures a.Finite? && b.Finite? ==> s == Finite(a.r + b.r)
    ensures a == NaN || b == NaN ==> s == NaN
    ensures s.Finite? ==> a.Finite? && b.Finite?
  {
    match (a, b)
    case (NaN, _) => NaN
    case (_, NaN) => NaN
    case (Finite(x), Finite(y)) => Finite(x + y)
    case (PosInf, NegInf) => NaN
    case (NegInf, PosInf) => NaN
    case (PosInf, _) => PosInf
    case (_, PosInf) => PosInf
    case (NegInf, _) => NegInf
    case (_, NegInf) => NegInf
  }

  /** IEEE division of a double by a positive count. */
  function DivideByCount(a: Double, n: nat): (q: Double)
    requires n > 0
    ensures a.Finite? ==> q.Finite? && q.r * (n as real) == a.r
    ensures !a.Finite? ==> q == a
  {
    match a
    case Finite(x) => Finite(x / n as real)
    case _ => a
  }

  /** IEEE product of a finite double `k` and `d`. */
  function Times(k: real, d: Double): (p: Double)
    ensures d.Finite? ==> p == Finite(k * d.r)
    ensures d == NaN || (k == 0.0 && !d.Finite?) ==> p == NaN
    ensures d == PosInf && k > 0.0 ==> p == PosInf
    ensures d == PosInf && k < 0.0 ==> p == NegInf
  {
    if d.Finite? then Finite(k * d.r)
    else match d
    case NaN => NaN
    case PosInf => if k > 0.0 then PosInf else if k < 0.0 then NegInf else NaN
    case NegInf => if k > 0.0 then NegInf else if k < 0.0 then PosInf else NaN
  }

  /** Java's `(int)` cast of a double: NaN becomes 0 and the infinities
      saturate. */
  function ToInt(d: Double): (i: Int32)
    ensures d.Finite? ==> i == IntCast(d.r)
    ensures d == NaN ==> i == 0
    ensures d == PosInf ==> i == MaxInt32
    ensures d == NegInf ==> i == MinInt32
  {
    match d
    case Finite(x) => IntCast(x)
    case NaN => 0
    case PosInf => MaxInt32
    case NegInf => MinInt32
  }
}

=== FILE: environment.dfy ===
/** The scoring rules of the search environment: when a visited point
    finds a treasure, the trace length a path needs until it finds one, and
    the fitness variants built on it; plus the environment's configuration
    swap.

    The leg length between two points (the law of cosines) is the
    parameter `leg`. */
module Environment {
  import opened Wrappers
  import opened DiscretePoints
  import opened DiscreteGenes
  import opened DiscreteChromosomes
  import opened Configurations
  import ListUtils
  import AnalysisUtils

  /** A rule deciding whether a visited point finds a treasure. */
  type FindsRule = (Point, Point) -> bool

  /** `finds` as written: its position test compares the point's slot with
      itself, so only the distances decide. */
  function FindsAsWritten(point: Point, treasure: Point): (b: bool)
    ensures b <==> point.distance >= treasure.distance
  {
    var distanceEqualOrGreater := point.distance >= treasure.distance;
    var positionEquals := point.position == point.position;
    positionEquals && distanceEqualOrGreater
  }

  /** `finds` as documented: the point lies on the treasure's ray and
      reaches at least as far out. */
  function Finds(point: Point, treasure: Point): bool {
    point.position == treasure.position && point.distance >= treasure.distance
  }

  /** The documented rule implies the written one, and the two agree on
      points of the treasure's ray. */
  lemma FindsRefinesAsWritten(point: Point, treasure: Point)
    ensures Finds(point, treasure) ==> FindsAsWritten(point, treasure)
    ensures point.position == treasure.position ==> (Finds(point, treasure) <==> FindsAsWritten(point, treasure))
  {
  }

  /** A point on another ray, further out than the treasure, "finds" it as
      written. */
  lemma FindsAsWrittenIgnoresPosition()
    ensures FindsAsWritten(Point(2, 1, 5.0), Point(2, 0, 3.0))
    ensures !Finds(Point(2, 1, 5.0), Point(2, 0, 3.0))
  {
  }

  /** The search starts at the origin: slot 0, distance 0. The two-argument
      point of this revision has no slot count; the field is 0. */
  const Origin: Point := Point(0, 0, 0.0)

  /** The `trace` loop from `previous` on: stop when `previous` finds the
      treasure or the genes run out, otherwise walk one leg to the next
      gene. */
  function TraceFrom(finds: FindsRule, previous: Point, genes: seq<Gene>, treasure: Point, leg: Leg): (t: real)
    ensures NonNegative(leg) ==> t >= 0.0
    ensures finds(previous, treasure) ==> t == 0.0
    decreases |genes|
  {
    if |genes| == 0 || finds(previous, treasure) then 0.0
    else leg(previous, genes[0].allele) + TraceFrom(finds, genes[0].allele, genes[1..], treasure, leg)
  }

  /** `trace(chromosome, treasure)` under the rule `finds`. */
  function Trace(finds: FindsRule, c: Chromosome, treasure: Point, leg: Leg): (t: real)
    ensures NonNegative(leg) ==> t >= 0.0
  {
    TraceFrom(finds, Origin, c.genes, treasure, leg)
  }

  /** The points a path visits: its start, then every gene's allele. */
  function Visited(start: Point, genes: seq<Gene>): (ps: seq<Point>)
    ensures |ps| == |genes| + 1 && ps[0] == start
    ensures forall i :: 0 <= i < |genes| ==> ps[i + 1] == genes[i].allele
  {
    [start] + seq(|genes|, i requires 0 <= i < |genes| => genes[i].allele)
  }

  /** The total length of the legs between consecutive points. */
  function PathLength(ps: seq<Point>, leg: Leg): real
    decreases |ps|
  {
    if |ps| < 2 then 0.0 else leg(ps[0], ps[1]) + PathLength(ps[1..], leg)
  }

  /** The index of the first point that finds the treasure, or the number
      of points if none does. */
  function FirstHit(finds: FindsRule, ps: seq<Point>, treasure: Point): (k: nat)
    ensures k <= |ps|
    ensures k < |ps| ==> finds(ps[k], treasure)
    ensures forall i :: 0 <= i < k ==> !finds(ps[i], treasure)
    decreases |ps|
  {
    if |ps| == 0 then 0
    else if finds(ps[0], treasure) then 0
    else 1 + FirstHit(finds, ps[1..], treasure)
  }

  /** The trace is the length of the visited path up to and including the
      first point that finds the treasure; only the points before the last
      gene are checked, so without a hit it is the whole path. */
  lemma {:induction false} TraceIsPathToFirstHit(finds: FindsRule, start: Point, genes: seq<Gene>, treasure: Point, leg: Leg)
    ensures var ps := Visited(start, genes);
            TraceFrom(finds, start, genes, treasure, leg) == PathLength(ps[..FirstHit(finds, ps[..|genes|], treasure) + 1], leg)
    decreases |genes|
  {
    var ps := Visited(start, genes);
    if |genes| == 0 {
      assert ps[..|genes|] == [];
    } else if finds(start, treasure) {
      assert FirstHit(finds, ps[..|genes|], treasure) == 0;
    } else {
      TraceIsPathToFirstHit(finds, genes[0].allele, genes[1..], treasure, leg);
      TraceStep(finds, start, genes, treasure, leg);
    }
  }

  /** The step of `TraceIsPathToFirstHit` past a start that misses: one
      more leg in front of the rest of the path. */
  lemma {:induction false} TraceStep(finds: FindsRule, start: Point, genes: seq<Gene>, treasure: Point, leg: Leg)
    requires |genes| > 0 && !finds(start, treasure)
    requires var rest := Visited(genes[0].allele, genes[1..]);
             TraceFrom(finds, genes[0].allele, genes[1..], treasure, leg) ==
               PathLength(rest[..FirstHit(finds, rest[..|genes| - 1], treasure) + 1], leg)
    ensures var ps := Visited(start, genes);
            TraceFrom(finds, start, genes, treasure, leg) == PathLength(ps[..FirstHit(finds, ps[..|genes|], treasure) + 1], leg)
  {
    var ps := Visited(start, genes);
    var next := genes[0].allele;
    var rest := Visited(next, genes[1..]);
    assert rest == ps[1..];
    var k := FirstHit(finds, rest[..|genes| - 1], treasure);
    assert FirstHit(finds, ps[..|genes|], treasure) == k + 1 by {
      assert ps[..|genes|][1..] == rest[..|genes| - 1];
    }
    var path := ps[..k + 2];
    assert PathLength(path, leg) == leg(start, next) + PathLength(rest[..k + 1], leg) by {
      assert path[1..] == rest[..k + 1];
      assert path[0] == start && path[1] == next;
    }
  }

  /** As written, the trace stops at the first visited point whose
      distance reaches the treasure's, whatever its slot, and a treasure at
      distance 0 or less costs nothing. */
  lemma TraceAsWrittenStopsOnDistance(c: Chromosome, treasure: Point, leg: Leg)
    ensures treasure.distance <= 0.0 ==> Trace(FindsAsWritten, c, treasure, leg) == 0.0
    ensures var ps := Visited(Origin, c.genes);
            var k := FirstHit(FindsAsWritten, ps[..|c.genes|], treasure);
            && (forall i :: 0 <= i < k ==> ps[i].distance < treasure.distance)
            && (k < |c.genes| ==> ps[k].distance >= treasure.distance)
  {
    var ps := Visited(Origin, c.genes);
    var k := FirstHit(FindsAsWritten, ps[..|c.genes|], treasure);
    forall i | 0 <= i < k
      ensures ps[i].distance < treasure.distance
    {
      assert !FindsAsWritten(ps[..|c.genes|][i], treasure);
    }
    if k < |c.genes| {
      assert FindsAsWritten(ps[..|c.genes|][k], treasure);
    }
  }

  /** The written rule finds the treasure no later along a path than the
      documented one, since every documented hit is a written hit. */
  lemma FirstHitAsWrittenNoLater(ps: seq<Point>, treasure: Point)
    ensures FirstHit(FindsAsWritten, ps, treasure) <= FirstHit(Finds, ps, treasure)
  {
  }

  /** The traces for every treasure, in treasure order. */
  function Traces(finds: FindsRule, c: Chromosome, treasures: seq<Point>, leg: Leg): (ts: seq<real>)
    ensures |ts| == |treasures|
    ensures forall i :: 0 <= i < |treasures| ==> ts[i] == Trace(finds, c, treasures[i], leg)
  {
    seq(|treasures|, i requires 0 <= i < |treasures| => Trace(finds, c, treasures[i], leg))
  }

  /** `fitness`: 0 without treasures, otherwise the mean trace. */
  function Fitness(finds: FindsRule, c: Chromosome, treasures: seq<Point>, leg: Leg): (f: real)
    ensures |treasures| == 0 ==> f == 0.0
    ensures |treasures| > 0 ==> f * |treasures| as real == ListUtils.SumOf(Traces(finds, c, treasures, leg))
    ensures NonNegative(leg) ==> f >= 0.0
  {
    var ts := Traces(finds, c, treasures, leg);
    assert NonNegative(leg) ==> ListUtils.SumOf(ts) >= 0.0 by {
      if NonNegative(leg) { ListUtils.SumOfNonNegative(ts); }
    }
    if |treasures| == 0 then 0.0 else ListUtils.Mean(ts)
  }

  /** `fitnessSingular`: the trace to the first treasure; `get(0)` throws
      when there is none. */
  function FitnessSingular(finds: FindsRule, c: Chromosome, treasures: seq<Point>, leg: Leg): (r: Result<real>)
    ensures r.Ok? <==> |treasures| > 0
    ensures r.Err? ==> r.error == IndexOutOfBounds
    ensures r.Ok? ==> r.value == Trace(finds, c, treasures[0], leg)
  {
    if |treasures| == 0 then Err(IndexOutOfBounds) else Ok(Trace(finds, c, treasures[0], leg))
  }

  /** With a single treasure the global fitness is the singular one. */
  lemma FitnessOfOneTreasure(finds: FindsRule, c: Chromosome, treasure: Point, leg: Leg)
    ensures FitnessSingular(finds, c, [treasure], leg) == Ok(Fitness(finds, c, [treasure], leg))
  {
    var ts := Traces(finds, c, [treasure], leg);
    assert ListUtils.SumOf(ts) == ts[0] + ListUtils.SumOf(ts[1..]);
  }

  /** The fitness variants of this revision. */
  datatype FitnessVariant = Singular | Global | Spiral

  /** `Fitness.getDefault()`. */
  const DefaultFitness: FitnessVariant := Global

  /** The method behind each variant, applied with the `finds` rule
      given: the code reaches `FindsAsWritten`, the documentation means
      `Finds`. The spiral variant also sorts the configuration's distance
      list, which `AnalysisUtils.SpiralLikeness` reports. */
  function Evaluate(finds: FindsRule, variant: FitnessVariant, config: Configuration<FitnessVariant>, c: Chromosome, leg: Leg): Result<real> {
    match variant
    case Singular => FitnessSingular(finds, c, config.treasures, leg)
    case Global => Ok(Fitness(finds, c, config.treasures, leg))
    case Spiral => AnalysisUtils.SpiralLikeness(c, config.positions, config.distances, leg).score
  }

  /** Under either rule, every variant fails only on a configuration it
      cannot score, and scores are never negative when legs are not. */
  lemma EvaluateSpec(finds: FindsRule, variant: FitnessVariant, config: Configuration<FitnessVariant>, c: Chromosome, leg: Leg)
    ensures Evaluate(finds, variant, config, c, leg).Err? ==>
              (variant == Singular && |config.treasures| == 0) || variant == Spiral
    ensures variant == Global ==> Evaluate(finds, variant, config, c, leg).Ok?
    ensures NonNegative(leg) && Evaluate(finds, variant, config, c, leg).Ok? ==> Evaluate(finds, variant, config, c, leg).value >= 0.0
  {
  }

  /** The variants as the code evaluates them: the singular and global
      scores are built on the traces that stop on distance alone, and the
      spiral score does not depend on the rule. */
  lemma EvaluateAsWritten(variant: FitnessVariant, config: Configuration<FitnessVariant>, c: Chromosome, leg: Leg)
    ensures variant == Global ==>
              Evaluate(FindsAsWritten, variant, config, c, leg) == Ok(Fitness(FindsAsWritten, c, config.treasures, leg))
    ensures variant == Spiral ==> Evaluate(FindsAsWritten, variant, config, c, leg) == Evaluate(Finds, variant, config, c, leg)
  {
  }

  /** The environment's experiment: its configuration and the individuals
      recorded under it. */
  datatype Experiment = Experiment(configuration: Configuration<FitnessVariant>, individuals: seq<Chromosome>)

  /** `setConfiguration`: throws without an experiment, otherwise installs
      the configuration and clears the recorded individuals. */
  function SetConfiguration(experiment: Option<Experiment>, configuration: Configuration<FitnessVariant>): (r: Result<Experiment>)
    ensures r.Ok? <==> experiment.Some?
    ensures r.Err? ==> r.error == Runtime
    ensures r.Ok? ==> r.value.configuration == configuration && r.value.individuals == []
  {
    match experiment
    case None => Err(Runtime)
    case Some(e) => Ok(e.(configuration := configuration, individuals := []))
  }

  /** Setting twice is setting the second configuration once. */
  lemma SetConfigurationLastWins(e: Experiment, first: Configuration<FitnessVariant>, second: Configuration<FitnessVariant>)
    ensures SetConfiguration(Some(SetConfiguration(Some(e), first).value), second) == SetConfiguration(Some(e), second)
  {
  }
}

=== FILE: evolution.dfy ===
/** The evolution runner: the bookkeeping of `run` around the genetic
    engine, the factory of random individuals and the four fitness
    functions.

    The engine itself is a given sequence of generations (the best
    individual of each and its fitness); the trace, fill, area and worst
    case analyses the fitness functions call are the parameters in
    `Analysis`. */
module Evolution {
  import opened Wrappers
  import opened Doubles
  import opened DiscretePoints
  import opened DiscreteChromosomes
  import opened Configurations
  import ListUtils

  /** The fitness variants of this revision, in declaration order. */
  datatype FitnessVariant = Singular | Multi | WorstCase | MaxArea

  /** Java's `ordinal()`. */
  function Ordinal(f: FitnessVariant): nat {
    match f
    case Singular => 0
    case Multi => 1
    case WorstCase => 2
    case MaxArea => 3
  }

  /** `Fitness.getMethods()`: `values()` lists every variant once, in
      ordinal order. */
  function GetMethods(): (ms: seq<FitnessVariant>)
    ensures forall f: FitnessVariant :: f in ms
    ensures forall i :: 0 <= i < |ms| ==> Ordinal(ms[i]) == i
  {
    var ms := [Singular, Multi, WorstCase, MaxArea];
    assert forall f: FitnessVariant :: f in ms by {
      forall f: FitnessVariant
        ensures f in ms
      {
        assert ms[Ordinal(f)] == f;
      }
    }
    ms
  }

  /** Listing in ordinal order leaves no variant twice. */
  lemma GetMethodsDistinct()
    ensures forall i, j :: 0 <= i < j < |GetMethods()| ==> GetMethods()[i] != GetMethods()[j]
  {
    var ms := GetMethods();
    forall i, j | 0 <= i < j < |ms|
      ensures ms[i] != ms[j]
    {
      assert Ordinal(ms[i]) != Ordinal(ms[j]);
    }
  }

  /** The analyses the fitness functions delegate to. */
  datatype Analysis = Analysis(
    traceLength: (Chromosome, Point) -> real,
    fill: Chromosome -> seq<Point>,
    pathLength: seq<Point> -> real,
    areaCovered: seq<Point> -> real,
    worstCase: (seq<Point>, int) -> real)

  type Config = Configuration<FitnessVariant>

  /** `fitnessSingular`: the trace length to the first treasure; `get(0)`
      throws when there is none. */
  function FitnessSingular(config: Config, a: Analysis, c: Chromosome): (r: Result<real>)
    ensures r.Ok? <==> |config.treasures| > 0
    ensures r.Err? ==> r.error == IndexOutOfBounds
    ensures r.Ok? ==> r.value == a.traceLength(c, config.treasures[0])
  {
    if |config.treasures| == 0 then Err(IndexOutOfBounds) else Ok(a.traceLength(c, config.treasures[0]))
  }

  function TraceLengths(config: Config, a: Analysis, c: Chromosome): (ts: seq<real>)
    ensures |ts| == |config.treasures|
    ensures forall i :: 0 <= i < |ts| ==> ts[i] == a.traceLength(c, config.treasures[i])
  {
    seq(|config.treasures|, i requires 0 <= i < |config.treasures| => a.traceLength(c, config.treasures[i]))
  }

  /** `fitnessMulti`: 0 without treasures, otherwise the mean trace length. */
  function FitnessMulti(config: Config, a: Analysis, c: Chromosome): (f: real)
    ensures |config.treasures| == 0 ==> f == 0.0
    ensures |config.treasures| > 0 ==> f * |config.treasures| as real == ListUtils.SumOf(TraceLengths(config, a, c))
  {
    if |config.treasures| == 0 then 0.0 else ListUtils.Mean(TraceLengths(config, a, c))
  }

  /** With a single treasure the multi fitness is the singular one. */
  lemma FitnessMultiOfOneTreasure(config: Config, a: Analysis, c: Chromosome)
    requires |config.treasures| == 1
    ensures FitnessSingular(config, a, c) == Ok(FitnessMulti(config, a, c))
  {
    var ts := TraceLengths(config, a, c);
    assert ListUtils.SumOf(ts) == ts[0] + ListUtils.SumOf(ts[1..]);
  }

  /** `fitnessMaximisingArea`: +∞ for a path that covers no area,
      otherwise path length per covered area. */
  function FitnessMaximisingArea(a: Analysis, c: Chromosome): (f: Double)
    ensures var area := a.areaCovered(a.fill(c));
            && (area <= 0.0 <==> f == PosInf)
            && (area > 0.0 ==> f.Finite? && f.r * area == a.pathLength(a.fill(c)))
  {
    var points := a.fill(c);
    var area := a.areaCovered(points);
    if area <= 0.0 then PosInf else Finite(a.pathLength(points) / area)
  }

  /** `fitnessWorstCase`: the worst case over the filled path. */
  function FitnessWorstCase(a: Analysis, c: Chromosome): real {
    a.worstCase(a.fill(c), 1)
  }

  /** The fitness `run` hands to the engine: the configured variant's
      method. */
  function Evaluate(config: Config, a: Analysis, c: Chromosome): Result<Double> {
    match config.fitness
    case Singular =>
      var r :- FitnessSingular(config, a, c);
      Ok(Finite(r))
    case Multi => Ok(Finite(FitnessMulti(config, a, c)))
    case WorstCase => Ok(Finite(FitnessWorstCase(a, c)))
    case MaxArea => Ok(FitnessMaximisingArea(a, c))
  }

  /** Only the singular variant can throw, and only without treasures; only
      the area variant can be infinite. */
  lemma EvaluateSpec(config: Config, a: Analysis, c: Chromosome)
    ensures Evaluate(config, a, c).Err? <==> config.fitness == Singular && |config.treasures| == 0
    ensures Evaluate(config, a, c).Ok? && !Evaluate(config, a, c).value.Finite? ==> config.fitness == MaxArea
  {
  }

  /** `shuffleInstance`: the configured distances in a shuffled order
      (`permuted`), each with a slot from `nextInt(positions)`. */
  function ShuffleInstance(config: Config, permuted: seq<real>, draws: seq<int>): (r: Result<Chromosome>)
    requires multiset(permuted) == multiset(config.distances)
    requires |draws| == |config.distances|
    requires config.positions > 0 ==> DrawsWithin(draws, config.positions)
    ensures r.Ok? <==> config.positions > 0 || |config.distances| == 0
    ensures r.Ok? ==> IsValid(r.value, config.positions, config.distances)
    ensures r.Ok? ==> multiset(Distances(r.value)) == multiset(config.distances)
  {
    ShuffleIsValid(config.distances, permuted, config.positions, draws);
    DiscreteChromosomes.Shuffle(config.distances, permuted, config.positions, draws)
  }

  /** `run` copies the configured alterer list and hands its head and the
      rest to the engine; the configuration keeps its list. */
  function SplitAlterers(alterers: seq<Alterer>): (r: Option<(Alterer, seq<Alterer>)>)
    ensures r.None? <==> |alterers| == 0
    ensures r.Some? ==> [r.value.0] + r.value.1 == alterers
  {
    if |alterers| == 0 then None else Some((alterers[0], alterers[1..]))
  }

  /** One generation the engine streams: its best individual and that
      individual's fitness. */
  datatype Generation = Generation(best: Chromosome, fitness: real)

  /** The runner's observable fields. */
  datatype State = State(result: Option<Chromosome>, history: Option<seq<Chromosome>>)

  /** What `run` leaves behind: the fields, the values handed to the
      progress consumer, and the exception that escaped, if any. */
  datatype RunOutcome = RunOutcome(state: State, progress: seq<int>, thrown: Option<Exception>)

  /** How many generations pass `limit(r -> !aborted)` and then
      `limit(limit)`: the stream stops at the first generation for which
      the abort flag is seen set, and after `limit` generations. */
  function Emitted(aborted: seq<bool>, limit: nat): (n: nat)
    ensures n <= limit && n <= |aborted|
    ensures forall i :: 0 <= i < n ==> !aborted[i]
    ensures n < limit && n < |aborted| ==> aborted[n]
    decreases limit
  {
    if limit == 0 || |aborted| == 0 || aborted[0] then 0
    else 1 + Emitted(aborted[1..], limit - 1)
  }

  /** The best of the emitted generations (lowest fitness; the engine
      minimises), first one on ties. */
  function BestOf(gs: seq<Generation>): (b: nat)
    requires |gs| > 0
    ensures b < |gs|
    ensures forall i :: 0 <= i < |gs| ==> gs[b].fitness <= gs[i].fitness
    decreases |gs|
  {
    if |gs| == 1 then 0
    else
      var rest := 1 + BestOf(gs[1..]);
      assert forall i :: 1 <= i < |gs| ==> gs[i] == gs[1..][i - 1];
      if gs[0].fitness <= gs[rest].fitness then 0 else rest
  }

  /** What building the initial genotype throws, if anything. The codec's
      `Genotype.of(this::shuffleInstance, population)` is an argument to
      `Engine.builder`, so it runs before the size check: a negative
      population fails to allocate the chromosome list
      (`NegativeArraySizeException`, here `Runtime`), an empty list is
      rejected by the genotype (`IllegalArgumentException`), and otherwise
      the first `shuffleInstance` calls `nextInt(positions)` once per
      distance, which rejects a slot count below one. */
  function GenotypeFailure(cfg: Config): (e: Option<Exception>)
    ensures e.None? <==> cfg.population > 0 && (cfg.positions > 0 || |cfg.distances| == 0)
    ensures cfg.population < 0 ==> e == Some(Runtime)
    ensures cfg.population >= 0 && e.Some? ==> e == Some(IllegalArgument)
  {
    if cfg.population < 0 then Some(Runtime)
    else if cfg.population == 0 then Some(IllegalArgument)
    else if cfg.positions <= 0 && |cfg.distances| > 0 then Some(IllegalArgument)
    else None
  }

  /** `run`.

      `config` is the runner's configuration (`None` for `null`),
      `sizesAccepted` whether the engine builder took the offspring,
      survivor and population sizes without an `IllegalArgumentException`,
      `generations` the stream the engine would produce (at least `limit`
      of them) and `aborted[i]` the abort flag as the stream sees it before
      generation `i`. The history is cleared first; building the initial
      genotype can then throw out of `run`, keeping the previous result.
      A negative limit makes `limit` throw. */
  function Run(s: State, config: Option<Config>, sizesAccepted: bool,
               generations: seq<Generation>, aborted: seq<bool>): (o: RunOutcome)
    requires |aborted| == |generations|
    requires config.Some? ==> |generations| >= config.value.limit
    ensures config.None? ==> o == RunOutcome(s, [], None)
    ensures config.Some? ==> o.state.history.Some?
    ensures config.Some? && GenotypeFailure(config.value).Some? ==>
              o == RunOutcome(State(s.result, Some([])), [], GenotypeFailure(config.value))
    ensures config.Some? && GenotypeFailure(config.value).None? && !sizesAccepted ==>
              o == RunOutcome(State(s.result, Some([])), [], None)
    ensures config.Some? && GenotypeFailure(config.value).None? && sizesAccepted && config.value.limit < 0 ==>
              o == RunOutcome(State(s.result, Some([])), [], Some(IllegalArgument))
    ensures config.Some? && GenotypeFailure(config.value).None? && sizesAccepted && config.value.limit >= 0 ==>
              && o.thrown.None?
              && |o.progress| == |o.state.history.value| <= config.value.limit
              && (forall i :: 0 <= i < |o.progress| ==> o.progress[i] == i + 1)
              && (forall i :: 0 <= i < |o.progress| ==> o.state.history.value[i] == generations[i].best && !aborted[i])
              && (|o.progress| < config.value.limit ==> aborted[|o.progress|])
              && (o.state.result.Some? <==> |o.progress| > 0)
              && (o.state.result.Some? ==>
                    exists b :: && 0 <= b < |o.progress|
                                && o.state.result.value == generations[b].best
                                && (forall i :: 0 <= i < |o.progress| ==> generations[b].fitness <= generations[i].fitness))
  {
    match config
    case None => RunOutcome(s, [], None)
    case Some(cfg) =>
      var cleared := State(s.result, Some([]));
      var failure := GenotypeFailure(cfg);
      if failure.Some? then RunOutcome(cleared, [], failure)
      else if !sizesAccepted then RunOutcome(cleared, [], None)
      else if cfg.limit < 0 then RunOutcome(cleared, [], Some(IllegalArgument))
      else
        var n := Emitted(aborted, cfg.limit);
        var emitted := generations[..n];
        var history := seq(n, i requires 0 <= i < n => emitted[i].best);
        var progress := seq(n, i requires 0 <= i < n => i + 1);
        var result := if n == 0 then None else Some(emitted[BestOf(emitted)].best);
        RunOutcome(State(result, Some(history)), progress, None)
  }

  /** When the engine runs, the last progress value handed out is the
      number of generations in the history, and two runs with the same
      inputs agree: `run` forgets the previous history and result. */
  lemma RunForgetsPreviousRun(s1: State, s2: State, cfg: Config, generations: seq<Generation>, aborted: seq<bool>)
    requires |aborted| == |generations| >= cfg.limit >= 0
    requires GenotypeFailure(cfg).None?
    ensures var o := Run(s1, Some(cfg), true, generations, aborted);
            && o == Run(s2, Some(cfg), true, generations, aborted)
            && (|o.progress| > 0 ==> o.progress[|o.progress| - 1] == |o.state.history.value|)
  {
  }

  /** When the initial genotype cannot be built, `run` throws having only
      cleared the history: the previous result survives, so the outcome
      depends on the previous run. With no slots and one distance the
      first `nextInt(0)` throws. */
  lemma RunKeepsResultOnGenotypeFailure(s: State, cfg: Config, sizesAccepted: bool, generations: seq<Generation>, aborted: seq<bool>)
    requires |aborted| == |generations| >= cfg.limit
    requires cfg.population == 1 && cfg.positions == 0 && |cfg.distances| == 1
    ensures var o := Run(s, Some(cfg), sizesAccepted, generations, aborted);
            && o.thrown == Some(IllegalArgument)
            && o.state == State(s.result, Some([]))
            && o.progress == []
  {
  }
}

=== FILE: experiment_cli.dfy ===
/** The command-line helpers shared by the experiments: the console
    progress bar, the output file name and random seed taken from the
    arguments, and the search for a file name not yet taken. */
module ExperimentCli {
  import opened Wrappers
  import opened Numerics
  import opened Doubles
  import Decimal
  import UnixPaths

  function Repeat(c: char, n: nat): (s: string)
    ensures |s| == n && forall i :: 0 <= i < n ==> s[i] == c
  {
    seq(n, _ => c)
  }

  /** The 44 backspaces that erase the previous bar. */
  const Erase: string := Repeat('\U{8}', 44)

  /** The number of `#` the bar shows:
      `(int) (min(amount, progress) * (40.0 / amount))`, with the double
      operations as exact real ones. */
  function ProgressCount(progress: int, amount: int): (k: Int32)
    ensures amount > 0 && progress >= 0 ==>
              && 0 <= k <= 40
              && k * amount <= Min(amount, progress) * 40 < (k + 1) * amount
    ensures amount > 0 && progress >= amount ==> k == 40
    ensures amount == 0 && progress >= 0 ==> k == 0
    ensures amount == 0 && progress < 0 ==> k == MinInt32
  {
    var p := Min(amount, progress);
    var k := ToInt(Times(p as real, Divide(40.0, amount as real)));
    if amount > 0 && progress >= 0 then
      ProgressBounds(p, amount);
      k
    else k
  }

  /** The factor `40.0 / amount` scales a progress in [0, amount] into
      [0, 40]. */
  lemma ScaledProgress(p: int, amount: int)
    requires 0 <= p <= amount && amount > 0
    ensures var v := p as real * (40.0 / amount as real);
            && 0.0 <= v <= 40.0
            && v * amount as real == (p * 40) as real
            && (p == amount ==> v == 40.0)
  {
    var a := amount as real;
    var q := 40.0 / a;
    assert q * a == 40.0;
    var v := p as real * q;
    assert v * a == p as real * 40.0;
    if p > 0 {
      MulPositive(p as real, q);
      MulPositive((amount - p) as real + 1.0, q);
      assert ((amount - p) as real + 1.0) * q == 40.0 + q - v;
      assert v < 40.0 + q;
    }
  }

  /** Multiplying a bracket `k <= v < k + 1` by a positive count. */
  lemma BracketScaled(k: int, v: real, amount: int, x: int)
    requires k as real <= v < k as real + 1.0 && amount > 0
    requires v * amount as real == x as real
    ensures k * amount <= x < (k + 1) * amount
  {
    var a := amount as real;
    MulAtMost(k as real, v, a);
    MulBelow(v, k as real + 1.0, a);
    RealProduct(k, amount);
    RealProduct(k + 1, amount);
  }

  /** The truncated quotient stays within the bar and brackets the exact
      fraction. */
  lemma ProgressBounds(p: int, amount: int)
    requires 0 <= p <= amount && amount > 0
    ensures var k := ToInt(Times(p as real, Divide(40.0, amount as real)));
            && 0 <= k <= 40
            && k * amount <= p * 40 < (k + 1) * amount
            && (p == amount ==> k == 40)
  {
    var k := ToInt(Times(p as real, Divide(40.0, amount as real)));
    var v := p as real * (40.0 / amount as real);
    ScaledProgress(p, amount);
    ScaledTruncates(p, amount);
    BracketScaled(k, v, amount, p * 40);
  }

  /** With a positive amount and real arithmetic in place of doubles, no
      infinity or NaN arises and the cast only truncates. */
  lemma ScaledTruncates(p: int, amount: int)
    requires 0 <= p <= amount && amount > 0
    ensures ToInt(Times(p as real, Divide(40.0, amount as real))) == TruncToZero(p as real * (40.0 / amount as real))
  {
    var v := p as real * (40.0 / amount as real);
    ScaledProgress(p, amount);
    assert Divide(40.0, amount as real) == Finite(40.0 / amount as real);
    assert Times(p as real, Divide(40.0, amount as real)) == Finite(v);
    assert 0 <= TruncToZero(v) <= 40;
  }

  /** The bar with `k` of its 40 cells filled, after the backspaces. */
  function Bar(k: int): string
    requires 0 <= k <= 40
  {
    Erase + "|" + Repeat('#', k) + Repeat(' ', 40 - k) + "|"
  }

  /** What a call writes to the console, and the exception it throws
      after writing it, if any. */
  datatype Printed = Printed(text: string, thrown: Option<Exception>)

  /** `printProgress(progress, amount)`: the 44 backspaces are printed
      first; then either the bar, or the exception `String.repeat` throws
      for a negative count, with nothing more printed. */
  function PrintProgress(progress: int, amount: int): (o: Printed)
    ensures var k := ProgressCount(progress, amount);
            && (o.thrown.None? <==> 0 <= k <= 40)
            && (o.thrown.Some? ==> o == Printed(Erase, Some(IllegalArgument)))
            && |o.text| >= 44 && o.text[..44] == Erase
            && (o.thrown.None? ==> && |o.text| == 86
                                   && o.text[44] == '|' && o.text[85] == '|'
                                   && (forall i :: 45 <= i < 85 ==> o.text[i] == if i - 45 < k then '#' else ' '))
  {
    var k := ProgressCount(progress, amount);
    if k < 0 || 40 - k < 0 then Printed(Erase, Some(IllegalArgument))
    else Printed(Bar(k), None)
  }

  /** With a positive amount and no negative progress the bar is always
      drawn. */
  lemma PrintProgressDraws(progress: int, amount: int)
    requires amount > 0 && progress >= 0
    ensures PrintProgress(progress, amount).thrown.None?
  {
    var k := ProgressCount(progress, amount);
    assert 0 <= k <= 40;
  }

  /** Once the work is done the bar is full, under exact arithmetic. */
  lemma PrintProgressFull(progress: int, amount: int)
    requires amount > 0 && progress >= amount
    ensures PrintProgress(progress, amount) == Printed(Bar(40), None)
  {
    var k := ProgressCount(progress, amount);
    assert k == 40;
  }

  /** A zero amount divides to NaN or an infinity: non-negative progress
      draws an empty bar; negative progress makes `repeat` throw after the
      backspaces are out. */
  lemma PrintProgressZeroAmount(progress: int)
    ensures progress >= 0 ==> PrintProgress(progress, 0) == Printed(Bar(0), None)
    ensures progress < 0 ==> PrintProgress(progress, 0) == Printed(Erase, Some(IllegalArgument))
  {
    var k := ProgressCount(progress, 0);
    if progress >= 0 {
      assert k == 0;
    } else {
      assert k == MinInt32;
    }
  }

  /** The path string with its trailing separators removed. */
  function StripTrailing(s: string): (t: string)
    ensures t <= s
    ensures |t| == 0 || t[|t| - 1] != '/'
    ensures forall i :: |t| <= i < |s| ==> s[i] == '/'
    decreases |s|
  {
    if |s| > 0 && s[|s| - 1] == '/' then StripTrailing(s[..|s| - 1]) else s
  }

  /** The text after the last separator. */
  function AfterLastSlash(s: string): (t: string)
    ensures '/' !in t
    ensures |t| <= |s| && t == s[|s| - |t|..]
    ensures |t| < |s| ==> s[|s| - |t| - 1] == '/'
    decreases |s|
  {
    if |s| == 0 then ""
    else if s[|s| - 1] == '/' then ""
    else
      var rest := AfterLastSlash(s[..|s| - 1]);
      assert s[..|s| - 1][|s| - 1 - |rest|..] + [s[|s| - 1]] == s[|s| - |rest| - 1..];
      rest + [s[|s| - 1]]
  }

  /** `Path.of(s).getFileName()`: the last name element, `null` for a root
      path (only separators), the empty name for the empty path. */
  function FileName(s: string): (r: Option<string>)
    ensures r.None? <==> |s| > 0 && |StripTrailing(s)| == 0
    ensures r.Some? ==> '/' !in r.value
    ensures r.Some? && |s| > 0 ==> |r.value| > 0
  {
    if |s| == 0 then Some("")
    else
      var t := StripTrailing(s);
      if |t| == 0 then None else Some(AfterLastSlash(t))
  }

  /** `parseFileName`: the last name element of `Path.of` of the first
      argument, or "experiment" when there is none or it is empty. A NUL
      character makes `Path.of` throw an `InvalidPathException`, and a
      root path (only separators) makes `toString` dereference `null`. */
  function ParseFileName(args: seq<string>): (r: Result<string>)
    ensures |args| == 0 ==> r == Ok("experiment")
    ensures r.Err? <==> |args| > 0 && ('\0' in args[0] || (|args[0]| > 0 && |StripTrailing(args[0])| == 0))
    ensures |args| > 0 && '\0' in args[0] ==> r == Err(IllegalArgument)
    ensures r.Err? && '\0' !in args[0] ==> r.error == NullPointer
    ensures r.Ok? ==> |r.value| > 0 && '/' !in r.value
  {
    if |args| == 0 then Ok("experiment")
    else
      match UnixPaths.PathOf(args[0])
      case Err(e) => Err(e)
      case Ok(path) =>
        assert |path| > 0 && |StripTrailing(path)| == 0 <==> |args[0]| > 0 && |StripTrailing(args[0])| == 0 by {
          StripTrailingEmpty(path);
          StripTrailingEmpty(args[0]);
          UnixPaths.PathOfAllSlashes(args[0]);
        }
        match FileName(path)
        case None => Err(NullPointer)
        case Some(name) => Ok(if |name| == 0 then "experiment" else name)
  }

  /** Stripping leaves nothing exactly when the text is separators only. */
  lemma StripTrailingEmpty(s: string)
    ensures |StripTrailing(s)| == 0 <==> UnixPaths.AllSlashes(s)
  {
  }

  /** A non-empty name without separators or NUL, below any directory
      without NUL, comes back unchanged. */
  lemma ParseFileNameOfChild(dir: string, name: string, rest: seq<string>)
    requires |name| > 0 && '/' !in name
    requires '\0' !in dir + name
    ensures ParseFileName([dir + "/" + name] + rest) == Ok(name)
  {
    var s := dir + "/" + name;
    assert '\0' !in s by {
      assert forall x :: x in s ==> x in dir + name || x == '/';
    }
    var d := UnixPaths.Collapse(dir + "/");
    UnixPaths.CollapseAppendName(dir + "/", name);
    assert s == (dir + "/") + name;
    var c := d + name;
    assert UnixPaths.Collapse(s) == c;
    assert d[|d| - 1] == '/';
    assert c[|c| - 1] == name[|name| - 1] && name[|name| - 1] in name;
    assert UnixPaths.PathOf(s) == Ok(c);
    assert StripTrailing(c) == c;
    var t := AfterLastSlash(c);
    assert c[|c| - |name| - 1] == '/';
    assert t == c[|c| - |name|..] == name;
  }

  /** `parseSeed`: the second argument as a `long`, and -1 when it is
      missing or not a valid `long`. */
  function ParseSeed(args: seq<string>): (seed: int)
    ensures |args| < 2 ==> seed == -1
    ensures |args| >= 2 && Decimal.ParseLong(args[1]).None? ==> seed == -1
    ensures MinInt64 <= seed <= MaxInt64
  {
    if |args| < 2 then -1
    else
      match Decimal.ParseLong(args[1])
      case Some(v) => v
      case None => -1
  }

  /** Every `long` written in decimal as the second argument is the seed. */
  lemma ParseSeedRoundTrip(first: string, seed: int, rest: seq<string>)
    requires MinInt64 <= seed <= MaxInt64
    ensures ParseSeed([first, Decimal.IntToString(seed)] + rest) == seed
  {
    Decimal.ParseIntegerRoundTrip(seed, MinInt64, MaxInt64);
  }

  /** The `count`-th candidate of `uniquePath`: `name + ext` first, then
      `name-count + ext`. */
  function Candidate(name: string, ext: string, count: nat): string {
    if count == 0 then name + ext else name + "-" + Decimal.IntToString(count) + ext
  }

  /** Different counts give different candidates. */
  lemma CandidateInjective(name: string, ext: string, i: nat, j: nat)
    requires Candidate(name, ext, i) == Candidate(name, ext, j)
    ensures i == j
  {
    if i != 0 && j != 0 {
      var di := Decimal.IntToString(i);
      var dj := Decimal.IntToString(j);
      var c := Candidate(name, ext, i);
      assert |di| == |dj|;
      assert di == c[|name| + 1..|name| + 1 + |di|];
      assert dj == c[|name| + 1..|name| + 1 + |dj|];
      Decimal.IntToStringInjective(i, j);
    }
  }

  /** No candidate adds a NUL: the count is written in digits. */
  lemma CandidateNul(name: string, ext: string, count: nat)
    ensures '\0' in Candidate(name, ext, count) <==> '\0' in name + ext
  {
    if count != 0 {
      Decimal.NatToStringValue(count);
      var d := Decimal.IntToString(count);
      assert '\0' !in d by {
        forall k | 0 <= k < |d| ensures d[k] != '\0' {
          assert Decimal.IsDigit(d[k]);
        }
      }
      assert Candidate(name, ext, count) == name + ("-" + d) + ext;
    }
  }

  /** The `count`-th candidate as `Path.of` / `Paths.get` parse it: the
      normal form of its text, and `IllegalArgumentException` for a NUL in
      the name or the extension, whatever the count. */
  function CandidatePath(name: string, ext: string, count: nat): (r: Result<string>)
    ensures r.Err? <==> '\0' in name + ext
    ensures r.Err? ==> r.error == IllegalArgument
    ensures r.Ok? ==> UnixPaths.Normal(r.value)
  {
    CandidateNul(name, ext, count);
    UnixPaths.PathOf(Candidate(name, ext, count))
  }

  /** `Files.exists` on a parsed path; a path that did not parse exists
      nowhere. */
  predicate Exists(taken: string -> bool, p: Result<string>) {
    p.Ok? && taken(p.value)
  }

  /** `uniquePath(name, ext)` with `taken` the paths that exist: the first
      candidate whose path is not taken, or the error `Path.of` raises on
      the first candidate. `bound` is a count whose path is free, which the
      loop needs to end. */
  method UniquePath(name: string, ext: string, taken: string -> bool, bound: nat) returns (r: Result<string>, count: nat)
    requires !Exists(taken, CandidatePath(name, ext, bound))
    ensures r.Err? <==> '\0' in name + ext
    ensures r.Err? ==> r.error == IllegalArgument && count == 0
    ensures r.Ok? ==> r == CandidatePath(name, ext, count) && !taken(r.value) && count <= bound
    ensures r.Ok? ==> forall j :: 0 <= j < count ==> Exists(taken, CandidatePath(name, ext, j))
  {
    r := CandidatePath(name, ext, 0);
    count := 0;
    if r.Err? {
      return;
    }
    while Exists(taken, r)
      invariant count <= bound
      invariant r == CandidatePath(name, ext, count) && r.Ok?
      invariant forall j :: 0 <= j < count ==> Exists(taken, CandidatePath(name, ext, j))
      decreases bound - count
    {
      ghost var seen := r;
      count := count + 1;
      r := CandidatePath(name, ext, count);
      forall j | 0 <= j < count
        ensures Exists(taken, CandidatePath(name, ext, j))
      {
        if j == count - 1 {
          assert CandidatePath(name, ext, j) == seen;
        }
      }
    }
  }
}

=== FILE: file_service.dfy ===
/** `FileService.save`: every configuration of a project is written to
    its own XML file in the configuration folder, named after the
    configuration, with a running number appended to repeated names.

    Writing a file is a step in a list of writes; the folder's final
    contents are what the last write to each path left there. */
module FileService {
  import Decimal
  import opened Configurations

  /** One `write(file, configuration.serialize())`. */
  datatype Write<F> = Write(path: string, configuration: Configuration<F>)

  /** The file names handed out so far and the `Hashtable` of numbers:
      each key is a name in use, each value the last number appended to
      it. */
  datatype Naming = Naming(numbers: map<string, int>, fileNames: seq<string>)

  /** `configFolder.getPath() + File.separator + fileName + ".xml"`, with
      the Unix separator. */
  function FilePath(folder: string, fileName: string): (p: string)
    ensures |p| == |folder| + |fileName| + 5
    ensures p[..|folder| + 1] == folder + "/" && p[|folder| + 1..|folder| + 1 + |fileName|] == fileName
  {
    folder + "/" + fileName + ".xml"
  }

  /** Distinct file names are distinct paths in the same folder. */
  lemma FilePathInjective(folder: string, a: string, b: string)
    requires FilePath(folder, a) == FilePath(folder, b)
    ensures a == b
  {
    var p := FilePath(folder, a);
    assert a == p[|folder| + 1..|folder| + 1 + |a|];
  }

  /** The keys of the table are exactly the names handed out. */
  ghost predicate Consistent(s: Naming) {
    forall f :: f in s.numbers <==> f in s.fileNames
  }

  /** No file name is handed out twice. */
  predicate Distinct(names: seq<string>) {
    forall i, j :: 0 <= i < j < |names| ==> names[i] != names[j]
  }

  /** A numbered name never equals its base. */
  lemma NumberedDiffers(name: string, k: int)
    ensures name + Decimal.IntToString(k) != name
  {
    assert |Decimal.IntToString(k)| > 0 by {
      if k < 0 {
      } else {
        Decimal.NatToStringUnsigned(k);
      }
    }
  }

  /** The same base with two numbers is the same name only for the same
      number. */
  lemma NumberedInjective(name: string, i: int, j: int)
    requires name + Decimal.IntToString(i) == name + Decimal.IntToString(j)
    ensures i == j
  {
    var a := name + Decimal.IntToString(i);
    assert a[|name|..] == Decimal.IntToString(i);
    assert (name + Decimal.IntToString(j))[|name|..] == Decimal.IntToString(j);
    Decimal.IntToStringInjective(i, j);
  }

  // As written

  /** One configuration as the loop body handles it: a name already in
      the table gets its number incremented and appended, and the
      resulting name is added with number 0 only if it is not there yet;
      nothing checks that the numbered name is still free. */
  function StepAsWritten(s: Naming, name: string): (r: Naming)
    ensures |r.fileNames| == |s.fileNames| + 1 && r.fileNames[..|s.fileNames|] == s.fileNames
    ensures name !in s.numbers ==> r.fileNames[|s.fileNames|] == name
    ensures name in s.numbers ==>
              r.fileNames[|s.fileNames|] == name + Decimal.IntToString(s.numbers[name] + 1)
    ensures r.numbers.Keys == s.numbers.Keys + {r.fileNames[|s.fileNames|]}
  {
    if name in s.numbers then
      var number := s.numbers[name] + 1;
      var fileName := name + Decimal.IntToString(number);
      var numbers := s.numbers[name := number];
      Naming(if fileName in numbers then numbers else numbers[fileName := 0], s.fileNames + [fileName])
    else
      Naming(s.numbers[name := 0], s.fileNames + [name])
  }

  /** The table and names after the configurations named `names`. */
  function FileNamingAsWritten(names: seq<string>): (s: Naming)
    ensures |s.fileNames| == |names|
    decreases |names|
  {
    if |names| == 0 then Naming(map[], [])
    else StepAsWritten(FileNamingAsWritten(names[..|names| - 1]), names[|names| - 1])
  }

  /** The original keeps the table's keys equal to the names handed out;
      what it misses is that those names need not differ. */
  lemma {:induction false} AsWrittenConsistent(names: seq<string>)
    ensures Consistent(FileNamingAsWritten(names))
    decreases |names|
  {
    if |names| > 0 {
      var before := FileNamingAsWritten(names[..|names| - 1]);
      AsWrittenConsistent(names[..|names| - 1]);
      var after := StepAsWritten(before, names[|names| - 1]);
      assert after.fileNames == before.fileNames + [after.fileNames[|names| - 1]];
    }
  }

  /** `save(configFolder, configurations)` as written: the writes it
      performs, in order. */
  function SaveAsWritten<F>(folder: string, configurations: seq<Configuration<F>>): (ws: seq<Write<F>>)
    ensures |ws| == |configurations|
    ensures forall i :: 0 <= i < |ws| ==> ws[i].configuration == configurations[i]
  {
    var fileNames := FileNamingAsWritten(Names(configurations)).fileNames;
    seq(|configurations|, i requires 0 <= i < |configurations| => Write(FilePath(folder, fileNames[i]), configurations[i]))
  }

  /** The configuration names, in order. */
  function Names<F>(configurations: seq<Configuration<F>>): (names: seq<string>)
    ensures |names| == |configurations| && forall i :: 0 <= i < |names| ==> names[i] == configurations[i].name
  {
    seq(|configurations|, i requires 0 <= i < |configurations| => configurations[i].name)
  }

  /** A repeated name gets the numbers 1, 2, ... in turn. */
  lemma RepeatedNamesAsWritten()
    ensures FileNamingAsWritten(["a", "a", "a"]).fileNames == ["a", "a1", "a2"]
  {
    var s1 := FileNamingAsWritten(["a"]);
    assert s1 == Naming(map["a" := 0], ["a"]) by {
      assert ["a"][..0] == [];
    }
    var s2 := FileNamingAsWritten(["a", "a"]);
    assert s2 == StepAsWritten(s1, "a") by {
      assert ["a", "a"][..1] == ["a"];
    }
    assert s2 == Naming(map["a" := 1, "a1" := 0], ["a", "a1"]) by {
      Digits();
    }
    assert FileNamingAsWritten(["a", "a", "a"]) == StepAsWritten(s2, "a") by {
      assert ["a", "a", "a"][..2] == ["a", "a"];
    }
    Digits();
  }

  /** A name that already ends in the next number collides: "a", "a1",
      "a" are written to "a", "a1" and "a1" again. */
  lemma CollisionAsWritten()
    ensures FileNamingAsWritten(["a", "a1", "a"]).fileNames == ["a", "a1", "a1"]
  {
    var s1 := FileNamingAsWritten(["a"]);
    assert s1 == Naming(map["a" := 0], ["a"]) by {
      assert ["a"][..0] == [];
    }
    var s2 := FileNamingAsWritten(["a", "a1"]);
    assert s2 == StepAsWritten(s1, "a1") by {
      assert ["a", "a1"][..1] == ["a"];
    }
    assert s2 == Naming(map["a" := 0, "a1" := 0], ["a", "a1"]);
    assert FileNamingAsWritten(["a", "a1", "a"]) == StepAsWritten(s2, "a") by {
      assert ["a", "a1", "a"][..2] == ["a", "a1"];
    }
    Digits();
  }

  /** The numbered names of the examples. */
  lemma Digits()
    ensures "a" + Decimal.IntToString(1) == "a1" && "a" + Decimal.IntToString(2) == "a2"
  {
    assert Decimal.IntToString(1) == "1" && Decimal.IntToString(2) == "2";
  }

  /** The folder after a list of writes: each path holds what was written
      to it last. */
  function Files<F>(writes: seq<Write<F>>): (files: map<string, Configuration<F>>)
    ensures forall i :: 0 <= i < |writes| ==> writes[i].path in files
    ensures forall p :: p in files ==> exists i :: 0 <= i < |writes| && writes[i].path == p
    ensures |writes| > 0 ==> files[writes[|writes| - 1].path] == writes[|writes| - 1].configuration
    decreases |writes|
  {
    if |writes| == 0 then map[]
    else
      var before := Files(writes[..|writes| - 1]);
      var last := writes[|writes| - 1];
      assert forall i :: 0 <= i < |writes| - 1 ==> writes[..|writes| - 1][i] == writes[i];
      before[last.path := last.configuration]
  }

  /** Saving three configurations named "a", "a1" and "a" leaves two
      files: the third overwrites the second. */
  lemma SaveAsWrittenLosesConfiguration<F>(folder: string, a: Configuration<F>, a1: Configuration<F>, again: Configuration<F>)
    requires a.name == "a" && a1.name == "a1" && again.name == "a"
    ensures var files := Files(SaveAsWritten(folder, [a, a1, again]));
            && files.Keys == {FilePath(folder, "a"), FilePath(folder, "a1")}
            && files[FilePath(folder, "a1")] == again
  {
    var pa, p1 := FilePath(folder, "a"), FilePath(folder, "a1");
    var ws := SaveAsWritten(folder, [a, a1, again]);
    CollidingPaths(folder, a, a1, again);
    assert Files(ws[..1]) == map[pa := a] by {
      assert ws[..1][..0] == [];
    }
    assert Files(ws[..2]) == map[pa := a, p1 := a1] by {
      assert ws[..2][..1] == ws[..1];
    }
  }

  /** The paths the original writes "a", "a1" and "a" to. */
  lemma CollidingPaths<F>(folder: string, a: Configuration<F>, a1: Configuration<F>, again: Configuration<F>)
    requires a.name == "a" && a1.name == "a1" && again.name == "a"
    ensures var ws := SaveAsWritten(folder, [a, a1, again]);
            && ws[0].path == FilePath(folder, "a") && ws[1].path == FilePath(folder, "a1")
            && ws[2].path == FilePath(folder, "a1")
  {
    assert Names([a, a1, again]) == ["a", "a1", "a"];
    CollisionAsWritten();
  }

  // Corrected

  /** The first number from `k` on whose numbered name is not in `used`.
      `remaining` holds the used names the search may still meet, which
      shrinks with every number tried. */
  function Search(name: string, k: int, used: set<string>, remaining: set<string>): (j: int)
    requires remaining <= used
    requires forall i :: i >= k && name + Decimal.IntToString(i) in used ==> name + Decimal.IntToString(i) in remaining
    ensures j >= k && name + Decimal.IntToString(j) !in used
    ensures forall i :: k <= i < j ==> name + Decimal.IntToString(i) in used
    decreases remaining
  {
    var candidate := name + Decimal.IntToString(k);
    if candidate !in used then k
    else
      assert forall i :: i >= k + 1 && name + Decimal.IntToString(i) in used ==>
               name + Decimal.IntToString(i) in remaining - {candidate} by {
        forall i | i >= k + 1 && name + Decimal.IntToString(i) in used
          ensures name + Decimal.IntToString(i) != candidate
        {
          if name + Decimal.IntToString(i) == candidate {
            NumberedInjective(name, i, k);
          }
        }
      }
      Search(name, k + 1, used, remaining - {candidate})
  }

  /** The least number from `k` on that gives a free name. */
  function NextFree(name: string, k: int, used: set<string>): (j: int)
    ensures j >= k && name + Decimal.IntToString(j) !in used
    ensures forall i :: k <= i < j ==> name + Decimal.IntToString(i) in used
  {
    Search(name, k, used, used)
  }

  /** One configuration, named so that it cannot collide: a name in use is
      numbered from one past its last number on, skipping numbered names
      already in use. */
  function Step(s: Naming, name: string): (r: Naming)
    ensures |r.fileNames| == |s.fileNames| + 1 && r.fileNames[..|s.fileNames|] == s.fileNames
    ensures r.fileNames[|s.fileNames|] !in s.numbers
    ensures name !in s.numbers ==> r.fileNames[|s.fileNames|] == name
    ensures name in s.numbers ==> exists k :: k > s.numbers[name] && r.fileNames[|s.fileNames|] == name + Decimal.IntToString(k)
    ensures r.numbers.Keys == s.numbers.Keys + {r.fileNames[|s.fileNames|]}
  {
    if name in s.numbers then
      var number := NextFree(name, s.numbers[name] + 1, s.numbers.Keys);
      var fileName := name + Decimal.IntToString(number);
      NumberedDiffers(name, number);
      Naming(s.numbers[name := number][fileName := 0], s.fileNames + [fileName])
    else
      Naming(s.numbers[name := 0], s.fileNames + [name])
  }

  /** The table and names after the configurations named `names`. */
  function FileNaming(names: seq<string>): (s: Naming)
    ensures |s.fileNames| == |names|
    decreases |names|
  {
    if |names| == 0 then Naming(map[], [])
    else Step(FileNaming(names[..|names| - 1]), names[|names| - 1])
  }

  /** What the naming keeps true: the table's keys are the names handed
      out, no name is handed out twice, and no number is negative. */
  ghost predicate Valid(s: Naming) {
    && Consistent(s)
    && Distinct(s.fileNames)
    && forall f :: f in s.numbers ==> s.numbers[f] >= 0
  }

  /** However many configurations are named, no two get the same name. */
  lemma {:induction false} NamingInvariant(names: seq<string>)
    ensures Valid(FileNaming(names))
    decreases |names|
  {
    if |names| > 0 {
      NamingInvariant(names[..|names| - 1]);
      StepValid(FileNaming(names[..|names| - 1]), names[|names| - 1]);
    }
  }

  /** Naming one configuration keeps the naming valid. */
  lemma StepValid(s: Naming, name: string)
    requires Valid(s)
    ensures Valid(Step(s, name))
  {
    StepConsistent(s, name);
    StepDistinct(s, name);
  }

  /** The new name joins both the table and the list. */
  lemma StepConsistent(s: Naming, name: string)
    requires Consistent(s)
    ensures Consistent(Step(s, name))
  {
    var after := Step(s, name);
    assert after.fileNames == s.fileNames + [after.fileNames[|s.fileNames|]];
  }

  /** The new name is not in the table, so it differs from every earlier
      one. */
  lemma StepDistinct(s: Naming, name: string)
    requires Consistent(s) && Distinct(s.fileNames)
    ensures Distinct(Step(s, name).fileNames)
  {
    var after := Step(s, name);
    var n := |s.fileNames|;
    assert forall i :: 0 <= i < n ==> after.fileNames[i] != after.fileNames[n] by {
      assert forall i :: 0 <= i < n ==> after.fileNames[i] == s.fileNames[i] && s.fileNames[i] in s.numbers;
    }
  }

  /** `save(configFolder, configurations)` with collision-free names: the
      writes it performs, in order. */
  function Save<F>(folder: string, configurations: seq<Configuration<F>>): (ws: seq<Write<F>>)
    ensures |ws| == |configurations|
    ensures forall i :: 0 <= i < |ws| ==> ws[i].configuration == configurations[i]
    ensures forall i :: 0 <= i < |ws| ==> ws[i].path == FilePath(folder, FileNaming(Names(configurations)).fileNames[i])
  {
    var fileNames := FileNaming(Names(configurations)).fileNames;
    seq(|configurations|, i requires 0 <= i < |configurations| => Write(FilePath(folder, fileNames[i]), configurations[i]))
  }

  /** `fileName` is `name` when no `earlier` file took that name, and
      `name` followed by a positive number otherwise. */
  ghost predicate KeepsBase(name: string, earlier: seq<string>, fileName: string) {
    && (name !in earlier ==> fileName == name)
    && (name in earlier ==> exists k :: k > 0 && fileName == name + Decimal.IntToString(k))
  }

  /** Each configuration is named after itself when its name is still
      free, and after itself plus a positive number otherwise. */
  lemma {:induction false} NamesKeepTheirBase(names: seq<string>, i: int)
    requires 0 <= i < |names|
    ensures KeepsBase(names[i], FileNaming(names).fileNames[..i], FileNaming(names).fileNames[i])
    decreases |names|
  {
    var n := |names| - 1;
    if i < n {
      var prefix := names[..n];
      var before := FileNaming(prefix).fileNames;
      var all := FileNaming(names).fileNames;
      assert all[i] == before[i] && all[..i] == before[..i] by {
        EarlierFileNames(names);
      }
      assert prefix[i] == names[i];
      NamesKeepTheirBase(prefix, i);
    } else {
      LastFileName(names);
    }
  }

  /** Naming one more configuration leaves the earlier names as they
      were. */
  lemma EarlierFileNames(names: seq<string>)
    requires |names| > 0
    ensures FileNaming(names).fileNames[..|names| - 1] == FileNaming(names[..|names| - 1]).fileNames
  {
  }

  /** The last configuration is named after itself if that name is still
      free, and numbered otherwise. */
  lemma LastFileName(names: seq<string>)
    requires |names| > 0
    ensures var n := |names| - 1;
            var all := FileNaming(names).fileNames;
            KeepsBase(names[n], all[..n], all[n])
  {
    var n := |names| - 1;
    var before := FileNaming(names[..n]);
    assert FileNaming(names) == Step(before, names[n]);
    NamingInvariant(names[..n]);
    assert FileNaming(names).fileNames[..n] == before.fileNames;
    assert names[n] in before.numbers <==> names[n] in before.fileNames;
  }

  /** Every configuration ends up in its own file: the folder holds one
      file per configuration, each with that configuration. */
  lemma SaveKeepsEveryConfiguration<F>(folder: string, configurations: seq<Configuration<F>>)
    ensures var ws := Save(folder, configurations);
            var files := Files(ws);
            && |files| == |configurations|
            && forall i :: 0 <= i < |ws| ==> files[ws[i].path] == configurations[i]
  {
    var ws := Save(folder, configurations);
    var fileNames := FileNaming(Names(configurations)).fileNames;
    NamingInvariant(Names(configurations));
    forall i, j | 0 <= i < j < |ws|
      ensures ws[i].path != ws[j].path
    {
      if ws[i].path == ws[j].path {
        FilePathInjective(folder, fileNames[i], fileNames[j]);
      }
    }
    assert DistinctPaths(ws);
    DistinctWrites(ws);
  }

  /** No two writes go to the same path. */
  ghost predicate DistinctPaths<F>(ws: seq<Write<F>>) {
    forall i, j :: 0 <= i < j < |ws| ==> ws[i].path != ws[j].path
  }

  /** The folder holds one file per write, each with what was written to
      it. */
  ghost predicate KeepsAll<F>(ws: seq<Write<F>>) {
    && |Files(ws)| == |ws|
    && forall i :: 0 <= i < |ws| ==> Files(ws)[ws[i].path] == ws[i].configuration
  }

  /** Writes to pairwise distinct paths leave one file per write, each
      with what was written to it. */
  lemma {:induction false} DistinctWrites<F>(ws: seq<Write<F>>)
    requires DistinctPaths(ws)
    ensures KeepsAll(ws)
    decreases |ws|
  {
    if |ws| > 0 {
      var n := |ws| - 1;
      PrefixPaths(ws);
      DistinctWrites(ws[..n]);
      OneMoreWrite(ws[..n], ws[n]);
      assert ws == ws[..n] + [ws[n]];
    }
  }

  /** The writes before the last go to distinct paths, none of them the
      last one's. */
  lemma PrefixPaths<F>(ws: seq<Write<F>>)
    requires |ws| > 0 && DistinctPaths(ws)
    ensures DistinctPaths(ws[..|ws| - 1])
    ensures forall i :: 0 <= i < |ws| - 1 ==> ws[i].path != ws[|ws| - 1].path
  {
    assert forall i :: 0 <= i < |ws| - 1 ==> ws[..|ws| - 1][i] == ws[i];
  }

  /** A last write to a new path adds one file and leaves the others
      alone. */
  lemma OneMoreWrite<F>(prefix: seq<Write<F>>, last: Write<F>)
    requires KeepsAll(prefix)
    requires forall i :: 0 <= i < |prefix| ==> prefix[i].path != last.path
    ensures KeepsAll(prefix + [last])
  {
    var ws := prefix + [last];
    FreshPath(prefix, last);
    assert ws[..|ws| - 1] == prefix;
    LastWrite(ws);
    assert |Files(ws)| == |Files(prefix)| + 1;
    EarlierFilesKept(prefix, last);
  }

  /** A path none of the earlier writes went to is not yet in the
      folder. */
  lemma FreshPath<F>(prefix: seq<Write<F>>, last: Write<F>)
    requires forall i :: 0 <= i < |prefix| ==> prefix[i].path != last.path
    ensures last.path !in Files(prefix)
  {
    forall p | p in Files(prefix)
      ensures p != last.path
    {
      var i :| 0 <= i < |prefix| && prefix[i].path == p;
    }
  }

  /** The folder after one more write. */
  lemma LastWrite<F>(ws: seq<Write<F>>)
    requires |ws| > 0
    ensures Files(ws) == Files(ws[..|ws| - 1])[ws[|ws| - 1].path := ws[|ws| - 1].configuration]
  {
  }

  /** Writing to a new path leaves the earlier files as they were. */
  lemma EarlierFilesKept<F>(prefix: seq<Write<F>>, last: Write<F>)
    requires forall i :: 0 <= i < |prefix| ==> prefix[i].path != last.path
    requires forall i :: 0 <= i < |prefix| ==> Files(prefix)[prefix[i].path] == prefix[i].configuration
    ensures var after := Files(prefix)[last.path := last.configuration];
            forall i :: 0 <= i < |prefix| + 1 ==> after[(prefix + [last])[i].path] == (prefix + [last])[i].configuration
  {
    var ws := prefix + [last];
    forall i | 0 <= i < |ws|
      ensures Files(prefix)[last.path := last.configuration][ws[i].path] == ws[i].configuration
    {
      if i < |prefix| {
        assert ws[i] == prefix[i];
      }
    }
  }

  /** On a repeated name with no numbered names in the way, the corrected
      naming agrees with the original one. */
  lemma RepeatedNames()
    ensures FileNaming(["a", "a", "a"]).fileNames == FileNamingAsWritten(["a", "a", "a"]).fileNames
  {
    ThriceNamed();
    RepeatedNamesAsWritten();
  }

  /** A name given three times is numbered 1 and 2. */
  lemma ThriceNamed()
    ensures FileNaming(["a", "a", "a"]).fileNames == ["a", "a1", "a2"]
  {
    var s2 := FileNaming(["a", "a"]);
    assert s2.fileNames == ["a", "a1"] && s2.numbers.Keys == {"a", "a1"} && s2.numbers["a"] == 1 by {
      TwiceNamed();
    }
    var number := NextFree("a", s2.numbers["a"] + 1, s2.numbers.Keys);
    assert number == 2 by {
      Digits();
      assert NextFree("a", 2, {"a", "a1"}) == 2;
    }
    assert FileNaming(["a", "a", "a"]).fileNames == s2.fileNames + ["a" + Decimal.IntToString(number)] by {
      assert ["a", "a", "a"][..2] == ["a", "a"];
      assert FileNaming(["a", "a", "a"]) == Step(s2, "a");
    }
    assert "a" + Decimal.IntToString(number) == "a2" by {
      Digits();
    }
  }

  /** A name given twice is numbered 1 the second time. */
  lemma TwiceNamed()
    ensures FileNaming(["a", "a"]) == Naming(map["a" := 1, "a1" := 0], ["a", "a1"])
  {
    Digits();
    var s1 := FileNaming(["a"]);
    assert s1 == Naming(map["a" := 0], ["a"]) by {
      assert ["a"][..0] == [];
    }
    assert s1.numbers.Keys == {"a"} && s1.numbers["a"] + 1 == 1;
    assert NextFree("a", 1, {"a"}) == 1;
    assert FileNaming(["a", "a"]) == Step(s1, "a") by {
      assert ["a", "a"][..1] == ["a"];
    }
  }

  /** Where the original collides, the corrected naming moves on: "a",
      "a1", "a" are written to "a", "a1" and "a2". */
  lemma NoCollision()
    ensures FileNaming(["a", "a1", "a"]).fileNames == ["a", "a1", "a2"]
  {
    var s2 := FileNaming(["a", "a1"]);
    assert s2 == Naming(map["a" := 0, "a1" := 0], ["a", "a1"]) by {
      OnceEach();
    }
    var number := NextFree("a", s2.numbers["a"] + 1, s2.numbers.Keys);
    assert number == 2 by {
      assert s2.numbers.Keys == {"a", "a1"} && s2.numbers["a"] + 1 == 1;
      SkipsTaken();
    }
    assert FileNaming(["a", "a1", "a"]).fileNames == s2.fileNames + ["a" + Decimal.IntToString(number)] by {
      assert ["a", "a1", "a"][..2] == ["a", "a1"];
      assert FileNaming(["a", "a1", "a"]) == Step(s2, "a");
    }
    assert "a" + Decimal.IntToString(number) == "a2" by {
      Digits();
    }
  }

  /** With "a" and "a1" taken, the next free number for "a" is 2. */
  lemma SkipsTaken()
    ensures NextFree("a", 1, {"a", "a1"}) == 2
  {
    var used: set<string> := {"a", "a1"};
    Digits();
    assert "a" + Decimal.IntToString(1) in used && "a" + Decimal.IntToString(2) !in used;
  }

  /** Two different names keep their own names. */
  lemma OnceEach()
    ensures FileNaming(["a", "a1"]) == Naming(map["a" := 0, "a1" := 0], ["a", "a1"])
  {
    var s1 := FileNaming(["a"]);
    assert s1 == Naming(map["a" := 0], ["a"]) by {
      assert ["a"][..0] == [];
    }
    assert "a1" !in s1.numbers;
    assert FileNaming(["a", "a1"]) == Step(s1, "a1") by {
      assert ["a", "a1"][..1] == ["a"];
    }
  }
}

=== FILE: index_entry.dfy ===
/** The entry of the global project register: where a project lives, its
    name and version, and when it was last used.

    The date type `D` and its ISO formatter and parser are parameters, as
    is the clock that `LocalDateTime.now()` reads. A path is kept as the
    text `Path.toString()` prints. */
module IndexEntries {
  import opened Wrappers
  import opened Dom
  import UnixPaths
  import Configurations

  /** An entry; `null` names and versions are `None`. */
  datatype IndexEntry<D> = IndexEntry(path: string, name: Option<string>, version: Option<string>, lastUsed: D)

  /** `DateTimeFormatter.ISO_DATE_TIME`: `format` prints a date, `parse`
      reads one back or throws a `DateTimeParseException`. */
  datatype DateFormat<!D> = DateFormat(format: D -> string, parse: string -> Result<D>)

  /** The formatter reads back what it prints for the date `d`. */
  ghost predicate RoundTrips<D>(dates: DateFormat<D>, d: D) {
    dates.parse(dates.format(d)) == Ok(d)
  }

  /** An entry `serialize` and `parse` carry over: its path is printed
      text and the formatter reads its date back. */
  ghost predicate Writable<D>(entry: IndexEntry<D>, dates: DateFormat<D>) {
    && UnixPaths.Normal(entry.path) && '\0' !in entry.path
    && RoundTrips(dates, entry.lastUsed)
  }

  const UnknownName: string := "Unknown"
  const PathAttribute: string := "path"
  const NameAttribute: string := "name"
  const VersionAttribute: string := "version"
  const LastUsedAttribute: string := "lastUsed"

  /** The field defaults of `new IndexEntry()`: the root path, "Unknown",
      "unknown" and `LocalDateTime.MIN`, which is the parameter `min`. */
  function Default<D>(min: D): (e: IndexEntry<D>)
    ensures e.path == "/" && UnixPaths.Normal(e.path)
    ensures e.name == Some(UnknownName) && e.version == Some(Configurations.UnknownVersion)
    ensures e.lastUsed == min
  {
    IndexEntry("/", Some(UnknownName), Some(Configurations.UnknownVersion), min)
  }

  /** `parse(element)`: `null` (here `None`) without a path attribute;
      otherwise every field is overwritten, so the receiver plays no
      part. A missing name or version takes its default, a missing date
      the clock's `now`. `Path.of` and the date parser can throw. */
  function Parse<D>(e: Element, now: D, dates: DateFormat<D>): (r: Result<Option<IndexEntry<D>>>)
    ensures PathAttribute !in e.attributes ==> r == Ok(None)
    ensures r.Ok? && r.value.Some? ==> && PathAttribute in e.attributes
                                       && UnixPaths.PathOf(e.attributes[PathAttribute]) == Ok(r.value.value.path)
    ensures r.Ok? && r.value.Some? ==>
              r.value.value.name == Some(if NameAttribute in e.attributes then e.attributes[NameAttribute] else UnknownName)
    ensures r.Ok? && r.value.Some? ==>
              r.value.value.version == Some(if VersionAttribute in e.attributes then e.attributes[VersionAttribute]
                                            else Configurations.UnknownVersion)
    ensures r.Ok? && r.value.Some? && LastUsedAttribute !in e.attributes ==> r.value.value.lastUsed == now
    ensures r.Ok? && r.value.Some? && LastUsedAttribute in e.attributes ==>
              dates.parse(e.attributes[LastUsedAttribute]) == Ok(r.value.value.lastUsed)
    ensures PathAttribute in e.attributes && r.Ok? ==> r.value.Some?
  {
    var attributes := e.attributes;
    if PathAttribute !in attributes then Ok(None)
    else
      var path :- UnixPaths.PathOf(attributes[PathAttribute]);
      var name := if NameAttribute in attributes then attributes[NameAttribute] else UnknownName;
      var version := if VersionAttribute in attributes then attributes[VersionAttribute] else Configurations.UnknownVersion;
      var lastUsed :- if LastUsedAttribute in attributes then dates.parse(attributes[LastUsedAttribute]) else Ok(now);
      Ok(Some(IndexEntry(path, Some(name), Some(version), lastUsed)))
  }

  /** `serialize()`: an "entry" element with the path, name, version and
      formatted date as attributes; a `null` name or version leaves its
      attribute out. */
  function Serialize<D>(entry: IndexEntry<D>, dates: DateFormat<D>): (e: Element)
    ensures e.name == "entry" && e.children == []
    ensures PathAttribute in e.attributes && e.attributes[PathAttribute] == entry.path
    ensures LastUsedAttribute in e.attributes && e.attributes[LastUsedAttribute] == dates.format(entry.lastUsed)
    ensures NameAttribute in e.attributes <==> entry.name.Some?
    ensures entry.name.Some? ==> e.attributes[NameAttribute] == entry.name.value
    ensures VersionAttribute in e.attributes <==> entry.version.Some?
    ensures entry.version.Some? ==> e.attributes[VersionAttribute] == entry.version.value
  {
    var withPath := AddAttribute(NewElement("entry"), PathAttribute, Some(entry.path));
    var withName := AddAttribute(withPath, NameAttribute, entry.name);
    var withVersion := AddAttribute(withName, VersionAttribute, entry.version);
    AddAttribute(withVersion, LastUsedAttribute, Some(dates.format(entry.lastUsed)))
  }

  /** What a serialised entry reads back as: itself, with a `null` name or
      version replaced by its default. */
  function Reread<D>(entry: IndexEntry<D>): (r: IndexEntry<D>)
    ensures r.path == entry.path && r.lastUsed == entry.lastUsed
    ensures r.name.Some? && r.version.Some?
    ensures entry.name.Some? ==> r.name == entry.name
    ensures entry.version.Some? ==> r.version == entry.version
    ensures entry.name.None? ==> r.name == Some(UnknownName)
    ensures entry.version.None? ==> r.version == Some(Configurations.UnknownVersion)
  {
    entry.(name := Some(entry.name.GetOr(UnknownName)), version := Some(entry.version.GetOr(Configurations.UnknownVersion)))
  }

  /** `Reread` of every entry, in order. */
  function RereadAll<D>(entries: seq<IndexEntry<D>>): (rs: seq<IndexEntry<D>>)
    ensures |rs| == |entries| && forall i :: 0 <= i < |entries| ==> rs[i] == Reread(entries[i])
  {
    seq(|entries|, i requires 0 <= i < |entries| => Reread(entries[i]))
  }

  /** An entry with a printable path and a date the formatter reads back
      survives `serialize` and `parse`, the defaults standing in for
      `null`s; the clock is not consulted. */
  lemma ParseSerialize<D>(entry: IndexEntry<D>, now: D, dates: DateFormat<D>)
    requires Writable(entry, dates)
    ensures Parse(Serialize(entry, dates), now, dates) == Ok(Some(Reread(entry)))
  {
    UnixPaths.PathOfNormal(entry.path);
  }

  /** Every entry `parse` produces serialises and parses back to itself. */
  lemma ParsedIsStable<D>(e: Element, now: D, dates: DateFormat<D>)
    requires Parse(e, now, dates).Ok? && Parse(e, now, dates).value.Some?
    requires RoundTrips(dates, Parse(e, now, dates).value.value.lastUsed)
    ensures var entry := Parse(e, now, dates).value.value;
            Parse(Serialize(entry, dates), now, dates) == Ok(Some(entry))
  {
    var entry := Parse(e, now, dates).value.value;
    var path := e.attributes[PathAttribute];
    assert UnixPaths.PathOf(path) == Ok(entry.path);
    assert '\0' !in entry.path by {
      UnixPaths.PathOfIdempotent(path);
    }
    ParseSerialize(entry, now, dates);
  }
}

=== FILE: json.dfy ===
/** The JSON documents the services read and write, and the `org.json`
    accessors they use.

    A document is modelled as parsed from text: arrays are `JArr`, objects
    are maps from key to value (`JSONObject` keeps no key order), numbers
    are reals. */
module Json {
  import opened Wrappers
  import opened Numerics
  import Decimal

  datatype JVal =
    | JNull
    | JBool(b: bool)
    | JNum(n: real)
    | JStr(s: string)
    | JArr(items: seq<JVal>)
    | JObj(fields: map<string, JVal>)

  type JObject = map<string, JVal>

  /** `get(key)`: a missing key throws a `JSONException`. */
  function Get(o: JObject, key: string): (r: Result<JVal>)
    ensures r.Ok? <==> key in o
    ensures r.Ok? ==> r.value == o[key]
    ensures r.Err? ==> r.error == JsonFormat
  {
    if key in o then Ok(o[key]) else Err(JsonFormat)
  }

  /** `getInt(key)`: a number is cast to `int`, a string is parsed as an
      `int`; a missing key, a string `parseInt` rejects, or a value of any
      other kind throws. */
  function GetInt(o: JObject, key: string): (r: Result<Int32>)
    ensures r.Ok? ==> key in o && (o[key].JNum? || o[key].JStr?)
    ensures key in o && o[key].JNum? ==> r == Ok(IntCast(o[key].n))
    ensures key in o && o[key].JStr? ==>
              (r.Ok? <==> Decimal.ParseInt(o[key].s).Some?) &&
              (r.Ok? ==> r.value == Decimal.ParseInt(o[key].s).value)
    ensures r.Err? ==> r.error == JsonFormat
  {
    if key !in o then Err(JsonFormat)
    else match o[key]
      case JNum(x) => Ok(IntCast(x))
      case JStr(s) =>
        (match Decimal.ParseInt(s)
         case Some(i) => Ok(i)
         case None => Err(JsonFormat))
      case _ => Err(JsonFormat)
  }

  /** `getDouble(key)`: a number's value, or a string parsed by
      `Double.parseDouble`; a missing key, a string the parser rejects, or a
      value of any other kind throws. */
  function GetDouble(o: JObject, key: string): (r: Result<real>)
    ensures r.Ok? <==> key in o && (o[key].JNum? || (o[key].JStr? && Decimal.ParseDecimal(o[key].s).Some?))
    ensures key in o && o[key].JNum? ==> r == Ok(o[key].n)
    ensures r.Ok? && o[key].JStr? ==> r.value == Decimal.ParseDecimal(o[key].s).value
    ensures r.Err? ==> r.error == JsonFormat
  {
    if key !in o then Err(JsonFormat)
    else match o[key]
      case JNum(x) => Ok(x)
      case JStr(s) =>
        (match Decimal.ParseDecimal(s)
         case Some(x) => Ok(x)
         case None => Err(JsonFormat))
      case _ => Err(JsonFormat)
  }

  /** `getString(key)`: only a string value is returned. */
  function GetString(o: JObject, key: string): (r: Result<string>)
    ensures r.Ok? <==> key in o && o[key].JStr?
    ensures r.Ok? ==> r.value == o[key].s
    ensures r.Err? ==> r.error == JsonFormat
  {
    if key in o && o[key].JStr? then Ok(o[key].s) else Err(JsonFormat)
  }

  /** `getJSONArray(key)`: only an array value is returned. */
  function GetArray(o: JObject, key: string): (r: Result<seq<JVal>>)
    ensures r.Ok? <==> key in o && o[key].JArr?
    ensures r.Ok? ==> r.value == o[key].items
    ensures r.Err? ==> r.error == JsonFormat
  {
    if key in o && o[key].JArr? then Ok(o[key].items) else Err(JsonFormat)
  }

  /** `getJSONObject(key)`: only an object value is returned. */
  function GetObject(o: JObject, key: string): (r: Result<JObject>)
    ensures r.Ok? <==> key in o && o[key].JObj?
    ensures r.Ok? ==> r.value == o[key].fields
    ensures r.Err? ==> r.error == JsonFormat
  {
    if key in o && o[key].JObj? then Ok(o[key].fields) else Err(JsonFormat)
  }

  /** `accumulate(key, value)`: the value itself under a new key (an array
      value wrapped in a one-element array), appended to an existing array,
      or paired with an existing non-array value. */
  function Accumulate(o: JObject, key: string, v: JVal): (r: JObject)
    ensures r.Keys == o.Keys + {key}
    ensures forall k :: k in o && k != key ==> r[k] == o[k]
    ensures key !in o && !v.JArr? ==> r == o[key := v]
    ensures key in o && o[key].JArr? ==> r[key] == JArr(o[key].items + [v])
  {
    if key !in o then o[key := if v.JArr? then JArr([v]) else v]
    else match o[key]
      case JArr(items) => o[key := JArr(items + [v])]
      case previous => o[key := JArr([previous, v])]
  }

  /** `append(key, value)`: a new array under a new key, the value added to
      an existing array; an existing non-array value throws. */
  function Append(o: JObject, key: string, v: JVal): (r: Result<JObject>)
    ensures r.Ok? <==> key !in o || o[key].JArr?
    ensures r.Err? ==> r.error == JsonFormat
    ensures r.Ok? ==> r.value.Keys == o.Keys + {key}
    ensures r.Ok? ==> forall k :: k in o && k != key ==> r.value[k] == o[k]
    ensures r.Ok? ==> r.value[key] == JArr((if key in o then o[key].items else []) + [v])
  {
    if key !in o then
      assert [] + [v] == [v];
      Ok(o[key := JArr([v])])
    else match o[key]
      case JArr(items) => Ok(o[key := JArr(items + [v])])
      case _ => Err(JsonFormat)
  }

  /** `forEach(x -> o.append(key, f(x)))` over a list: nothing for an empty
      list, otherwise the images in list order under `key`. */
  function AppendEach(o: JObject, key: string, vs: seq<JVal>): (r: Result<JObject>)
    ensures |vs| == 0 ==> r == Ok(o)
    ensures |vs| > 0 ==> (r.Ok? <==> key !in o || o[key].JArr?)
    ensures |vs| > 0 && r.Ok? ==>
              && r.value.Keys == o.Keys + {key}
              && (forall k :: k in o && k != key ==> r.value[k] == o[k])
              && r.value[key] == JArr((if key in o then o[key].items else []) + vs)
    decreases |vs|
  {
    if |vs| == 0 then Ok(o)
    else
      var first :- Append(o, key, vs[0]);
      var rest := AppendEach(first, key, vs[1..]);
      assert (if key in o then o[key].items else []) + vs
          == ((if key in o then o[key].items else []) + [vs[0]]) + vs[1..];
      rest
  }

  /** `if (list.size() == 0) put(key, new ArrayList<>())` followed by
      `list.forEach(x -> append(key, x))` on a key not yet present: the
      items, in order, as an array that is there even when empty. */
  function PutList(o: JObject, key: string, vs: seq<JVal>): (r: JObject)
    requires key !in o
    ensures r.Keys == o.Keys + {key}
    ensures r[key] == JArr(vs)
    ensures forall k :: k in o ==> r[k] == o[k]
  {
    if |vs| == 0 then o[key := JArr([])]
    else
      assert [] + vs == vs;
      AppendEach(o, key, vs).value
  }
}

=== FILE: json_service.dfy ===
/** The newer JSON mapping: points, genes and chromosomes as before, the
    builder configuration with its fitness and alterers, experiments, and
    the generic array reader.

    Points, genes and chromosomes are written exactly as the older mapping
    writes them, so those writers are shared with `LegacyJsonService`. */
module JsonService {
  import opened Wrappers
  import opened Numerics
  import opened Json
  import opened DiscretePoints
  import opened DiscreteGenes
  import opened DiscreteChromosomes
  import opened Configurations
  import Environment
  import Legacy = LegacyJsonService
  import Projects
  import Decimal

  const VersionKey: string := "ver"
  const NameKey: string := "name"
  const DistancesKey: string := "distance"
  const PositionsKey: string := "positions"
  const TreasuresKey: string := "treasures"
  const IndividualsKey: string := "individuals"
  const LimitKey: string := "limit"
  const ConfigurationKey: string := "configuration"
  const FitnessKey: string := "fitness"
  const ProbabilityKey: string := "probability"
  const MethodKey: string := "method"
  const PopulationKey: string := "population"
  const OffspringKey: string := "offspring"
  const SurvivorsKey: string := "survivors"
  const AlterersKey: string := "alterers"
  const PathKey: string := "path"

  /** The version `readConfiguration` falls back on. */
  const UndefinedVersion: string := "undefined"

  type Config = Configuration<Environment.FitnessVariant>

  /** `getClass().getSimpleName()` of each alterer. */
  function SimpleName(kind: AltererKind): string {
    match kind
    case SwapGeneMutator => "SwapGeneMutator"
    case SwapPositionsMutator => "SwapPositionsMutator"
    case SwapDistanceMutator => "SwapDistanceMutator"
    case DistanceMutator => "DistanceMutator"
    case PositionMutator => "PositionMutator"
  }

  /** `Fitness.name()`. */
  function FitnessName(f: Environment.FitnessVariant): string {
    match f
    case Singular => "SINGULAR"
    case Global => "GLOBAL"
    case Spiral => "SPIRAL"
  }

  /** Distinct alterers and distinct fitness variants get distinct names. */
  lemma NamesInjective(k1: AltererKind, k2: AltererKind, f1: Environment.FitnessVariant, f2: Environment.FitnessVariant)
    ensures SimpleName(k1) == SimpleName(k2) ==> k1 == k2
    ensures FitnessName(f1) == FitnessName(f2) ==> f1 == f2
  {
  }

  /** `write(alterer)`: its class name and probability. */
  function WriteAlterer(a: Alterer): (o: JObject)
    ensures o.Keys == {MethodKey, ProbabilityKey}
    ensures o[MethodKey] == JStr(SimpleName(a.kind)) && o[ProbabilityKey] == JNum(a.probability)
  {
    Accumulate(Accumulate(map[], MethodKey, JStr(SimpleName(a.kind))), ProbabilityKey, JNum(a.probability))
  }

  function AltererObjects(alterers: seq<Alterer>): (vs: seq<JVal>)
    ensures |vs| == |alterers| && forall i :: 0 <= i < |alterers| ==> vs[i] == JObj(WriteAlterer(alterers[i]))
  {
    seq(|alterers|, i requires 0 <= i < |alterers| => JObj(WriteAlterer(alterers[i])))
  }

  /** The identifying fields of `write(configuration)`. */
  function Identity(c: Config): (o: JObject)
    ensures o.Keys == IdentityKeys
    ensures o[VersionKey] == JStr(c.version) && o[NameKey] == JStr(c.name)
    ensures o[PositionsKey] == JNum(c.positions as real) && o[LimitKey] == JNum(c.limit as real)
    ensures o[DistancesKey] == JArr(Legacy.Numbers(c.distances))
  {
    var o := Accumulate(Accumulate(map[], VersionKey, JStr(c.version)), NameKey, JStr(c.name));
    var p := Accumulate(o, PositionsKey, JNum(c.positions as real));
    Accumulate(p[DistancesKey := JArr(Legacy.Numbers(c.distances))], LimitKey, JNum(c.limit as real))
  }

  /** The engine settings of `write(configuration)`. */
  function Settings(c: Config, identity: JObject): (o: JObject)
    requires FitnessKey !in identity && PopulationKey !in identity
    requires OffspringKey !in identity && SurvivorsKey !in identity
    ensures o.Keys == identity.Keys + {FitnessKey, PopulationKey, OffspringKey, SurvivorsKey}
    ensures forall k :: k in identity ==> o[k] == identity[k]
    ensures o[FitnessKey] == JStr(FitnessName(c.fitness))
    ensures o[PopulationKey] == JNum(c.population as real)
    ensures o[OffspringKey] == JNum(c.offspring as real)
    ensures o[SurvivorsKey] == JNum(c.survivors as real)
  {
    SettingsKeysDiffer();
    Sizes(c, Put(identity, FitnessKey, JStr(FitnessName(c.fitness))))
  }

  /** The population, offspring and survivor counts added to `o`. */
  function Sizes(c: Config, o: JObject): (r: JObject)
    requires PopulationKey !in o && OffspringKey !in o && SurvivorsKey !in o
    ensures r.Keys == o.Keys + {PopulationKey, OffspringKey, SurvivorsKey}
    ensures forall k :: k in o ==> r[k] == o[k]
    ensures r[PopulationKey] == JNum(c.population as real)
    ensures r[OffspringKey] == JNum(c.offspring as real)
    ensures r[SurvivorsKey] == JNum(c.survivors as real)
  {
    SettingsKeysDiffer();
    var p := Put(o, PopulationKey, JNum(c.population as real));
    Put(Put(p, OffspringKey, JNum(c.offspring as real)), SurvivorsKey, JNum(c.survivors as real))
  }

  /** The keys of `write(configuration)` differ in their first letter or
      their length. */
  lemma SettingsKeysDiffer()
    ensures VersionKey[0] == 'v' && NameKey[0] == 'n' && PositionsKey[0] == 'p' && DistancesKey[0] == 'd'
    ensures LimitKey[0] == 'l' && FitnessKey[0] == 'f' && OffspringKey[0] == 'o' && SurvivorsKey[0] == 's'
    ensures PopulationKey[0] == 'p' && |PopulationKey| != |PositionsKey|
    ensures AlterersKey[0] == 'a' && TreasuresKey[0] == 't'
  {
  }

  /** `accumulate` of a new key with a non-array value: a plain put. */
  function Put(o: JObject, key: string, v: JVal): (r: JObject)
    requires key !in o && !v.JArr?
    ensures r == o[key := v]
  {
    Accumulate(o, key, v)
  }

  /** The identifying fields. */
  const IdentityKeys: set<string> := {VersionKey, NameKey, PositionsKey, DistancesKey, LimitKey}

  /** The identifying fields and the engine settings. */
  const SettingsKeys: set<string> := IdentityKeys + {FitnessKey, PopulationKey, OffspringKey, SurvivorsKey}

  /** The keys `write(configuration)` emits, lists included. */
  const ConfigurationKeys: set<string> := SettingsKeys + {AlterersKey, TreasuresKey}

  /** The two lists of `write(configuration)`, put as arrays even when
      empty. */
  function AddLists(settings: JObject, alterers: seq<JVal>, treasures: seq<JVal>): (o: JObject)
    requires AlterersKey !in settings && TreasuresKey !in settings
    ensures o.Keys == settings.Keys + {AlterersKey, TreasuresKey}
    ensures forall k :: k in settings ==> o[k] == settings[k]
    ensures o[AlterersKey] == JArr(alterers) && o[TreasuresKey] == JArr(treasures)
  {
    var withAlterers := PutList(settings, AlterersKey, alterers);
    PutList(withAlterers, TreasuresKey, treasures)
  }

  /** `write(configuration)`: every field, with "alterers" and "treasures"
      present as arrays even when empty. */
  function WriteConfiguration(c: Config): (o: JObject)
    ensures o.Keys == ConfigurationKeys
    ensures o[TreasuresKey] == JArr(Legacy.PointObjects(c.treasures))
    ensures o[AlterersKey] == JArr(AltererObjects(c.alterers))
  {
    IdentityLeavesOut(c);
    SettingsLeaveOut(c, Identity(c));
    var s := Settings(c, Identity(c));
    AddLists(s, AltererObjects(c.alterers), Legacy.PointObjects(c.treasures))
  }

  /** `write(configuration)` puts the version and name as strings, the
      number of positions as a number and the fitness by its name. */
  lemma WrittenSettings(c: Config)
    ensures var o := WriteConfiguration(c);
            && o[VersionKey] == JStr(c.version) && o[NameKey] == JStr(c.name)
            && o[PositionsKey] == JNum(c.positions as real) && o[FitnessKey] == JStr(FitnessName(c.fitness))
  {
    IdentityLeavesOut(c);
    SettingsLeaveOut(c, Identity(c));
  }

  /** The identifying fields leave room for the settings and the lists. */
  lemma IdentityLeavesOut(c: Config)
    ensures FitnessKey !in Identity(c) && PopulationKey !in Identity(c)
    ensures OffspringKey !in Identity(c) && SurvivorsKey !in Identity(c)
    ensures AlterersKey !in Identity(c) && TreasuresKey !in Identity(c)
  {
  }

  /** The settings leave room for the lists. */
  lemma SettingsLeaveOut(c: Config, identity: JObject)
    requires FitnessKey !in identity && PopulationKey !in identity
    requires OffspringKey !in identity && SurvivorsKey !in identity
    requires AlterersKey !in identity && TreasuresKey !in identity
    ensures AlterersKey !in Settings(c, identity) && TreasuresKey !in Settings(c, identity)
  {
  }

  /** The written individuals of an experiment. */
  function ChromosomeObjects(cs: seq<Chromosome>): (vs: seq<JVal>)
    ensures |vs| == |cs| && forall i :: 0 <= i < |cs| ==> vs[i] == JObj(Legacy.WriteChromosome(cs[i]))
  {
    seq(|cs|, i requires 0 <= i < |cs| => JObj(Legacy.WriteChromosome(cs[i])))
  }

  /** The configuration entry with each individual appended after it. */
  function AppendIndividuals(configuration: JVal, individuals: seq<JVal>): (o: JObject)
    requires configuration.JObj?
    ensures ConfigurationKey in o && o[ConfigurationKey] == configuration
    ensures |individuals| == 0 ==> o.Keys == {ConfigurationKey}
    ensures |individuals| > 0 ==> o.Keys == {ConfigurationKey, IndividualsKey} && o[IndividualsKey] == JArr(individuals)
  {
    var o := Accumulate(map[], ConfigurationKey, configuration);
    assert o == map[ConfigurationKey := configuration];
    assert IndividualsKey !in o;
    assert [] + individuals == individuals;
    AppendEach(o, IndividualsKey, individuals).value
  }

  /** `write(experiment)`: the configuration, then each individual appended
      under "individuals", which is absent when there are none. */
  function WriteExperiment(e: Environment.Experiment): (o: JObject)
    ensures ConfigurationKey in o && o[ConfigurationKey] == JObj(WriteConfiguration(e.configuration))
    ensures |e.individuals| == 0 ==> o.Keys == {ConfigurationKey}
    ensures |e.individuals| > 0 ==> o.Keys == {ConfigurationKey, IndividualsKey} &&
                                    o[IndividualsKey] == JArr(ChromosomeObjects(e.individuals))
  {
    AppendIndividuals(JObj(WriteConfiguration(e.configuration)), ChromosomeObjects(e.individuals))
  }

  /** `readDiscretePoint`: no key check any more; the getters throw on a
      missing or ill-typed value. */
  function ReadPoint(o: JObject, positions: int): (r: Result<Point>)
    ensures r.Ok? <==> GetInt(o, Legacy.PositionKey).Ok? && GetDouble(o, Legacy.DistanceKey).Ok?
    ensures r.Ok? ==> r.value == Point(positions, GetInt(o, Legacy.PositionKey).value, GetDouble(o, Legacy.DistanceKey).value)
    ensures r.Err? ==> r.error == JsonFormat
  {
    var position :- GetInt(o, Legacy.PositionKey);
    var distance :- GetDouble(o, Legacy.DistanceKey);
    Ok(Point(positions, position, distance))
  }

  /** A distance written as a string is parsed: position 1 and distance
      "2.5" read as the point at slot 1, distance 2.5. */
  lemma ReadPointStringDistance(positions: int)
    ensures ReadPoint(map[Legacy.PositionKey := JNum(1.0), Legacy.DistanceKey := JStr("2.5")], positions) ==
              Ok(Point(positions, 1, 2.5))
  {
    Decimal.ParseUnsignedFraction("2", "5");
    assert "2" + "." + "5" == "2.5";
    assert Decimal.DigitsValue("2") == 2 && Decimal.DigitsValue("5") == 5;
    assert Decimal.DecimalValue("2", "5") == 2.5;
  }

  /** `readDiscreteGene`: a gene around the read point; as the point is
      never `null`, neither is the gene. */
  function ReadGene(o: JObject, positions: int): (r: Result<Gene>)
    ensures r.Ok? <==> ReadPoint(o, positions).Ok?
    ensures r.Ok? ==> r.value.allele == ReadPoint(o, positions).value
  {
    var p :- ReadPoint(o, positions);
    Ok(Gene(p))
  }

  /** `readDiscreteChromosome(array)`: every element cast to an object and
      read as a gene, in order. */
  function ReadChromosome(items: seq<JVal>, positions: int): (r: Result<Chromosome>)
    ensures r.Ok? ==> |r.value.genes| == |items|
    ensures r.Ok? ==> forall i :: 0 <= i < |items| ==>
              items[i].JObj? && ReadGene(items[i].fields, positions) == Ok(r.value.genes[i])
    ensures (exists i :: 0 <= i < |items| && !items[i].JObj?) ==> r.Err?
    decreases |items|
  {
    if |items| == 0 then Ok(Chromosome([]))
    else
      match items[0]
      case JObj(fields) =>
        var g :- ReadGene(fields, positions);
        var rest :- ReadChromosome(items[1..], positions);
        assert forall i :: 1 <= i < |items| ==> items[i] == items[1..][i - 1];
        Ok(Chromosome([g] + rest.genes))
      case _ => Err(ClassCast)
  }

  /** The object elements of an array, in order. */
  function Objects(items: seq<JVal>): (os: seq<JObject>)
    ensures |os| <= |items|
    ensures forall o :: o in os <==> JObj(o) in items
    decreases |items|
  {
    if |items| == 0 then []
    else
      var rest := Objects(items[1..]);
      assert forall v :: v in items <==> v == items[0] || v in items[1..];
      match items[0]
      case JObj(fields) => [fields] + rest
      case _ => rest
  }

  /** `readArray(array, method)`: the reader `method` applied to the object elements
      only, in order; an exception from it propagates. */
  function ReadArray<T>(items: seq<JVal>, reader: JObject -> Result<T>): (r: Result<seq<T>>)
    ensures r.Ok? <==> forall o :: o in Objects(items) ==> reader(o).Ok?
    ensures r.Ok? ==> |r.value| == |Objects(items)|
    ensures r.Ok? ==> forall i :: 0 <= i < |r.value| ==> reader(Objects(items)[i]) == Ok(r.value[i])
    decreases |items|
  {
    if |items| == 0 then Ok([])
    else
      var rest := ReadArray(items[1..], reader);
      match items[0]
      case JObj(fields) =>
        assert Objects(items) == [fields] + Objects(items[1..]);
        (match reader(fields)
         case Err(e) => Err(e)
         case Ok(v) => if rest.Err? then Err(rest.error) else Ok([v] + rest.value))
      case _ =>
        assert Objects(items) == Objects(items[1..]);
        rest
  }

  /** The treasures of `readConfiguration`: each element cast to an object
      and read as a point on the configuration's slots. */
  function ReadPoints(items: seq<JVal>, positions: int): (r: Result<seq<Point>>)
    ensures r.Ok? ==> |r.value| == |items|
    ensures r.Ok? ==> forall i :: 0 <= i < |items| ==>
              items[i].JObj? && ReadPoint(items[i].fields, positions) == Ok(r.value[i])
    decreases |items|
  {
    if |items| == 0 then Ok([])
    else
      match items[0]
      case JObj(fields) =>
        var p :- ReadPoint(fields, positions);
        var rest :- ReadPoints(items[1..], positions);
        assert forall i :: 1 <= i < |items| ==> items[i] == items[1..][i - 1];
        Ok([p] + rest)
      case _ => Err(ClassCast)
  }

  /** `readConfiguration`: the version, or "undefined" when it cannot be
      read; the name and slot count, which must be there; the distance
      entry, which must exist but is only copied when it is a `java.util.List`
      (a parsed array never is, so the distances come back empty); the
      treasures. Everything else is the builder's default, with limit 1000. */
  function ReadConfiguration(o: JObject): (r: Result<Config>)
    ensures r.Ok? <==> && GetString(o, NameKey).Ok? && GetInt(o, PositionsKey).Ok?
                       && DistancesKey in o && GetArray(o, TreasuresKey).Ok?
                       && ReadPoints(o[TreasuresKey].items, GetInt(o, PositionsKey).value).Ok?
    ensures r.Ok? ==> r.value.version == (if GetString(o, VersionKey).Ok? then o[VersionKey].s else UndefinedVersion)
    ensures r.Ok? ==> r.value.name == o[NameKey].s && r.value.positions == GetInt(o, PositionsKey).value
    ensures r.Ok? ==> r.value.limit == 1000 && r.value.distances == []
    ensures r.Ok? ==> r.value.treasures == ReadPoints(o[TreasuresKey].items, r.value.positions).value
    ensures r.Ok? ==> && r.value.fitness == Environment.DefaultFitness
                      && r.value.alterers == Defaults(r.value.version, Environment.DefaultFitness).alterers
                      && r.value.offspring == 15 && r.value.survivors == 10 && r.value.population == 20
  {
    var version := match GetString(o, VersionKey)
                   case Ok(v) => v
                   case Err(_) => UndefinedVersion;
    var name :- GetString(o, NameKey);
    var positions :- GetInt(o, PositionsKey);
    var distanceObject :- Get(o, DistancesKey);
    var treasureItems :- GetArray(o, TreasuresKey);
    var treasures :- ReadPoints(treasureItems, positions);
    Ok(Defaults(version, Environment.DefaultFitness).(name := name, limit := 1000, positions := positions, treasures := treasures))
  }

  /** `readExperiment`: the configuration object and the "individuals"
      array must both be there; only array elements of the latter are read
      as chromosomes, other elements are skipped. */
  function ReadExperiment(o: JObject, positions: int): (r: Result<Environment.Experiment>)
    ensures r.Ok? ==> GetObject(o, ConfigurationKey).Ok? && GetArray(o, IndividualsKey).Ok?
    ensures r.Ok? ==> ReadConfiguration(o[ConfigurationKey].fields) == Ok(r.value.configuration)
    ensures r.Ok? ==> && GetObject(o, ConfigurationKey).Ok?
                      && ReadConfiguration(o[ConfigurationKey].fields).Ok?
                      && GetArray(o, IndividualsKey).Ok?
                      && forall i :: 0 <= i < |Arrays(o[IndividualsKey].items)| ==>
                           ReadChromosome(Arrays(o[IndividualsKey].items)[i], positions).Ok?
    ensures (&& GetObject(o, ConfigurationKey).Ok?
             && ReadConfiguration(o[ConfigurationKey].fields).Ok?
             && GetArray(o, IndividualsKey).Ok?
             && forall i :: 0 <= i < |Arrays(o[IndividualsKey].items)| ==>
                  ReadChromosome(Arrays(o[IndividualsKey].items)[i], positions).Ok?)
            ==> r.Ok?
    ensures r.Ok? ==> |r.value.individuals| == |Arrays(o[IndividualsKey].items)|
    ensures r.Ok? ==> forall i :: 0 <= i < |r.value.individuals| ==>
              ReadChromosome(Arrays(o[IndividualsKey].items)[i], positions) == Ok(r.value.individuals[i])
  {
    var configurationObject :- GetObject(o, ConfigurationKey);
    var configuration :- ReadConfiguration(configurationObject);
    var items :- GetArray(o, IndividualsKey);
    assert configurationObject == o[ConfigurationKey].fields && items == o[IndividualsKey].items;
    var individuals :- ReadChromosomes(Arrays(items), positions);
    Ok(Environment.Experiment(configuration, individuals))
  }

  /** The array elements of an array, in order. */
  function Arrays(items: seq<JVal>): (arrays: seq<seq<JVal>>)
    ensures |arrays| <= |items|
    ensures (forall i :: 0 <= i < |items| ==> !items[i].JArr?) ==> arrays == []
    decreases |items|
  {
    if |items| == 0 then []
    else
      var rest := Arrays(items[1..]);
      assert forall i :: 1 <= i < |items| ==> items[i] == items[1..][i - 1];
      match items[0]
      case JArr(elements) => [elements] + rest
      case _ => rest
  }

  /** Each array read as a chromosome, in order. */
  function ReadChromosomes(arrays: seq<seq<JVal>>, positions: int): (r: Result<seq<Chromosome>>)
    ensures r.Ok? <==> forall i :: 0 <= i < |arrays| ==> ReadChromosome(arrays[i], positions).Ok?
    ensures r.Ok? ==> |r.value| == |arrays|
    ensures r.Ok? ==> forall i :: 0 <= i < |arrays| ==> ReadChromosome(arrays[i], positions) == Ok(r.value[i])
    decreases |arrays|
  {
    if |arrays| == 0 then Ok([])
    else
      assert forall i :: 1 <= i < |arrays| ==> arrays[i] == arrays[1..][i - 1];
      var c :- ReadChromosome(arrays[0], positions);
      var rest :- ReadChromosomes(arrays[1..], positions);
      Ok([c] + rest)
  }

  /** `readConfigurations(array)`: every object element read as a
      configuration. */
  function ReadConfigurations(items: seq<JVal>): (r: Result<seq<Config>>)
    ensures r.Ok? <==> forall o :: o in Objects(items) ==> ReadConfiguration(o).Ok?
    ensures r.Ok? ==> |r.value| == |Objects(items)|
    ensures r.Ok? ==> forall i :: 0 <= i < |r.value| ==> ReadConfiguration(Objects(items)[i]) == Ok(r.value[i])
  {
    ReadArray(items, ReadConfiguration)
  }

  /** `readProject`: the version, name and path strings must all be
      there; the project has no configuration selected and none listed. */
  function ReadProject(o: JObject): (r: Result<Projects.Project>)
    ensures r.Ok? <==> GetString(o, VersionKey).Ok? && GetString(o, NameKey).Ok? && GetString(o, PathKey).Ok?
    ensures r.Err? ==> r.error == JsonFormat
    ensures r.Ok? ==> && r.value.version == Some(o[VersionKey].s)
                      && r.value.name == Some(o[NameKey].s)
                      && r.value.path == Some(o[PathKey].s)
    ensures r.Ok? ==> r.value.selectedConfiguration == -1 && r.value.configurations == []
  {
    var version :- GetString(o, VersionKey);
    var name :- GetString(o, NameKey);
    var path :- GetString(o, PathKey);
    Ok(Projects.Fresh.(name := Some(name), version := Some(version), path := Some(path)))
  }

  /** `readProjects(array)`: every object element read as a project. */
  function ReadProjects(items: seq<JVal>): (r: Result<seq<Projects.Project>>)
    ensures r.Ok? <==> forall o :: o in Objects(items) ==> ReadProject(o).Ok?
    ensures r.Ok? ==> |r.value| == |Objects(items)|
    ensures r.Ok? ==> forall i :: 0 <= i < |r.value| ==> ReadProject(Objects(items)[i]) == Ok(r.value[i])
  {
    ReadArray(items, ReadProject)
  }

  /** The object `readProject` expects for a project with all three
      strings set. */
  function ProjectObject(p: Projects.Project): (o: JVal)
    requires p.version.Some? && p.name.Some? && p.path.Some?
    ensures o.JObj? && o.fields.Keys == {VersionKey, NameKey, PathKey}
  {
    JObj(map[VersionKey := JStr(p.version.value), NameKey := JStr(p.name.value), PathKey := JStr(p.path.value)])
  }

  /** A project listed with its three strings reads back as a fresh project
      holding them; so does a list of them, in order. */
  lemma ProjectsRoundTrip(ps: seq<Projects.Project>)
    requires forall i :: 0 <= i < |ps| ==> ps[i].version.Some? && ps[i].name.Some? && ps[i].path.Some?
    ensures var items := seq(|ps|, i requires 0 <= i < |ps| => ProjectObject(ps[i]));
            ReadProjects(items) ==
              Ok(seq(|ps|, i requires 0 <= i < |ps| => ps[i].(selectedConfiguration := -1, configurations := [])))
  {
    var items := seq(|ps|, i requires 0 <= i < |ps| => ProjectObject(ps[i]));
    var expected := seq(|ps|, i requires 0 <= i < |ps| => ps[i].(selectedConfiguration := -1, configurations := []));
    var os := seq(|ps|, i requires 0 <= i < |ps| => items[i].fields);
    assert items == seq(|ps|, i requires 0 <= i < |ps| => JObj(os[i]));
    ObjectsOfObjects(os);
    assert Objects(items) == os;
    forall i | 0 <= i < |ps|
      ensures ReadProject(os[i]) == Ok(expected[i])
    {
    }
    var r := ReadProjects(items);
    assert r.Ok?;
    assert r.value == expected;
  }

  /** A written point reads back with its slot and distance, on the
      reader's slot count, and so does a written gene. */
  lemma PointRoundTrip(p: Point, positions: int)
    requires IsInt32(p.position)
    ensures ReadPoint(Legacy.WritePoint(p), positions) == Ok(Point(positions, p.position, p.distance))
    ensures ReadGene(Legacy.WriteGene(Gene(p)), positions) == Ok(Gene(Point(positions, p.position, p.distance)))
  {
  }

  /** A point whose slot count is the reader's reads back as itself. */
  predicate Readable(p: Point, positions: int) {
    IsInt32(p.position) && p.positions == positions
  }

  /** The written treasures read back as the same points, in order. */
  lemma {:induction false} PointsRoundTrip(ps: seq<Point>, positions: int)
    requires forall i :: 0 <= i < |ps| ==> Readable(ps[i], positions)
    ensures ReadPoints(Legacy.PointObjects(ps), positions) == Ok(ps)
    decreases |ps|
  {
    if |ps| > 0 {
      var items := Legacy.PointObjects(ps);
      PointRoundTrip(ps[0], positions);
      PointsRoundTrip(ps[1..], positions);
      assert items[1..] == Legacy.PointObjects(ps[1..]);
      assert [ps[0]] + ps[1..] == ps;
    }
  }

  /** The genes written under "chromosome" read back as the same
      chromosome, the empty one included. */
  lemma {:induction false} GenesRoundTrip(c: Chromosome, positions: int)
    requires Legacy.ReadableGenes(c.genes, positions)
    ensures ReadChromosome(Legacy.GeneObjects(c), positions) == Ok(c)
    decreases |c.genes|
  {
    if |c.genes| > 0 {
      var items := Legacy.GeneObjects(c);
      var rest := Chromosome(c.genes[1..]);
      assert items[0] == JObj(Legacy.WriteGene(c.genes[0]));
      assert ReadGene(items[0].fields, positions) == Ok(c.genes[0]) by {
        PointRoundTrip(c.genes[0].allele, positions);
      }
      assert ReadChromosome(items[1..], positions) == Ok(rest) by {
        assert items[1..] == Legacy.GeneObjects(rest);
        GenesRoundTrip(rest, positions);
      }
      assert [c.genes[0]] + rest.genes == c.genes;
    }
  }

  /** `write(chromosome)` of a non-empty chromosome holds an array under
      "chromosome" that `readDiscreteChromosome` turns back into it. */
  lemma ChromosomeRoundTrip(c: Chromosome, positions: int)
    requires Legacy.ReadableGenes(c.genes, positions) && |c.genes| > 0
    ensures GetArray(Legacy.WriteChromosome(c), Legacy.ChromosomeKey).Ok?
    ensures ReadChromosome(Legacy.WriteChromosome(c)[Legacy.ChromosomeKey].items, positions) == Ok(c)
  {
    GenesRoundTrip(c, positions);
  }

  /** What a configuration reads back as once written to text and parsed
      again: the version, name, slot count and treasures survive; the limit
      becomes 1000, the distances are lost and fitness, alterers and sizes
      fall back to the defaults. */
  function Reread(c: Config): (r: Config)
    ensures r.version == c.version && r.name == c.name && r.positions == c.positions && r.treasures == c.treasures
    ensures r.limit == 1000 && r.distances == []
    ensures r.fitness == Environment.DefaultFitness && r.population == 20
  {
    Defaults(c.version, Environment.DefaultFitness).(name := c.name, limit := 1000, positions := c.positions, treasures := c.treasures)
  }

  /** A configuration with an `int` slot count and readable treasures
      reads back as `Reread(c)`: writing and reading loses the fields
      `readConfiguration` does not look at. */
  lemma ConfigurationRoundTrip(c: Config)
    requires IsInt32(c.positions)
    requires forall i :: 0 <= i < |c.treasures| ==> Readable(c.treasures[i], c.positions)
    ensures ReadConfiguration(WriteConfiguration(c)) == Ok(Reread(c))
  {
    var o := WriteConfiguration(c);
    WrittenFields(c);
    PointsRoundTrip(c.treasures, c.positions);
    var r := ReadConfiguration(o);
    assert r.Ok?;
  }

  /** What the getters of `readConfiguration` find in a written
      configuration. */
  lemma WrittenFields(c: Config)
    requires IsInt32(c.positions)
    ensures var o := WriteConfiguration(c);
            && GetString(o, VersionKey) == Ok(c.version) && GetString(o, NameKey) == Ok(c.name)
            && GetInt(o, PositionsKey) == Ok(c.positions) && DistancesKey in o
            && GetArray(o, TreasuresKey) == Ok(Legacy.PointObjects(c.treasures))
  {
    WrittenStrings(c);
    WrittenNumbers(c);
  }

  /** The version and name read back as written. */
  lemma WrittenStrings(c: Config)
    ensures var o := WriteConfiguration(c);
            GetString(o, VersionKey) == Ok(c.version) && GetString(o, NameKey) == Ok(c.name)
  {
    WrittenSettings(c);
  }

  /** The slot count reads back as written, and the distances and
      treasures are there. */
  lemma WrittenNumbers(c: Config)
    requires IsInt32(c.positions)
    ensures var o := WriteConfiguration(c);
            && GetInt(o, PositionsKey) == Ok(c.positions) && DistancesKey in o
            && GetArray(o, TreasuresKey) == Ok(Legacy.PointObjects(c.treasures))
  {
    WrittenSettings(c);
    assert TruncToZero(c.positions as real) == c.positions;
    assert DistancesKey in ConfigurationKeys;
  }

  /** Writing and reading twice is writing and reading once. */
  lemma RereadIdempotent(c: Config)
    ensures Reread(Reread(c)) == Reread(c)
  {
  }

  /** An experiment never reads back its individuals: without any, the
      "individuals" array is missing and `getJSONArray` throws; with some,
      each is written as an object, which `readExperiment` skips. */
  lemma ExperimentLosesIndividuals(e: Environment.Experiment, positions: int)
    requires IsInt32(e.configuration.positions)
    requires forall i :: 0 <= i < |e.configuration.treasures| ==> Readable(e.configuration.treasures[i], e.configuration.positions)
    ensures |e.individuals| == 0 ==> ReadExperiment(WriteExperiment(e), positions) == Err(JsonFormat)
    ensures |e.individuals| > 0 ==>
              ReadExperiment(WriteExperiment(e), positions) == Ok(Environment.Experiment(Reread(e.configuration), []))
  {
    var o := WriteExperiment(e);
    var config := Reread(e.configuration);
    assert ReadConfiguration(o[ConfigurationKey].fields) == Ok(config) by {
      ConfigurationRoundTrip(e.configuration);
    }
    WrittenIndividuals(e);
    ReadExperimentOfObjects(o, positions, config);
  }

  /** The "individuals" entry is there exactly when there are individuals,
      and holds only objects. */
  lemma WrittenIndividuals(e: Environment.Experiment)
    ensures var o := WriteExperiment(e);
            && (IndividualsKey in o <==> |e.individuals| > 0)
            && (IndividualsKey in o ==> && o[IndividualsKey].JArr?
                                        && forall i :: 0 <= i < |o[IndividualsKey].items| ==> o[IndividualsKey].items[i].JObj?)
  {
    var items := ChromosomeObjects(e.individuals);
    assert forall i :: 0 <= i < |items| ==> items[i].JObj?;
  }

  /** `readExperiment` on an object whose configuration reads as `config`
      and whose "individuals" entry, if any, is an array of objects. */
  lemma ReadExperimentOfObjects(o: JObject, positions: int, config: Config)
    requires ConfigurationKey in o && o[ConfigurationKey].JObj?
    requires ReadConfiguration(o[ConfigurationKey].fields) == Ok(config)
    requires IndividualsKey in o ==> (o[IndividualsKey].JArr? &&
               forall i :: 0 <= i < |o[IndividualsKey].items| ==> o[IndividualsKey].items[i].JObj?)
    ensures IndividualsKey !in o ==> ReadExperiment(o, positions) == Err(JsonFormat)
    ensures IndividualsKey in o ==> ReadExperiment(o, positions) == Ok(Environment.Experiment(config, []))
  {
    if IndividualsKey in o {
      NoArrays(o[IndividualsKey].items);
    }
  }

  /** An array of objects holds no arrays. */
  lemma NoArrays(items: seq<JVal>)
    requires forall i :: 0 <= i < |items| ==> items[i].JObj?
    ensures Arrays(items) == []
  {
  }

  /** On an array of objects only, `readArray` visits every element, in
      order. */
  lemma {:induction false} ObjectsOfObjects(os: seq<JObject>)
    ensures var items := seq(|os|, i requires 0 <= i < |os| => JObj(os[i]));
            Objects(items) == os
    decreases |os|
  {
    var items := seq(|os|, i requires 0 <= i < |os| => JObj(os[i]));
    if |os| > 0 {
      ObjectsOfObjects(os[1..]);
      assert items[1..] == seq(|os| - 1, i requires 0 <= i < |os| - 1 => JObj(os[1..][i]));
      assert [os[0]] + os[1..] == os;
    }
  }
}

=== FILE: legacy_json_service.dfy ===
/** The older JSON mapping of points, genes, chromosomes, runs and the
    older configuration record, with its key-set validation.

    The older point carries no slot count; readers take it as the
    parameter `positions`. */
module LegacyJsonService {
  import opened Wrappers
  import opened Numerics
  import opened Json
  import opened DiscretePoints
  import opened DiscreteGenes
  import opened DiscreteChromosomes
  import opened Configurations

  const VersionKey: string := "ver"
  const DistanceKey: string := "distance"
  /** The distance list is written under the singular key as well. */
  const DistancesKey: string := "distance"
  const PositionKey: string := "position"
  const PositionsKey: string := "positions"
  const TreasuresKey: string := "treasures"
  const HistoryKey: string := "history"
  const ChromosomeKey: string := "chromosome"
  const LimitKey: string := "limit"

  /** The keys `readConfiguration` demands. */
  const ConfigJson: seq<string> := ["ver", "positions", "distances", "treasures", "history"]

  predicate Distinct(keys: seq<string>) {
    forall i, j :: 0 <= i < j < |keys| ==> keys[i] != keys[j]
  }

  function KeySet(keys: seq<string>): set<string> {
    set k | k in keys
  }

  /** Distinct keys make a set of the same size. */
  lemma {:induction false} DistinctKeySet(keys: seq<string>)
    requires Distinct(keys)
    ensures |KeySet(keys)| == |keys|
    decreases |keys|
  {
    if |keys| > 0 {
      var rest := keys[1..];
      DistinctKeySet(rest);
      assert KeySet(keys) == KeySet(rest) + {keys[0]};
      assert keys[0] !in KeySet(rest);
    }
  }

  /** A subset as large as its superset is the superset. */
  lemma SubsetOfSameSize(a: set<string>, b: set<string>)
    requires a <= b && |a| == |b|
    ensures a == b
  {
    assert b == a + (b - a);
    assert |b| == |a| + |b - a|;
  }

  /** `invalid(object, requiredKeys...)`: true when the key count differs,
      otherwise whether some key is outside `Set.of(requiredKeys)`, which
      throws on a repeated key. For distinct keys it says "the key set is
      not exactly the required set". */
  function Invalid(o: JObject, keys: seq<string>): (r: Result<bool>)
    ensures |o.Keys| != |keys| ==> r == Ok(true)
    ensures r.Err? <==> |o.Keys| == |keys| && !Distinct(keys)
    ensures r.Err? ==> r.error == IllegalArgument
    ensures Distinct(keys) ==> r == Ok(o.Keys != KeySet(keys))
  {
    if |o.Keys| != |keys| then
      assert Distinct(keys) ==> o.Keys != KeySet(keys) by {
        if Distinct(keys) { DistinctKeySet(keys); }
      }
      Ok(true)
    else if !Distinct(keys) then Err(IllegalArgument)
    else
      DistinctKeySet(keys);
      assert o.Keys <= KeySet(keys) ==> o.Keys == KeySet(keys) by {
        if o.Keys <= KeySet(keys) { SubsetOfSameSize(o.Keys, KeySet(keys)); }
      }
      Ok(!(o.Keys <= KeySet(keys)))
  }

  /** `write(point)`: its slot and distance. */
  function WritePoint(p: Point): (o: JObject)
    ensures o.Keys == {PositionKey, DistanceKey}
    ensures o[PositionKey] == JNum(p.position as real) && o[DistanceKey] == JNum(p.distance)
  {
    Accumulate(Accumulate(map[], PositionKey, JNum(p.position as real)), DistanceKey, JNum(p.distance))
  }

  /** `write(gene)`: its allele. */
  function WriteGene(g: Gene): JObject {
    WritePoint(g.allele)
  }

  /** The written genes of a chromosome, in gene order. */
  function GeneObjects(c: Chromosome): (vs: seq<JVal>)
    ensures |vs| == |c.genes|
    ensures forall i :: 0 <= i < |vs| ==> vs[i] == JObj(WriteGene(c.genes[i]))
  {
    seq(|c.genes|, i requires 0 <= i < |c.genes| => JObj(WriteGene(c.genes[i])))
  }

  /** `write(chromosome)`: each gene appended under "chromosome"; an empty
      chromosome appends nothing and gives the empty object. */
  function WriteChromosome(c: Chromosome): (o: JObject)
    ensures |c.genes| == 0 ==> o == map[]
    ensures |c.genes| > 0 ==> o.Keys == {ChromosomeKey} && o[ChromosomeKey] == JArr(GeneObjects(c))
  {
    AppendEach(map[], ChromosomeKey, GeneObjects(c)).value
  }

  /** `write(run)`: the individual plus its limit. */
  function WriteRun(run: Run): (o: JObject)
    ensures o.Keys == WriteChromosome(run.individual).Keys + {LimitKey}
    ensures o[LimitKey] == JNum(run.limit as real)
  {
    Accumulate(WriteChromosome(run.individual), LimitKey, JNum(run.limit as real))
  }

  function Numbers(ds: seq<real>): (vs: seq<JVal>)
    ensures |vs| == |ds| && forall i :: 0 <= i < |ds| ==> vs[i] == JNum(ds[i])
  {
    seq(|ds|, i requires 0 <= i < |ds| => JNum(ds[i]))
  }

  function PointObjects(ps: seq<Point>): (vs: seq<JVal>)
    ensures |vs| == |ps| && forall i :: 0 <= i < |ps| ==> vs[i] == JObj(WritePoint(ps[i]))
  {
    seq(|ps|, i requires 0 <= i < |ps| => JObj(WritePoint(ps[i])))
  }

  function RunObjects(rs: seq<Run>): (vs: seq<JVal>)
    ensures |vs| == |rs| && forall i :: 0 <= i < |rs| ==> vs[i] == JObj(WriteRun(rs[i]))
  {
    seq(|rs|, i requires 0 <= i < |rs| => JObj(WriteRun(rs[i])))
  }

  /** The scalar part of `write(configuration)`. */
  function Header(c: SearchConfiguration): (o: JObject)
    ensures o.Keys == {VersionKey, PositionsKey, DistancesKey, LimitKey}
    ensures o[VersionKey] == JStr(c.version) && o[PositionsKey] == JNum(c.positions as real)
    ensures o[DistancesKey] == JArr(Numbers(c.distances)) && o[LimitKey] == JNum(c.limit as real)
  {
    var base := Accumulate(Accumulate(map[], VersionKey, JStr(c.version)), PositionsKey, JNum(c.positions as real));
    Accumulate(base[DistancesKey := JArr(Numbers(c.distances))], LimitKey, JNum(c.limit as real))
  }

  /** The list part of `write(configuration)` added to its header. */
  function AddLists(header: JObject, treasures: seq<JVal>, history: seq<JVal>): (o: JObject)
    requires header.Keys == {VersionKey, PositionsKey, DistancesKey, LimitKey}
    ensures o.Keys == header.Keys + {TreasuresKey, HistoryKey}
    ensures forall k :: k in header ==> o[k] == header[k]
    ensures o[TreasuresKey] == JArr(treasures) && o[HistoryKey] == JArr(history)
  {
    var withTreasures := PutList(header, TreasuresKey, treasures);
    PutList(withTreasures, HistoryKey, history)
  }

  /** `write(configuration)`: version, slot count, the distance list
      (a `List`, stored as it is, not wrapped like a `JSONArray`) and the
      limit; then "treasures" and "history", put as empty arrays when the
      lists are empty and appended to otherwise. */
  function WriteConfiguration(c: SearchConfiguration): (o: JObject)
    ensures o.Keys == {VersionKey, PositionsKey, DistancesKey, LimitKey, TreasuresKey, HistoryKey}
    ensures o[VersionKey] == JStr(c.version) && o[PositionsKey] == JNum(c.positions as real)
    ensures o[DistancesKey] == JArr(Numbers(c.distances)) && o[LimitKey] == JNum(c.limit as real)
    ensures o[TreasuresKey] == JArr(PointObjects(c.treasures))
    ensures o[HistoryKey] == JArr(RunObjects(c.history))
  {
    AddLists(Header(c), PointObjects(c.treasures), RunObjects(c.history))
  }

  /** `readDiscretePoint`: `null` unless the keys are exactly "position"
      and "distance"; the getters throw on values of the wrong kind. */
  function ReadPoint(o: JObject, positions: int): (r: Result<Option<Point>>)
    ensures r == Ok(None) <==> o.Keys != {PositionKey, DistanceKey}
    ensures r.Ok? && r.value.Some? ==>
              && r.value.value.positions == positions
              && GetInt(o, PositionKey) == Ok(r.value.value.position)
              && (o[PositionKey].JNum? ==> r.value.value.position == IntCast(o[PositionKey].n))
              && GetDouble(o, DistanceKey) == Ok(r.value.value.distance)
              && (o[DistanceKey].JNum? ==> r.value.value.distance == o[DistanceKey].n)
    ensures r.Err? ==> r.error == JsonFormat
  {
    var bad := Invalid(o, [PositionKey, DistanceKey]);
    if bad.value then Ok(None)
    else
      var position :- GetInt(o, PositionKey);
      var distance :- GetDouble(o, DistanceKey);
      Ok(Some(Point(positions, position, distance)))
  }

  /** `readDiscreteGene`: a gene around the read point, `null` exactly
      when the point is. */
  function ReadGene(o: JObject, positions: int): (r: Result<Option<Gene>>)
    ensures r.Ok? <==> ReadPoint(o, positions).Ok?
    ensures r.Ok? ==> (r.value.None? <==> ReadPoint(o, positions).value.None?)
    ensures r.Ok? && r.value.Some? ==> r.value.value.allele == ReadPoint(o, positions).value.value
    ensures r.Err? ==> r.error == JsonFormat
  {
    var p :- ReadPoint(o, positions);
    match p
    case None => Ok(None)
    case Some(point) => Ok(Some(Gene(point)))
  }

  /** The gene list of `readDiscreteChromosome`: every element cast to an
      object (a `ClassCastException` otherwise), read as a gene, `null`s
      dropped, order kept. */
  function ReadGenes(items: seq<JVal>, positions: int): (r: Result<seq<Gene>>)
    ensures r.Ok? ==> |r.value| <= |items|
    decreases |items|
  {
    if |items| == 0 then Ok([])
    else
      match items[0]
      case JObj(fields) =>
        var g :- ReadGene(fields, positions);
        var rest :- ReadGenes(items[1..], positions);
        Ok(if g.Some? then [g.value] + rest else rest)
      case _ => Err(ClassCast)
  }

  /** `readDiscreteChromosome`: `null` unless "chromosome" is the only key;
      its value must be an array. */
  function ReadChromosome(o: JObject, positions: int): (r: Result<Option<Chromosome>>)
    ensures r == Ok(None) <==> o.Keys != {ChromosomeKey}
    ensures r.Ok? && r.value.Some? ==>
              && o[ChromosomeKey].JArr?
              && ReadGenes(o[ChromosomeKey].items, positions) == Ok(r.value.value.genes)
  {
    var bad := Invalid(o, [ChromosomeKey]);
    if bad.value then Ok(None)
    else
      var items :- GetArray(o, ChromosomeKey);
      var genes :- ReadGenes(items, positions);
      Ok(Some(Chromosome(genes)))
  }

  /** What `readRun` builds: the limit and the individual, which is `null`
      when the nested object is not a chromosome. */
  datatype RunRead = RunRead(limit: int, individual: Option<Chromosome>)

  /** `readRun`: `null` unless the keys are exactly "limit" and
      "chromosome"; the value under "chromosome" is then read as a nested
      object. */
  function ReadRun(o: JObject, positions: int): (r: Result<Option<RunRead>>)
    ensures r == Ok(None) <==> o.Keys != {LimitKey, ChromosomeKey}
    ensures r.Ok? && r.value.Some? ==> o[ChromosomeKey].JObj?
  {
    var bad := Invalid(o, [LimitKey, ChromosomeKey]);
    if bad.value then Ok(None)
    else
      var limit :- GetInt(o, LimitKey);
      var nested :- GetObject(o, ChromosomeKey);
      var c :- ReadChromosome(nested, positions);
      Ok(Some(RunRead(limit, c)))
  }

  /** `readConfiguration`: `null` unless the keys are exactly those of
      `ConfigJson`. Those keys do not include "distance", which it then
      reads, so past the key check it always throws: it never returns a
      configuration. */
  function ReadConfiguration(o: JObject): (r: Result<Option<SearchConfiguration>>)
    ensures r.Ok? ==> r.value.None?
    ensures r == Ok(None) <==> o.Keys != KeySet(ConfigJson)
    ensures r.Err? ==> r.error == JsonFormat
  {
    var bad := Invalid(o, ConfigJson);
    if bad.value then Ok(None)
    else
      var version :- GetString(o, VersionKey);
      var positions :- GetInt(o, PositionsKey);
      var distanceObject := Get(o, DistancesKey);
      if distanceObject.Err? then Err(distanceObject.error)
      else
        assert false;
        Ok(None)
  }

  /** A point written with an `int` slot reads back with the same slot and
      distance, under the slot count the reader supplies. */
  lemma PointRoundTrip(p: Point, positions: int)
    requires IsInt32(p.position)
    ensures ReadPoint(WritePoint(p), positions) == Ok(Some(Point(positions, p.position, p.distance)))
    ensures ReadGene(WriteGene(Gene(p)), positions) == Ok(Some(Gene(Point(positions, p.position, p.distance))))
  {
    var o := WritePoint(p);
    assert o.Keys == KeySet([PositionKey, DistanceKey]);
  }

  /** Genes whose slots are `int`s and whose slot count is the reader's. */
  predicate ReadableGenes(genes: seq<Gene>, positions: int) {
    forall i :: 0 <= i < |genes| ==> IsInt32(genes[i].allele.position) && genes[i].allele.positions == positions
  }

  /** The written genes of a chromosome read back as the same genes, in
      order. */
  lemma {:induction false} GenesRoundTrip(c: Chromosome, positions: int)
    requires ReadableGenes(c.genes, positions)
    ensures ReadGenes(GeneObjects(c), positions) == Ok(c.genes)
    decreases |c.genes|
  {
    if |c.genes| > 0 {
      var items := GeneObjects(c);
      var rest := Chromosome(c.genes[1..]);
      var g := c.genes[0];
      assert items[0] == JObj(WriteGene(g));
      GeneRoundTrip(g, positions);
      assert ReadGenes(items[1..], positions) == Ok(rest.genes) by {
        assert items[1..] == GeneObjects(rest);
        GenesRoundTrip(rest, positions);
      }
      ReadGenesCons(items, positions, g, rest.genes);
      assert c.genes == [g] + rest.genes;
    }
  }

  /** A gene whose slot is an `int` and whose slot count is the reader's
      reads back as itself. */
  lemma GeneRoundTrip(g: Gene, positions: int)
    requires IsInt32(g.allele.position) && g.allele.positions == positions
    ensures ReadGene(WriteGene(g), positions) == Ok(Some(g))
  {
    PointRoundTrip(g.allele, positions);
    assert Point(positions, g.allele.position, g.allele.distance) == g.allele;
  }

  /** A list whose first object reads as a gene reads as that gene
      followed by the rest. */
  lemma ReadGenesCons(items: seq<JVal>, positions: int, g: Gene, rest: seq<Gene>)
    requires |items| > 0 && items[0].JObj? && ReadGene(items[0].fields, positions) == Ok(Some(g))
    requires ReadGenes(items[1..], positions) == Ok(rest)
    ensures ReadGenes(items, positions) == Ok([g] + rest)
  {
  }

  /** A non-empty chromosome reads back as itself; the empty one is
      written as `{}`, which reads as `null`. */
  lemma ChromosomeRoundTrip(c: Chromosome, positions: int)
    requires ReadableGenes(c.genes, positions)
    ensures |c.genes| > 0 ==> ReadChromosome(WriteChromosome(c), positions) == Ok(Some(c))
    ensures |c.genes| == 0 ==> ReadChromosome(WriteChromosome(c), positions) == Ok(None)
  {
    if |c.genes| > 0 {
      GenesRoundTrip(c, positions);
      assert WriteChromosome(c).Keys == KeySet([ChromosomeKey]);
    }
  }

  /** A written run never reads back: its chromosome is an array where
      `readRun` expects an object, and an empty chromosome leaves only the
      limit. */
  lemma RunNeverReadsBack(run: Run, positions: int)
    ensures |run.individual.genes| > 0 ==> ReadRun(WriteRun(run), positions) == Err(JsonFormat)
    ensures |run.individual.genes| == 0 ==> ReadRun(WriteRun(run), positions) == Ok(None)
  {
    var o := WriteRun(run);
    if |run.individual.genes| > 0 {
      assert o.Keys == {LimitKey, ChromosomeKey};
      ReadRunOfArray(o, positions);
    }
  }

  /** An object with exactly the run's keys whose chromosome is an array
      fails to read: `getJSONObject` throws on the array. */
  lemma ReadRunOfArray(o: JObject, positions: int)
    requires o.Keys == {LimitKey, ChromosomeKey} && o[ChromosomeKey].JArr?
    ensures ReadRun(o, positions) == Err(JsonFormat)
  {
    assert o.Keys == KeySet([LimitKey, ChromosomeKey]);
  }

  /** A written configuration never reads back: it carries "distance" and
      "limit" where `readConfiguration` demands "distances" and no limit,
      so the key check fails. */
  lemma ConfigurationNeverReadsBack(c: SearchConfiguration)
    ensures ReadConfiguration(WriteConfiguration(c)) == Ok(None)
  {
    var o := WriteConfiguration(c);
    assert LimitKey in o.Keys && LimitKey !in KeySet(ConfigJson);
  }
}

=== FILE: list_utils.dfy ===
/** List helpers: generation, consecutive maps, transposition, joining,
    run collapsing and the numeric folds. */
module ListUtils {
  import opened Wrappers
  import opened Numerics
  import RandomUtils

  /** `separator(s)`: the joiner s1 + s + s2. */
  function Separator(sep: string): (join: (string, string) -> string)
    ensures forall a, b :: join(a, b) == a + sep + b
  {
    (a: string, b: string) => a + sep + b
  }

  /** `REDUCE_WITH_SPACE` */
  const ReduceWithSpace: (string, string) -> string := Separator(" ")

  /** `generate(limit, supplier)`: the supplier is asked once per item, in
      order; its `i`-th answer is `supplier(i)`. */
  method Generate<T>(limit: int, supplier: nat -> T) returns (r: seq<T>)
    ensures |r| == Max(0, limit)
    ensures forall i :: 0 <= i < |r| ==> r[i] == supplier(i)
  {
    r := [];
    var i := 0;
    while i < limit
      invariant 0 <= i == |r|
      invariant i <= Max(0, limit)
      invariant forall k :: 0 <= k < i ==> r[k] == supplier(k)
    {
      r := r + [supplier(i)];
      i := i + 1;
    }
  }

  /** `chooseRandom(list, min, max)`: an index from
      `inRange(max(0, min), min(size - 1, max))`, then `get`. The upper
      bound is exclusive, so the item at min(size - 1, max) is never
      chosen. When the bound subtraction overflows (a large `min` with a
      very negative `max`) the wrapped bound is positive and an item may
      still be returned. */
  function ChooseRandomIn<T>(list: seq<T>, min: Int32, max: Int32, draw: int): (r: Result<T>)
    requires |list| <= MaxInt32
    requires RandomUtils.IntBound(Max(0, min), Min(|list| - 1, max)) > 0 ==>
               0 <= draw < RandomUtils.IntBound(Max(0, min), Min(|list| - 1, max))
    ensures IsInt32(Min(|list| - 1, max) - Max(0, min)) ==>
              (r.Ok? <==> Max(0, min) < Min(|list| - 1, max))
    ensures IsInt32(Min(|list| - 1, max) - Max(0, min)) && r.Ok? ==>
              exists i :: Max(0, min) <= i < Min(|list| - 1, max) && list[i] == r.value
    ensures r.Ok? ==> r.value in list
  {
    var lo, hi := Max(0, min), Min(|list| - 1, max);
    assert IsInt32(min) && IsInt32(max);
    var index :- RandomUtils.InRangeInt(lo, hi, draw);
    if 0 <= index < |list| then Ok(list[index]) else Err(IndexOutOfBounds)
  }

  /** `chooseRandom(list)`: `nextInt(size)` rejects an empty list. */
  function ChooseRandom<T>(list: seq<T>, draw: int): (r: Result<T>)
    requires |list| > 0 ==> 0 <= draw < |list|
    ensures r.Ok? <==> |list| > 0
    ensures r.Ok? ==> r.value in list
  {
    if |list| == 0 then Err(IllegalArgument) else Ok(list[draw])
  }

  /** `consecMap`: the mapping of each adjacent pair, in order. */
  function ConsecMap<T, R>(list: seq<T>, mapping: (T, T) -> R): (r: seq<R>)
    ensures |r| == Max(0, |list| - 1)
    ensures forall i :: 0 <= i < |r| ==> r[i] == mapping(list[i], list[i + 1])
  {
    if |list| < 2 then [] else [mapping(list[0], list[1])] + ConsecMap(list[1..], mapping)
  }

  predicate RowsAtLeast<T>(matrix: seq<seq<T>>, n: int) {
    forall j :: 0 <= j < |matrix| ==> |matrix[j]| >= n
  }

  /** `transpose`: the column count is taken from the first row; an empty
      matrix or a shorter row throws `IndexOutOfBoundsException`. */
  function Transpose<T>(matrix: seq<seq<T>>): (r: Result<seq<seq<T>>>)
    ensures r.Ok? <==> |matrix| > 0 && RowsAtLeast(matrix, |matrix[0]|)
    ensures r.Ok? ==> |r.value| == |matrix[0]|
    ensures r.Ok? ==> forall i :: 0 <= i < |r.value| ==> |r.value[i]| == |matrix|
    ensures r.Ok? ==> forall i, j :: 0 <= i < |r.value| && 0 <= j < |matrix| ==> r.value[i][j] == matrix[j][i]
  {
    if |matrix| == 0 then Err(IndexOutOfBounds)
    else
      var n := |matrix[0]|;
      if !RowsAtLeast(matrix, n) then Err(IndexOutOfBounds)
      else Ok(seq(n, i requires 0 <= i < n => seq(|matrix|, j requires 0 <= j < |matrix| => matrix[j][i])))
  }

  predicate Rectangular<T>(matrix: seq<seq<T>>) {
    |matrix| > 0 && forall j :: 0 <= j < |matrix| ==> |matrix[j]| == |matrix[0]|
  }

  /** Transposing a rectangular matrix with at least one column twice gives
      it back. */
  lemma TransposeTwice<T>(matrix: seq<seq<T>>)
    requires Rectangular(matrix) && |matrix[0]| > 0
    ensures Transpose(matrix).Ok?
    ensures Transpose(Transpose(matrix).value) == Ok(matrix)
  {
    var t := Transpose(matrix).value;
    assert |t| == |matrix[0]|;
    assert RowsAtLeast(t, |t[0]|);
    var tt := Transpose(t).value;
    assert |tt| == |matrix|;
    forall j | 0 <= j < |matrix|
      ensures tt[j] == matrix[j]
    {
      assert |tt[j]| == |t| == |matrix[j]|;
    }
    assert tt == matrix;
  }

  /** `reduce`: the default for an empty list, otherwise the left fold
      seeded with the first item. */
  function Reduce<T>(list: seq<T>, reducer: (T, T) -> T, default: T): T {
    if |list| == 0 then default else FoldLeft(list[0], list[1..], reducer)
  }

  function FoldLeft<T>(acc: T, items: seq<T>, reducer: (T, T) -> T): T
    decreases |items|
  {
    if |items| == 0 then acc else FoldLeft(reducer(acc, items[0]), items[1..], reducer)
  }

  lemma {:induction false} FoldLeftSnoc<T>(acc: T, items: seq<T>, x: T, reducer: (T, T) -> T)
    ensures FoldLeft(acc, items + [x], reducer) == reducer(FoldLeft(acc, items, reducer), x)
    decreases |items|
  {
    if |items| > 0 {
      assert (items + [x])[1..] == items[1..] + [x];
      FoldLeftSnoc(reducer(acc, items[0]), items[1..], x, reducer);
    }
  }

  /** The default is only ever the result for the empty list. */
  lemma ReduceIgnoresDefault<T>(list: seq<T>, reducer: (T, T) -> T, d1: T, d2: T)
    requires |list| > 0
    ensures Reduce(list, reducer, d1) == Reduce(list, reducer, d2)
  {
  }

  /** `printConsecutive`: the mapped items with the separator between
      neighbours, built as the source's loop builds it. */
  method PrintConsecutive<T>(list: seq<T>, mapper: T -> string, sep: string) returns (s: string)
    ensures s == Reduce(MapAll(list, mapper), Separator(sep), "")
  {
    s := "";
    var i := 0;
    while i < |list|
      invariant 0 <= i <= |list|
      invariant s == Reduce(MapAll(list[..i], mapper), Separator(sep), "")
    {
      if i > 0 {
        s := s + sep;
      }
      s := s + mapper(list[i]);
      assert list[..i + 1] == list[..i] + [list[i]];
      assert MapAll(list[..i + 1], mapper) == MapAll(list[..i], mapper) + [mapper(list[i])];
      if i > 0 {
        FoldLeftSnoc(mapper(list[0]), MapAll(list[..i], mapper)[1..], mapper(list[i]), Separator(sep));
        assert MapAll(list[..i + 1], mapper)[1..] == MapAll(list[..i], mapper)[1..] + [mapper(list[i])];
      }
      i := i + 1;
    }
    assert list[..|list|] == list;
  }

  /** Joining puts the separator only between items: a single item is
      printed alone, and appending an item appends the separator and it. */
  lemma JoinShape(items: seq<string>, sep: string, x: string)
    ensures Reduce([x], Separator(sep), "") == x
    ensures |items| > 0 ==> Reduce(items + [x], Separator(sep), "") == Reduce(items, Separator(sep), "") + sep + x
  {
    if |items| > 0 {
      assert (items + [x])[1..] == items[1..] + [x];
      FoldLeftSnoc(items[0], items[1..], x, Separator(sep));
    }
  }

  /** A total mapping applied to every item. */
  function MapAll<T, R>(list: seq<T>, f: T -> R): (r: seq<R>)
    ensures |r| == |list|
    ensures forall i :: 0 <= i < |list| ==> r[i] == f(list[i])
  {
    seq(|list|, i requires 0 <= i < |list| => f(list[i]))
  }

  /** `map`: items the mapper sends to `null` (`None`) are dropped; the rest
      keep their order. */
  function Map<T, R>(list: seq<T>, mapper: T -> Option<R>): (r: seq<R>)
    ensures |r| <= |list|
    ensures forall x :: x in r ==> exists i :: 0 <= i < |list| && mapper(list[i]) == Some(x)
    decreases |list|
  {
    if |list| == 0 then []
    else
      var rest := Map(list[1..], mapper);
      match mapper(list[0])
      case None => rest
      case Some(v) => [v] + rest
  }

  /** Without nulls, `map` keeps every item in place. */
  lemma {:induction false} MapTotal<T, R>(list: seq<T>, mapper: T -> Option<R>)
    requires forall i :: 0 <= i < |list| ==> mapper(list[i]).Some?
    ensures |Map(list, mapper)| == |list|
    ensures forall i :: 0 <= i < |list| ==> Map(list, mapper)[i] == mapper(list[i]).value
    decreases |list|
  {
    if |list| > 0 {
      MapTotal(list[1..], mapper);
    }
  }

  /** `map` distributes over concatenation, so it keeps relative order. */
  lemma {:induction false} MapAppend<T, R>(a: seq<T>, b: seq<T>, mapper: T -> Option<R>)
    ensures Map(a + b, mapper) == Map(a, mapper) + Map(b, mapper)
    decreases |a|
  {
    if |a| > 0 {
      assert (a + b)[1..] == a[1..] + b;
      MapAppend(a[1..], b, mapper);
    } else {
      assert a + b == b;
    }
  }

  /** The items' sum, right to left: a reference for the fold. */
  function SumOf(s: seq<real>): real
    decreases |s|
  {
    if |s| == 0 then 0.0 else s[0] + SumOf(s[1..])
  }

  function AddReal(a: real, b: real): real {
    a + b
  }

  /** `sum`: `reduce` with `Double::sum` and 0 as the default. */
  function Sum(numbers: seq<real>): real {
    Reduce(numbers, AddReal, 0.0)
  }

  lemma {:induction false} FoldLeftSum(acc: real, s: seq<real>)
    ensures FoldLeft(acc, s, AddReal) == acc + SumOf(s)
    decreases |s|
  {
    if |s| > 0 {
      FoldLeftSum(acc + s[0], s[1..]);
    }
  }

  /** The left fold computes the sum of the items. */
  lemma SumIsSumOf(s: seq<real>)
    ensures Sum(s) == SumOf(s)
  {
    if |s| > 0 {
      FoldLeftSum(s[0], s[1..]);
    }
  }

  lemma {:induction false} SumOfAppend(a: seq<real>, b: seq<real>)
    ensures SumOf(a + b) == SumOf(a) + SumOf(b)
    decreases |a|
  {
    if |a| > 0 {
      assert (a + b)[1..] == a[1..] + b;
      SumOfAppend(a[1..], b);
    } else {
      assert a + b == b;
    }
  }

  lemma {:induction false} SumOfNonNegative(s: seq<real>)
    requires forall i :: 0 <= i < |s| ==> s[i] >= 0.0
    ensures SumOf(s) >= 0.0
    decreases |s|
  {
    if |s| > 0 {
      SumOfNonNegative(s[1..]);
    }
  }

  /** `mean`: 0 for no numbers, otherwise the sum over the count. */
  function Mean(numbers: seq<real>): (m: real)
    ensures |numbers| == 0 ==> m == 0.0
    ensures |numbers| > 0 ==> m * |numbers| as real == SumOf(numbers)
  {
    SumIsSumOf(numbers);
    if |numbers| == 0 then 0.0 else Sum(numbers) / |numbers| as real
  }

  function SquaredDeviations(s: seq<real>, mean: real): (d: seq<real>)
    ensures |d| == |s|
    ensures forall i :: 0 <= i < |s| ==> d[i] == (s[i] - mean) * (s[i] - mean) && d[i] >= 0.0
  {
    seq(|s|, i requires 0 <= i < |s| => (s[i] - mean) * (s[i] - mean))
  }

  /** `variance`: 0 for no numbers, otherwise the mean squared deviation
      from the mean; never negative. */
  function Variance(numbers: seq<real>): (v: real)
    ensures |numbers| == 0 ==> v == 0.0
    ensures v >= 0.0
    ensures |numbers| > 0 ==> v == SumOf(SquaredDeviations(numbers, Mean(numbers))) / |numbers| as real
  {
    if |numbers| == 0 then 0.0
    else
      var devs := SquaredDeviations(numbers, Mean(numbers));
      SumOfNonNegative(devs);
      SumIsSumOf(devs);
      DivideByCount(Sum(devs), |numbers|)
  }

  /** Division of a double by a positive count. */
  function DivideByCount(x: real, n: nat): (q: real)
    requires n > 0
    ensures q * n as real == x
    ensures x >= 0.0 ==> q >= 0.0
  {
    x / n as real
  }

  /** The variance of a constant list is zero. */
  lemma {:induction false} VarianceOfConstant(c: real, n: nat)
    requires n > 0
    ensures Variance(seq(n, _ => c)) == 0.0
  {
    var s := seq(n, _ => c);
    SumOfConstant(c, n);
    assert Mean(s) * n as real == c * n as real;
    assert Mean(s) == c;
    var devs := SquaredDeviations(s, c);
    forall i | 0 <= i < n
      ensures devs[i] == 0.0
    {
      assert s[i] - Mean(s) == 0.0;
      assert devs[i] == (s[i] - Mean(s)) * (s[i] - Mean(s));
    }
    assert devs == seq(n, _ => 0.0);
    SumOfConstant(0.0, n);
  }

  lemma {:induction false} SumOfConstant(c: real, n: nat)
    ensures SumOf(seq(n, _ => c)) == c * n as real
    decreases n
  {
    if n > 0 {
      assert seq(n, _ => c)[1..] == seq(n - 1, _ => c);
      SumOfConstant(c, n - 1);
    }
  }

  predicate NoEqualNeighbours<T(==)>(s: seq<T>) {
    forall i :: 0 <= i < |s| - 1 ==> s[i] != s[i + 1]
  }

  /** `removeRepeating`: lists shorter than two come back as they are;
      otherwise every run of equal neighbours is collapsed to its first
      item. */
  method RemoveRepeating<T(==)>(list: seq<T>) returns (r: seq<T>)
    ensures |list| < 2 ==> r == list
    ensures |list| >= 2 ==> |r| >= 1 && r[0] == list[0]
    ensures NoEqualNeighbours(r)
    ensures |r| <= |list|
    ensures forall x :: x in r <==> x in list
  {
    if |list| < 2 {
      return list;
    }
    r := [list[0]];
    var comparison := list[0];
    var i := 0;
    while i < |list|
      invariant 0 <= i <= |list|
      invariant |r| >= 1 && r[0] == list[0] && comparison == r[|r| - 1]
      invariant NoEqualNeighbours(r)
      invariant |r| <= Max(1, i)
      invariant forall x :: x in r ==> x in list
      invariant forall k :: 0 <= k < i ==> list[k] in r
    {
      var item := list[i];
      if item != comparison {
        r := r + [item];
        comparison := item;
      }
      i := i + 1;
    }
  }
}

=== FILE: mutators.dfy ===
/** The chromosome mutators. The engine's choice of which genes mutate
    (`indexes(random, length, p)`) and each partner drawn with
    `nextInt(length)` are inputs; so is every `nextDouble()` draw. */
module Mutators {
  import opened Wrappers
  import opened Numerics
  import opened DiscretePoints
  import opened DiscreteGenes
  import opened DiscreteChromosomes

  /** `MutatorResult`: the altered chromosome and the reported count. */
  datatype MutatorResult = MutatorResult(chromosome: Chromosome, mutations: nat)

  /** The component a swap mutator exchanges between two genes. Both
      revisions of the positions mutator exchange slot indices. */
  datatype SwapKind = DistanceSwap | PositionSwap

  predicate IndexesWithin(indexes: seq<int>, n: int) {
    forall i :: 0 <= i < |indexes| ==> 0 <= indexes[i] < n
  }

  /** `swapComponent(genes, a, b)` for the distance mutator, and
      `swapPositions(genes, a, b)` (through `DiscretePoint.swapDistance`)
      for the positions mutators. The assignments run in source order, so
      `a == b` leaves the gene as it was. */
  function SwapComponent(genes: seq<Gene>, a: int, b: int, kind: SwapKind): (r: seq<Gene>)
    requires 0 <= a < |genes| && 0 <= b < |genes|
    ensures |r| == |genes|
    ensures forall i :: 0 <= i < |genes| && i != a && i != b ==> r[i] == genes[i]
    ensures kind == DistanceSwap ==>
              r[a].allele.distance == genes[b].allele.distance && r[b].allele.distance == genes[a].allele.distance
    ensures kind == PositionSwap ==>
              r[a].allele.position == genes[b].allele.position && r[b].allele.position == genes[a].allele.position
    ensures forall i :: 0 <= i < |genes| ==> r[i].allele.positions == genes[i].allele.positions
    ensures kind == DistanceSwap ==> forall i :: 0 <= i < |genes| ==> r[i].allele.position == genes[i].allele.position
    ensures kind == PositionSwap ==> forall i :: 0 <= i < |genes| ==> r[i].allele.distance == genes[i].allele.distance
  {
    var p, q := genes[a].allele, genes[b].allele;
    match kind
    case DistanceSwap =>
      var afterA := genes[a := Gene(p.(distance := q.distance))];
      afterA[b := Gene(afterA[b].allele.(distance := p.distance))]
    case PositionSwap =>
      var swapped := SwapDistance(p, q);
      var afterA := genes[a := Gene(swapped.0)];
      afterA[b := Gene(swapped.1)]
  }

  lemma SwapComponentSelf(genes: seq<Gene>, a: int, kind: SwapKind)
    requires 0 <= a < |genes|
    ensures SwapComponent(genes, a, a, kind) == genes
  {
  }

  lemma SwapComponentInvolution(genes: seq<Gene>, a: int, b: int, kind: SwapKind)
    requires 0 <= a < |genes| && 0 <= b < |genes|
    ensures SwapComponent(SwapComponent(genes, a, b, kind), a, b, kind) == genes
  {
  }

  /** The swaps the engine applies in index order. */
  function ApplySwaps(genes: seq<Gene>, selected: seq<int>, partners: seq<int>, kind: SwapKind): (r: seq<Gene>)
    requires |selected| == |partners|
    requires IndexesWithin(selected, |genes|) && IndexesWithin(partners, |genes|)
    ensures |r| == |genes|
    decreases |selected|
  {
    if |selected| == 0 then genes
    else ApplySwaps(SwapComponent(genes, selected[0], partners[0], kind), selected[1..], partners[1..], kind)
  }

  /** `mutate` of the swap mutators: a chromosome of at most one gene is
      returned as it is with no mutations; otherwise one swap per selected
      index, counted, and `newInstance` over the result. */
  function Mutate(c: Chromosome, selected: seq<int>, partners: seq<int>, kind: SwapKind): (r: MutatorResult)
    requires |selected| == |partners|
    requires |c.genes| > 1 ==> IndexesWithin(selected, |c.genes|) && IndexesWithin(partners, |c.genes|)
    ensures |c.genes| <= 1 ==> r == MutatorResult(c, 0)
    ensures |c.genes| > 1 ==> r.mutations == |selected|
    ensures Length(r.chromosome) == Length(c)
  {
    if |c.genes| > 1 then
      MutatorResult(NewInstanceWith(c, ApplySwaps(c.genes, selected, partners, kind)), |selected|)
    else MutatorResult(c, 0)
  }

  function GeneDistances(genes: seq<Gene>): seq<real> {
    Distances(Chromosome(genes))
  }

  function GenePositions(genes: seq<Gene>): seq<int> {
    Positions(Chromosome(genes))
  }

  lemma SwapSeqMultiset<T>(s: seq<T>, a: int, b: int, t: seq<T>)
    requires 0 <= a < |s| && 0 <= b < |s| && |t| == |s|
    requires t[a] == s[b] && t[b] == s[a]
    requires forall i :: 0 <= i < |s| && i != a && i != b ==> t[i] == s[i]
    ensures multiset(t) == multiset(s)
  {
    if a == b {
      assert t == s;
    } else {
      assert t == s[a := s[b]][b := s[a]];
    }
  }

  /** One swap keeps the multiset of the swapped component and leaves the
      other component of every gene in place. */
  lemma SwapComponentPreserves(genes: seq<Gene>, a: int, b: int, kind: SwapKind)
    requires 0 <= a < |genes| && 0 <= b < |genes|
    ensures kind == DistanceSwap ==>
              multiset(GeneDistances(SwapComponent(genes, a, b, kind))) == multiset(GeneDistances(genes))
              && GenePositions(SwapComponent(genes, a, b, kind)) == GenePositions(genes)
    ensures kind == PositionSwap ==>
              multiset(GenePositions(SwapComponent(genes, a, b, kind))) == multiset(GenePositions(genes))
              && GeneDistances(SwapComponent(genes, a, b, kind)) == GeneDistances(genes)
  {
    var r := SwapComponent(genes, a, b, kind);
    if kind == DistanceSwap {
      SwapSeqMultiset(GeneDistances(genes), a, b, GeneDistances(r));
    } else {
      SwapSeqMultiset(GenePositions(genes), a, b, GenePositions(r));
    }
  }

  lemma {:induction false} ApplySwapsPreserves(genes: seq<Gene>, selected: seq<int>, partners: seq<int>, kind: SwapKind)
    requires |selected| == |partners|
    requires IndexesWithin(selected, |genes|) && IndexesWithin(partners, |genes|)
    ensures kind == DistanceSwap ==>
              multiset(GeneDistances(ApplySwaps(genes, selected, partners, kind))) == multiset(GeneDistances(genes))
              && GenePositions(ApplySwaps(genes, selected, partners, kind)) == GenePositions(genes)
    ensures kind == PositionSwap ==>
              multiset(GenePositions(ApplySwaps(genes, selected, partners, kind))) == multiset(GenePositions(genes))
              && GeneDistances(ApplySwaps(genes, selected, partners, kind)) == GeneDistances(genes)
    decreases |selected|
  {
    if |selected| > 0 {
      var next := SwapComponent(genes, selected[0], partners[0], kind);
      SwapComponentPreserves(genes, selected[0], partners[0], kind);
      ApplySwapsPreserves(next, selected[1..], partners[1..], kind);
    }
  }

  /** The distance mutator keeps every slot and permutes the distances;
      the positions mutators keep every distance and permute the slots. */
  lemma MutatePermutes(c: Chromosome, selected: seq<int>, partners: seq<int>, kind: SwapKind)
    requires |selected| == |partners|
    requires |c.genes| > 1 ==> IndexesWithin(selected, |c.genes|) && IndexesWithin(partners, |c.genes|)
    ensures kind == DistanceSwap ==>
              multiset(Distances(Mutate(c, selected, partners, kind).chromosome)) == multiset(Distances(c))
              && Positions(Mutate(c, selected, partners, kind).chromosome) == Positions(c)
    ensures kind == PositionSwap ==>
              multiset(Positions(Mutate(c, selected, partners, kind).chromosome)) == multiset(Positions(c))
              && Distances(Mutate(c, selected, partners, kind).chromosome) == Distances(c)
  {
    if |c.genes| > 1 {
      ApplySwapsPreserves(c.genes, selected, partners, kind);
    }
  }

  /** The alleles as objects: a heap of points, and a chromosome as the
      references of its genes' alleles into it. `MSeq.of(chromosome)` copies
      the references, not the points, so the parent and the mutable
      sequence share every allele. */
  type Heap = seq<Point>

  /** References that name pairwise distinct alleles of the heap, as the
      gene factories produce them (every gene is built around a new point). */
  predicate Distinct(heap: Heap, refs: seq<nat>) {
    && (forall i :: 0 <= i < |refs| ==> refs[i] < |heap|)
    && (forall i, j :: 0 <= i < j < |refs| ==> refs[i] != refs[j])
  }

  /** The genes a list of references reads as. */
  function Read(heap: Heap, refs: seq<nat>): (genes: seq<Gene>)
    requires forall i :: 0 <= i < |refs| ==> refs[i] < |heap|
    ensures |genes| == |refs| && forall i :: 0 <= i < |refs| ==> genes[i].allele == heap[refs[i]]
  {
    seq(|refs|, i requires 0 <= i < |refs| => Gene(heap[refs[i]]))
  }

  /** One swap as the source performs it, through setters on the two
      shared alleles: the first receives the second's component, then the
      second receives the saved value of the first. */
  function SwapInPlace(heap: Heap, refs: seq<nat>, a: int, b: int, kind: SwapKind): (h: Heap)
    requires forall i :: 0 <= i < |refs| ==> refs[i] < |heap|
    requires 0 <= a < |refs| && 0 <= b < |refs|
    ensures |h| == |heap|
    ensures forall k :: 0 <= k < |heap| && k != refs[a] && k != refs[b] ==> h[k] == heap[k]
  {
    var x, y := refs[a], refs[b];
    match kind
    case DistanceSwap =>
      var temp := heap[x].distance;
      var h1 := heap[x := heap[x].(distance := heap[y].distance)];
      h1[y := h1[y].(distance := temp)]
    case PositionSwap =>
      var temp := heap[x].position;
      var h1 := heap[x := heap[x].(position := heap[y].position)];
      h1[y := h1[y].(position := temp)]
  }

  /** The swaps in index order, each on the shared alleles. */
  function ApplySwapsInPlace(heap: Heap, refs: seq<nat>, selected: seq<int>, partners: seq<int>, kind: SwapKind): (h: Heap)
    requires forall i :: 0 <= i < |refs| ==> refs[i] < |heap|
    requires |selected| == |partners|
    requires IndexesWithin(selected, |refs|) && IndexesWithin(partners, |refs|)
    ensures |h| == |heap|
    ensures forall k :: 0 <= k < |heap| && k !in refs ==> h[k] == heap[k]
    decreases |selected|
  {
    if |selected| == 0 then heap
    else ApplySwapsInPlace(SwapInPlace(heap, refs, selected[0], partners[0], kind), refs, selected[1..], partners[1..], kind)
  }

  /** `mutate` on the heap: the heap afterwards, and the result, whose
      chromosome is read through the same references as the parent. */
  function MutateInPlace(heap: Heap, refs: seq<nat>, selected: seq<int>, partners: seq<int>, kind: SwapKind): (o: (Heap, MutatorResult))
    requires forall i :: 0 <= i < |refs| ==> refs[i] < |heap|
    requires |selected| == |partners|
    requires |refs| > 1 ==> IndexesWithin(selected, |refs|) && IndexesWithin(partners, |refs|)
    ensures |o.0| == |heap|
    ensures o.1.chromosome == Chromosome(Read(o.0, refs))
    ensures |refs| <= 1 ==> o == (heap, MutatorResult(Chromosome(Read(heap, refs)), 0))
  {
    if |refs| > 1 then
      var h := ApplySwapsInPlace(heap, refs, selected, partners, kind);
      (h, MutatorResult(Chromosome(Read(h, refs)), |selected|))
    else (heap, MutatorResult(Chromosome(Read(heap, refs)), 0))
  }

  /** On distinct alleles one in-place swap reads as the value swap. */
  lemma SwapInPlaceAgrees(heap: Heap, refs: seq<nat>, a: int, b: int, kind: SwapKind)
    requires Distinct(heap, refs)
    requires 0 <= a < |refs| && 0 <= b < |refs|
    ensures Distinct(SwapInPlace(heap, refs, a, b, kind), refs)
    ensures Read(SwapInPlace(heap, refs, a, b, kind), refs) == SwapComponent(Read(heap, refs), a, b, kind)
  {
    var h := SwapInPlace(heap, refs, a, b, kind);
    var l, r := Read(h, refs), SwapComponent(Read(heap, refs), a, b, kind);
    forall i | 0 <= i < |refs|
      ensures l[i] == r[i]
    {
      if i != a && i != b {
        assert refs[i] != refs[a] && refs[i] != refs[b] by {
          assert i < a || a < i;
          assert i < b || b < i;
        }
      }
    }
  }

  /** On distinct alleles the in-place swaps read as the value swaps. */
  lemma {:induction false} ApplySwapsInPlaceAgrees(heap: Heap, refs: seq<nat>, selected: seq<int>, partners: seq<int>, kind: SwapKind)
    requires Distinct(heap, refs)
    requires |selected| == |partners|
    requires IndexesWithin(selected, |refs|) && IndexesWithin(partners, |refs|)
    ensures Read(ApplySwapsInPlace(heap, refs, selected, partners, kind), refs) ==
              ApplySwaps(Read(heap, refs), selected, partners, kind)
    decreases |selected|
  {
    if |selected| > 0 {
      var next := SwapInPlace(heap, refs, selected[0], partners[0], kind);
      SwapInPlaceAgrees(heap, refs, selected[0], partners[0], kind);
      ApplySwapsInPlaceAgrees(next, refs, selected[1..], partners[1..], kind);
    }
  }

  /** The parent shares its alleles with the result: after `mutate` the
      parent reads as the mutated chromosome, which is what `Mutate`
      computes on the parent's former genes; no other allele changes. */
  lemma MutateAltersParent(heap: Heap, refs: seq<nat>, selected: seq<int>, partners: seq<int>, kind: SwapKind)
    requires Distinct(heap, refs)
    requires |selected| == |partners|
    requires |refs| > 1 ==> IndexesWithin(selected, |refs|) && IndexesWithin(partners, |refs|)
    ensures var o := MutateInPlace(heap, refs, selected, partners, kind);
            && Chromosome(Read(o.0, refs)) == o.1.chromosome
            && o.1 == Mutate(Chromosome(Read(heap, refs)), selected, partners, kind)
            && forall k :: 0 <= k < |heap| && k !in refs ==> o.0[k] == heap[k]
  {
    if |refs| > 1 {
      ApplySwapsInPlaceAgrees(heap, refs, selected, partners, kind);
    }
  }

  /** The perturbation width: 1 without a configuration. */
  function Delta(configured: Option<real>): (delta: real)
    ensures configured.Some? ==> delta == configured.value
    ensures configured.None? ==> delta == 1.0
  {
    configured.GetOr(1.0)
  }

  /** `DistanceMutator.mutate`: d + (2r - 1)·delta, clamped at zero; the
      slot and the slot count are kept. */
  function MutateDistance(g: Gene, configured: Option<real>, r: real): (m: Gene)
    requires 0.0 <= r < 1.0
    ensures m.allele.distance >= 0.0
    ensures m.allele.position == g.allele.position && m.allele.positions == g.allele.positions
    ensures m.allele.distance == MaxReal(0.0, g.allele.distance + (2.0 * r - 1.0) * Delta(configured))
  {
    var delta := Delta(configured);
    var newDistance := g.allele.distance + (r * 2.0 - 1.0) * delta;
    Gene(Point(g.allele.positions, g.allele.position, MaxReal(0.0, newDistance)))
  }

  /** Before clamping, the new distance lies in [d - delta, d + delta),
      and after clamping a non-negative distance moves by at most delta. */
  lemma MutateDistanceBounds(g: Gene, configured: Option<real>, r: real)
    requires 0.0 <= r < 1.0
    requires Delta(configured) > 0.0
    ensures var d, delta := g.allele.distance, Delta(configured);
            d - delta <= d + (2.0 * r - 1.0) * delta < d + delta
    ensures var d, delta := g.allele.distance, Delta(configured);
            d >= 0.0 ==> d - delta <= MutateDistance(g, configured, r).allele.distance <= d + delta
  {
    var delta := Delta(configured);
    var d := g.allele.distance;
    var moved := d + (2.0 * r - 1.0) * delta;
    SpreadDraw(r, delta);
    assert MutateDistance(g, configured, r).allele.distance == MaxReal(0.0, moved);
  }

  /** A draw in [0, 1) spread to [-delta, delta). */
  lemma SpreadDraw(r: real, delta: real)
    requires 0.0 <= r < 1.0 && delta > 0.0
    ensures -delta <= (2.0 * r - 1.0) * delta < delta
  {
    assert (2.0 * r - 1.0) * delta == 2.0 * (r * delta) - delta;
    MulAtMost(0.0, r, delta);
    MulBelow(r, 1.0, delta);
  }

  /** `PositionMutator.mutate` as written: `(int) Math.round(r · positions)`
      over the gene's own slot count, keeping the distance. */
  function MutatePositionAsWritten(g: Gene, r: real): (m: Gene)
    requires 0.0 <= r < 1.0
    ensures m.allele.distance == g.allele.distance && m.allele.positions == g.allele.positions
    ensures g.allele.positions >= 0 ==> 0 <= m.allele.position <= g.allele.positions
  {
    var n := g.allele.positions;
    assert n >= 0 ==> 0.0 <= r * n as real <= n as real;
    Gene(Point(n, Round(r * n as real), g.allele.distance))
  }

  /** With one slot a draw of 0.9 rounds to slot 1, past the only valid
      slot 0. */
  lemma MutatePositionAsWrittenOffByOne()
    ensures MutatePositionAsWritten(Gene(Point(1, 0, 2.0)), 0.9).allele.position == 1
  {
  }

  /** The evidently intended resample: truncate r · positions, which is
      uniform over the valid slots [0, positions). */
  function MutatePosition(g: Gene, r: real): (m: Gene)
    requires 0.0 <= r < 1.0
    ensures m.allele.distance == g.allele.distance && m.allele.positions == g.allele.positions
    ensures g.allele.positions > 0 ==> 0 <= m.allele.position < g.allele.positions
  {
    var n := g.allele.positions;
    assert n > 0 ==> 0.0 <= r * n as real < n as real;
    Gene(Point(n, TruncToZero(r * n as real), g.allele.distance))
  }
}

=== FILE: numerics.dfy ===
/** Java's fixed-width integer arithmetic and double-to-integer conversions,
    written out over Dafny's unbounded `int` and `real`. */
module Numerics {

  const MinInt32: int := -0x8000_0000
  const MaxInt32: int := 0x7fff_ffff
  const MinInt64: int := -0x8000_0000_0000_0000
  const MaxInt64: int := 0x7fff_ffff_ffff_ffff

  /** The range of a Java `int`. */
  predicate IsInt32(i: int) {
    MinInt32 <= i <= MaxInt32
  }

  /** A value a Java `int` variable can hold. */
  type Int32 = i: int | IsInt32(i)

  function Min(a: int, b: int): int {
    if a <= b then a else b
  }

  function Max(a: int, b: int): int {
    if a >= b then a else b
  }

  function MinReal(a: real, b: real): real {
    if a <= b then a else b
  }

  function MaxReal(a: real, b: real): real {
    if a >= b then a else b
  }

  /** The result of a Java `int` subtraction or addition: the exact value
      reduced modulo 2^32 into the `int` range. */
  function Wrap32(i: int): (r: int)
    ensures IsInt32(r)
    ensures (r - i) % 0x1_0000_0000 == 0
    ensures IsInt32(i) ==> r == i
  {
    (i - MinInt32) % 0x1_0000_0000 + MinInt32
  }

  /** The truncation toward zero that a `(int)` or `(long)` cast applies to
      a double before any saturation. */
  function TruncToZero(x: real): (r: int)
    ensures x >= 0.0 ==> r >= 0 && r as real <= x < r as real + 1.0
    ensures x < 0.0 ==> r <= 0 && r as real - 1.0 < x <= r as real
  {
    if x >= 0.0 then x.Floor else -((-x).Floor)
  }

  /** Java's `(int)` cast of a (finite) double: truncation toward zero,
      saturating at the ends of the `int` range. */
  function IntCast(x: real): (r: Int32)
    ensures IsInt32(TruncToZero(x)) ==> r == TruncToZero(x)
    ensures r >= 0 <==> x > -1.0
  {
    var t := TruncToZero(x);
    if t < MinInt32 then MinInt32 else if t > MaxInt32 then MaxInt32 else t
  }

  /** `Math.round(double)`: the nearest integer, halves rounded up. */
  function Round(x: real): (r: int)
    ensures r as real - 0.5 <= x < r as real + 0.5
  {
    (x + 0.5).Floor
  }

  /** Java's `a % b` on integers: the remainder takes the sign of the
      dividend (Dafny's `%` is Euclidean and never negative). */
  function JavaRem(a: int, b: int): (r: int)
    requires b != 0
    ensures a >= 0 ==> 0 <= r < Abs(b)
    ensures a < 0 ==> 0 - Abs(b) < r <= 0
  {
    var m := Abs(b);
    if a >= 0 then a % m else -((-a) % m)
  }

  function Abs(a: int): int {
    if a < 0 then -a else a
  }

  lemma MulPositive(a: real, b: real)
    requires a > 0.0 && b > 0.0
    ensures a * b > 0.0
  {
  }

  /** Multiplying both sides by a positive factor keeps `<=`. */
  lemma MulAtMost(x: real, y: real, c: real)
    requires x <= y && c > 0.0
    ensures x * c <= y * c
  {
    if x < y {
      MulPositive(y - x, c);
    }
  }

  /** Multiplying both sides by a positive factor keeps `<`. */
  lemma MulBelow(x: real, y: real, c: real)
    requires x < y && c > 0.0
    ensures x * c < y * c
  {
    MulPositive(y - x, c);
  }

  /** The product of two integers, as a real. */
  lemma RealProduct(k: int, n: int)
    ensures (k * n) as real == k as real * n as real
  {
  }

  /** A draw in [0, 1) scales a positive width into [0, width). */
  lemma ScaleBelow(r: real, w: real)
    requires 0.0 <= r < 1.0 && w > 0.0
    ensures 0.0 <= r * w < w
  {
    MulPositive(1.0 - r, w);
    assert (1.0 - r) * w == w - r * w;
    if r > 0.0 {
      MulPositive(r, w);
    }
  }
}

=== FILE: project.dfy ===
/** A project: its name, version and working directory, the configuration
    selected in it and its configurations. `serialize` writes the first
    four as properties; `parse` reads back the three strings. */
module Projects {
  import opened Wrappers
  import opened Numerics
  import opened Dom
  import Configurations
  import Environment
  import XmlService

  type Config = Configurations.Configuration<Environment.FitnessVariant>

  /** The project's fields; `null` strings are `None`. */
  datatype Project = Project(
    version: Option<string>,
    path: Option<string>,
    name: Option<string>,
    selectedConfiguration: Int32,
    configurations: seq<Config>)

  /** `new Project()`: no strings yet, no configuration selected (-1) and
      none listed. */
  const Fresh: Project := Project(None, None, None, -1, [])

  const ProjectName: string := "project"

  /** `String` values, `null` kept as `null`. */
  function Text(s: Option<string>): (v: Option<XmlService.Value>)
    ensures v.None? <==> s.None?
    ensures v.Some? ==> v.value == XmlService.StringValue(s.value)
  {
    match s
    case None => None
    case Some(t) => Some(XmlService.StringValue(t))
  }

  /** The four properties in the order `serialize` writes them. */
  function Properties(p: Project): (ps: seq<Element>)
    ensures |ps| == 4
    ensures ps[0] == XmlService.WriteProperty(Some("name"), Text(p.name)).value
    ensures ps[1] == XmlService.WriteProperty(Some("version"), Text(p.version)).value
    ensures ps[2] == XmlService.WriteProperty(Some("path"), Text(p.path)).value
    ensures ps[3] == XmlService.WriteProperty(Some("selectedConfiguration"), Some(XmlService.IntValue(p.selectedConfiguration))).value
  {
    [ XmlService.WriteProperty(Some("name"), Text(p.name)).value,
      XmlService.WriteProperty(Some("version"), Text(p.version)).value,
      XmlService.WriteProperty(Some("path"), Text(p.path)).value,
      XmlService.WriteProperty(Some("selectedConfiguration"), Some(XmlService.IntValue(p.selectedConfiguration))).value ]
  }

  /** `serialize()`: a "project" root holding the four properties. */
  function Serialize(p: Project): (d: Document)
    ensures d.root.Some? && d.root.value.name == ProjectName
    ensures d.root.value.children == Properties(p)
  {
    Document(Some(Element(ProjectName, map[], Properties(p))))
  }

  /** One property handed to the `parse` consumer: "name", "version" and
      "path" set their field, any other key changes nothing. */
  function Apply(p: Project, property: (string, Option<string>)): (r: Project)
    ensures property.0 == "name" ==> r == p.(name := property.1)
    ensures property.0 == "version" ==> r == p.(version := property.1)
    ensures property.0 == "path" ==> r == p.(path := property.1)
    ensures property.0 !in {"name", "version", "path"} ==> r == p
  {
    var (key, value) := property;
    if key == "name" then p.(name := value)
    else if key == "version" then p.(version := value)
    else if key == "path" then p.(path := value)
    else p
  }

  /** The properties applied in document order. */
  function ApplyAll(p: Project, properties: seq<(string, Option<string>)>): (r: Project)
    ensures r.selectedConfiguration == p.selectedConfiguration && r.configurations == p.configurations
    decreases |properties|
  {
    if |properties| == 0 then p else ApplyAll(Apply(p, properties[0]), properties[1..])
  }

  /** `parse(document)`: the receiver with the root's properties applied;
      the receiver is returned. */
  function Parse(p: Project, d: Document): (r: Project)
    ensures r.selectedConfiguration == p.selectedConfiguration && r.configurations == p.configurations
    ensures d.root.None? ==> r == p
  {
    ApplyAll(p, XmlService.ReadProperties(d.root))
  }

  /** A string as it comes back through a property: the text "null"
      becomes `null`. */
  function Reread(s: Option<string>): (r: Option<string>)
    ensures s.None? ==> r.None?
    ensures s.Some? ==> (r.None? <==> s.value == XmlService.NullText)
    ensures r.Some? ==> r == s
  {
    match s
    case None => None
    case Some(t) => XmlService.Decode(t)
  }

  /** Parsing a serialised project into any receiver sets the name, version
      and path it was written with (`null`, and the text "null", as
      `null`) and keeps the receiver's selection and configurations: the
      selected configuration is written but never read. */
  lemma ParseSerialize(receiver: Project, p: Project)
    ensures Parse(receiver, Serialize(p)) ==
              receiver.(name := Reread(p.name), version := Reread(p.version), path := Reread(p.path))
  {
    var pairs := XmlService.Pairs(Properties(p));
    SerializedProperties(p);
    PropertiesPairs(p);
    ApplyFour(receiver, pairs);
    assert Parse(receiver, Serialize(p)) == ApplyAll(receiver, pairs);
  }

  /** The root's properties are the four written. */
  lemma SerializedProperties(p: Project)
    ensures XmlService.ReadProperties(Serialize(p).root) == XmlService.Pairs(Properties(p))
  {
    var ps := Properties(p);
    FourNamed(ps);
    FilterAll(ps, XmlService.PropertyName);
  }

  /** The pairs `parse` sees in a serialised project. */
  lemma PropertiesPairs(p: Project)
    ensures var pairs := XmlService.Pairs(Properties(p));
            && |pairs| == 4
            && pairs[0] == ("name", Reread(p.name))
            && pairs[1] == ("version", Reread(p.version))
            && pairs[2] == ("path", Reread(p.path))
            && pairs[3].0 == "selectedConfiguration"
  {
    var ps := Properties(p);
    assert XmlService.PropertyOf(ps[0]) == Some(("name", Reread(p.name))) by {
      TextPair("name", p.name);
    }
    assert XmlService.PropertyOf(ps[1]) == Some(("version", Reread(p.version))) by {
      TextPair("version", p.version);
    }
    assert XmlService.PropertyOf(ps[2]) == Some(("path", Reread(p.path))) by {
      TextPair("path", p.path);
    }
    assert XmlService.PropertyOf(ps[3]).Some? && XmlService.PropertyOf(ps[3]).value.0 == "selectedConfiguration" by {
      XmlService.PropertyRoundTrip("selectedConfiguration", Some(XmlService.IntValue(p.selectedConfiguration)));
    }
    FourProperties(ps);
  }

  /** Four elements named "property" are all named "property". */
  lemma FourNamed(es: seq<Element>)
    requires |es| == 4 && es[0].name == XmlService.PropertyName && es[1].name == XmlService.PropertyName
    requires es[2].name == XmlService.PropertyName && es[3].name == XmlService.PropertyName
    ensures forall i :: 0 <= i < |es| ==> es[i].name == XmlService.PropertyName
  {
  }

  /** Four elements that each carry a pair all carry one. */
  lemma FourProperties(es: seq<Element>)
    requires |es| == 4 && XmlService.PropertyOf(es[0]).Some? && XmlService.PropertyOf(es[1]).Some?
    requires XmlService.PropertyOf(es[2]).Some? && XmlService.PropertyOf(es[3]).Some?
    ensures forall i :: 0 <= i < |es| ==> XmlService.PropertyOf(es[i]).Some?
  {
  }

  /** A string property reads back as its `Reread` value. */
  lemma TextPair(name: string, s: Option<string>)
    ensures XmlService.PropertyOf(XmlService.WriteProperty(Some(name), Text(s)).value) == Some((name, Reread(s)))
  {
    XmlService.PropertyRoundTrip(name, Text(s));
  }

  /** Applying name, version, path and one other key in that order. */
  lemma ApplyFour(receiver: Project, pairs: seq<(string, Option<string>)>)
    requires |pairs| == 4 && pairs[0].0 == "name" && pairs[1].0 == "version" && pairs[2].0 == "path"
    requires pairs[3].0 !in {"name", "version", "path"}
    ensures ApplyAll(receiver, pairs) == receiver.(name := pairs[0].1, version := pairs[1].1, path := pairs[2].1)
  {
    var r1 := Apply(receiver, pairs[0]);
    var r2 := Apply(r1, pairs[1]);
    var r3 := Apply(r2, pairs[2]);
    assert ApplyAll(r3, pairs[3..]) == r3 by {
      assert pairs[3..][1..] == [];
    }
    assert pairs[1..][1..] == pairs[2..] && pairs[2..][1..] == pairs[3..];
    assert ApplyAll(r2, pairs[2..]) == ApplyAll(r3, pairs[3..]);
    assert ApplyAll(r1, pairs[1..]) == ApplyAll(r2, pairs[2..]);
  }

  /** A fresh project read from a serialised one has its strings and no
      selected configuration. */
  lemma ParseSerializeFresh(p: Project)
    requires p.name != Some(XmlService.NullText) && p.version != Some(XmlService.NullText)
    requires p.path != Some(XmlService.NullText)
    ensures Parse(Fresh, Serialize(p)) == Project(p.version, p.path, p.name, -1, [])
  {
    ParseSerialize(Fresh, p);
  }
}

=== FILE: random_utils.dfy ===
/** Random ranges. The `nextInt`/`nextDouble` draws are parameters: an
    int draw lies in [0, bound) for the bound the source passes, a double
    draw in [0, 1). */
module RandomUtils {
  import opened Wrappers
  import opened Numerics
  import opened DiscretePoints
  import opened DiscreteGenes

  /** The bound `inRange(min, max)` hands to `nextInt`: `max - min` in
      32-bit arithmetic. */
  function IntBound(min: Int32, max: Int32): Int32 {
    Wrap32(max - min)
  }

  /** `inRange(int, int)`: `min + nextInt(max - min)`, where `nextInt`
      rejects a bound that is not positive, and both the subtraction and
      the addition wrap around. */
  function InRangeInt(min: Int32, max: Int32, draw: int): (r: Result<Int32>)
    requires IntBound(min, max) > 0 ==> 0 <= draw < IntBound(min, max)
    ensures r.Ok? <==> IntBound(min, max) > 0
    ensures r.Ok? && IsInt32(max - min) ==> min <= r.value < max
  {
    var bound := IntBound(min, max);
    assert IsInt32(max) && IsInt32(min);
    assert IsInt32(max - min) ==> bound == max - min;
    assert IsInt32(max - min) && bound > 0 ==> IsInt32(min + draw);
    if bound <= 0 then Err(IllegalArgument) else Ok(Wrap32(min + draw))
  }

  /** Without overflow, a range is non-empty exactly when min < max. */
  lemma InRangeIntNoOverflow(min: Int32, max: Int32, draw: int)
    requires IsInt32(max - min)
    requires min < max ==> 0 <= draw < max - min
    ensures InRangeInt(min, max, draw).Ok? <==> min < max
  {
  }

  /** A range of one value always yields it. */
  lemma InRangeIntSingleton(min: Int32, max: Int32)
    requires max == min + 1
    ensures InRangeInt(min, max, 0) == Ok(min)
  {
  }

  /** The full int range overflows its bound and is rejected. */
  lemma InRangeIntFullRangeRejected()
    ensures InRangeInt(MinInt32, MaxInt32, 0) == Err(IllegalArgument)
  {
  }

  /** `inRange(double, double)`: min + r·(max - min). The result never
      reaches max, although the method's documentation says max is
      included. */
  function InRangeReal(min: real, max: real, r: real): (x: real)
    requires 0.0 <= r < 1.0
    ensures min < max ==> min <= x < max
    ensures min == max ==> x == min
  {
    var width := max - min;
    assert width > 0.0 ==> 0.0 <= r * width < width by {
      if width > 0.0 { ScaleBelow(r, width); }
    }
    assert width == 0.0 ==> r * width == 0.0;
    min + r * width
  }

  /** `generatePoint`: a gene with the given slot count, a slot from
      `nextInt(positions)` (so in [0, positions), not [0, positions] as
      documented) and a distance from `inRange`. */
  function GeneratePoint(positions: int, minDistance: real, maxDistance: real, positionDraw: int, r: real): (g: Result<Gene>)
    requires positions > 0 ==> 0 <= positionDraw < positions
    requires 0.0 <= r < 1.0
    ensures g.Ok? <==> positions > 0
    ensures g.Ok? ==> g.value.allele.positions == positions && 0 <= g.value.allele.position < positions
    ensures g.Ok? && minDistance < maxDistance ==> minDistance <= g.value.allele.distance < maxDistance
  {
    if positions <= 0 then Err(IllegalArgument)
    else Ok(Gene(Point(positions, positionDraw, InRangeReal(minDistance, maxDistance, r))))
  }
}

=== FILE: search_experiment.dfy ===
/** The older experiment singleton: its random instance generator and its
    ratio fitness, which divides each treasure's distance by the trace
    needed to find it. The `finds` and `trace` rules are those of
    `Environment`, line for line. */
module SearchExperiment {
  import opened Wrappers
  import opened Numerics
  import opened Doubles
  import opened DiscretePoints
  import opened DiscreteChromosomes
  import Environment
  import ListUtils

  /** The singleton's state. */
  datatype State = State(positions: int, distances: seq<real>, treasures: seq<Point>, individuals: seq<Chromosome>)

  /** The initial state: two slots, nothing else. */
  const Initial: State := State(2, [], [], [])

  /** `fitnessSingular`: the first treasure's distance over its trace,
      in IEEE arithmetic; `get(0)` throws when there is no treasure. */
  function FitnessSingular(finds: Environment.FindsRule, c: Chromosome, treasures: seq<Point>, leg: Leg): (r: Result<Double>)
    ensures r.Ok? <==> |treasures| > 0
    ensures r.Err? ==> r.error == IndexOutOfBounds
    ensures r.Ok? ==> var t := Environment.Trace(finds, c, treasures[0], leg);
                      && (t != 0.0 ==> r.value.Finite? && r.value.r * t == treasures[0].distance)
                      && (t == 0.0 && treasures[0].distance > 0.0 ==> r.value == PosInf)
                      && (t == 0.0 && treasures[0].distance == 0.0 ==> r.value == NaN)
  {
    if |treasures| == 0 then Err(IndexOutOfBounds)
    else Ok(Divide(treasures[0].distance, Environment.Trace(finds, c, treasures[0], leg)))
  }

  /** The per-treasure ratios, in treasure order. */
  function Ratios(finds: Environment.FindsRule, c: Chromosome, treasures: seq<Point>, leg: Leg): (rs: seq<Double>)
    ensures |rs| == |treasures|
    ensures forall i :: 0 <= i < |treasures| ==>
              rs[i] == Divide(treasures[i].distance, Environment.Trace(finds, c, treasures[i], leg))
  {
    seq(|treasures|, i requires 0 <= i < |treasures| =>
        Divide(treasures[i].distance, Environment.Trace(finds, c, treasures[i], leg)))
  }

  /** The finite parts of a list of doubles (0 for the specials). */
  function FiniteParts(ds: seq<Double>): (rs: seq<real>)
    ensures |rs| == |ds|
    ensures forall i :: 0 <= i < |ds| && ds[i].Finite? ==> rs[i] == ds[i].r
  {
    seq(|ds|, i requires 0 <= i < |ds| => if ds[i].Finite? then ds[i].r else 0.0)
  }

  /** `reduce(Double::sum).orElse(0)`: IEEE summation. It is finite exactly
      when every summand is, and then it is the real sum. */
  function SumDoubles(ds: seq<Double>): (s: Double)
    ensures s.Finite? <==> forall i :: 0 <= i < |ds| ==> ds[i].Finite?
    ensures s.Finite? ==> s.r == ListUtils.SumOf(FiniteParts(ds))
    ensures (exists i :: 0 <= i < |ds| && ds[i] == NaN) ==> s == NaN
    decreases |ds|
  {
    if |ds| == 0 then Finite(0.0)
    else
      assert FiniteParts(ds)[1..] == FiniteParts(ds[1..]);
      assert forall i :: 0 < i < |ds| ==> ds[i] == ds[1..][i - 1];
      Add(ds[0], SumDoubles(ds[1..]))
  }

  /** `fitness`: 0 without treasures, otherwise the mean ratio. */
  function Fitness(finds: Environment.FindsRule, c: Chromosome, treasures: seq<Point>, leg: Leg): (f: Double)
    ensures |treasures| == 0 ==> f == Finite(0.0)
  {
    if |treasures| == 0 then Finite(0.0)
    else DivideByCount(SumDoubles(Ratios(finds, c, treasures, leg)), |treasures|)
  }

  /** The ratio fitness is a finite mean exactly when every trace is
      non-zero, and one treasure whose trace is zero while its distance is
      not makes it infinite. */
  lemma FitnessFiniteIffTracesNonZero(finds: Environment.FindsRule, c: Chromosome, treasures: seq<Point>, leg: Leg)
    requires |treasures| > 0
    ensures Fitness(finds, c, treasures, leg).Finite? <==>
              forall i :: 0 <= i < |treasures| ==> Environment.Trace(finds, c, treasures[i], leg) != 0.0
    ensures Fitness(finds, c, treasures, leg).Finite? ==>
              Fitness(finds, c, treasures, leg).r * |treasures| as real ==
              ListUtils.SumOf(FiniteParts(Ratios(finds, c, treasures, leg)))
  {
    var rs := Ratios(finds, c, treasures, leg);
    if forall i :: 0 <= i < |treasures| ==> Environment.Trace(finds, c, treasures[i], leg) != 0.0 {
      assert forall i :: 0 <= i < |rs| ==> rs[i].Finite?;
    } else {
      var i :| 0 <= i < |treasures| && Environment.Trace(finds, c, treasures[i], leg) == 0.0;
      assert !rs[i].Finite?;
    }
  }

  /** With a single treasure the mean ratio is the singular ratio. */
  lemma FitnessOfOneTreasure(finds: Environment.FindsRule, c: Chromosome, treasure: Point, leg: Leg)
    ensures FitnessSingular(finds, c, [treasure], leg) == Ok(Fitness(finds, c, [treasure], leg))
  {
    var rs := Ratios(finds, c, [treasure], leg);
    assert rs[1..] == [];
    var q := Divide(treasure.distance, Environment.Trace(finds, c, treasure, leg));
    assert SumDoubles(rs) == Add(q, Finite(0.0));
    match q
    case Finite(x) => assert Add(q, Finite(0.0)) == q;
    case _ =>
  }

  predicate UnitDraws(rs: seq<real>) {
    forall i :: 0 <= i < |rs| ==> 0.0 <= rs[i] < 1.0
  }

  /** The outcome of `init`: the state it leaves and the exception it
      threw, if any. */
  datatype InitOutcome = InitOutcome(state: State, thrown: Option<Exception>)

  /** `init(amountDistances, positions)` on the singleton `s`.

      `distanceDraws` are the `nextDouble()` behind each distance,
      `slotDraws` and `scaleDraws` the `nextInt(positions)` and
      `nextDouble()` behind each treasure. The distances and slot count are
      stored before the treasures are drawn, so a `nextInt` that throws
      leaves them set and the treasures as they were. */
  function Init(s: State, amountDistances: int, positions: int,
                distanceDraws: seq<real>, slotDraws: seq<int>, scaleDraws: seq<real>): (o: InitOutcome)
    requires |distanceDraws| == |slotDraws| == |scaleDraws| == Max(amountDistances, 0)
    requires UnitDraws(distanceDraws) && UnitDraws(scaleDraws)
    requires positions > 0 ==> forall i :: 0 <= i < |slotDraws| ==> 0 <= slotDraws[i] < positions
    ensures o.state.positions == positions && o.state.individuals == s.individuals
    ensures |o.state.distances| == Max(amountDistances, 0)
    ensures forall i :: 0 <= i < |o.state.distances| ==> 0.0 <= o.state.distances[i] < 50.0
    ensures o.thrown.Some? <==> amountDistances > 0 && positions <= 0
    ensures o.thrown.Some? ==> o.thrown.value == IllegalArgument && o.state.treasures == s.treasures
    ensures o.thrown.None? ==> |o.state.treasures| == |o.state.distances|
    ensures o.thrown.None? ==> forall i :: 0 <= i < |o.state.treasures| ==>
              && 0 <= o.state.treasures[i].position < positions
              && 0.0 <= o.state.treasures[i].distance <= o.state.distances[i]
              && (o.state.distances[i] > 0.0 ==> o.state.treasures[i].distance < o.state.distances[i])
  {
    var n := Max(amountDistances, 0);
    var distances := seq(n, i requires 0 <= i < n => distanceDraws[i] * 50.0);
    var stored := s.(distances := distances, positions := positions);
    if n > 0 && positions <= 0 then InitOutcome(stored, Some(IllegalArgument))
    else
      var treasures := seq(n, i requires 0 <= i < n =>
                           Point(positions, slotDraws[i], MaxReal(0.0, TreasureDistance(distances[i], scaleDraws[i]))));
      InitOutcome(stored.(treasures := treasures), None)
  }

  /** `nextDouble() * d` for a non-negative `d`. */
  function TreasureDistance(d: real, r: real): (x: real)
    requires 0.0 <= r < 1.0 && 0.0 <= d
    ensures 0.0 <= x <= d
    ensures d > 0.0 ==> x < d
  {
    assert d > 0.0 ==> 0.0 <= r * d < d by {
      if d > 0.0 { ScaleBelow(r, d); }
    }
    r * d
  }
}

=== FILE: sorted_list_model.dfy ===
/** `SortedListModel`: a list model kept in comparator order. The
    comparator is the ordering `le`, where `le(a, b)` stands for
    `compare(a, b) <= 0`; the list events it fires are left out. */
module SortedListModels {
  import opened Wrappers
  import opened Sorting

  /** The model's backing vector. */
  datatype Model<E> = Model(delegate: seq<E>)

  /** A new model: an empty vector. */
  function Empty<E>(): (m: Model<E>)
    ensures |m.delegate| == 0
  {
    Model([])
  }

  /** `getElementAt(index)`: `Vector.elementAt` throws outside the list. */
  function GetElementAt<E>(m: Model<E>, index: int): (r: Result<E>)
    ensures r.Ok? <==> 0 <= index < |m.delegate|
    ensures r.Ok? ==> r.value == m.delegate[index]
    ensures r.Err? ==> r.error == IndexOutOfBounds
  {
    if 0 <= index < |m.delegate| then Ok(m.delegate[index]) else Err(IndexOutOfBounds)
  }

  /** `sort()`: the stable sort of the vector by the comparator. */
  function SortModel<E(!new)>(m: Model<E>, le: (E, E) -> bool): (r: Model<E>)
    ensures multiset(r.delegate) == multiset(m.delegate)
    ensures |r.delegate| == |m.delegate|
    ensures TotalPreorder(le) ==> SortedBy(r.delegate, le)
  {
    SortPermutes(m.delegate, le);
    assert TotalPreorder(le) ==> SortedBy(Sort(m.delegate, le), le) by {
      if TotalPreorder(le) { SortSpec(m.delegate, le); }
    }
    Model(Sort(m.delegate, le))
  }

  /** `addElement(element)`: append, then sort. */
  function AddElement<E(!new)>(m: Model<E>, element: E, le: (E, E) -> bool): (r: Model<E>)
    ensures |r.delegate| == |m.delegate| + 1
    ensures multiset(r.delegate) == multiset(m.delegate) + multiset{element}
    ensures element in r.delegate
    ensures TotalPreorder(le) ==> SortedBy(r.delegate, le)
  {
    var r := SortModel(Model(m.delegate + [element]), le);
    assert element in multiset(r.delegate);
    r
  }

  /** `remove(index)`: the element at `index` leaves, the others keep their
      order; `Vector.remove` throws outside the list. */
  function Remove<E>(m: Model<E>, index: int): (r: Result<Model<E>>)
    ensures r.Ok? <==> 0 <= index < |m.delegate|
    ensures r.Err? ==> r.error == IndexOutOfBounds
    ensures r.Ok? ==> && |r.value.delegate| == |m.delegate| - 1
                      && multiset(r.value.delegate) + multiset{m.delegate[index]} == multiset(m.delegate)
                      && (forall j :: 0 <= j < index ==> r.value.delegate[j] == m.delegate[j])
                      && (forall j :: index <= j < |r.value.delegate| ==> r.value.delegate[j] == m.delegate[j + 1])
  {
    if 0 <= index < |m.delegate| then
      var s := m.delegate;
      assert s == s[..index] + [s[index]] + s[index + 1..];
      Ok(Model(s[..index] + s[index + 1..]))
    else Err(IndexOutOfBounds)
  }

  /** `removeRange(fromIndex, toIndex)`: removes `toIndex` down to
      `fromIndex`, both included, one `removeElementAt` at a time. A
      reversed range throws before anything changes; an index outside the
      list throws when the loop reaches it, keeping the removals made so
      far. */
  method RemoveRange<E>(m: Model<E>, fromIndex: int, toIndex: int) returns (r: Model<E>, thrown: Option<Exception>)
    ensures fromIndex > toIndex ==> r == m && thrown == Some(IllegalArgument)
    ensures fromIndex <= toIndex && (toIndex < 0 || toIndex >= |m.delegate|) ==>
              r == m && thrown == Some(IndexOutOfBounds)
    ensures 0 <= fromIndex <= toIndex < |m.delegate| ==>
              && thrown.None?
              && r.delegate == m.delegate[..fromIndex] + m.delegate[toIndex + 1..]
              && |r.delegate| == |m.delegate| - (toIndex - fromIndex + 1)
    ensures fromIndex < 0 <= toIndex < |m.delegate| ==>
              r.delegate == m.delegate[toIndex + 1..] && thrown == Some(IndexOutOfBounds)
  {
    if fromIndex > toIndex {
      return m, Some(IllegalArgument);
    }
    var s := m.delegate;
    var d := s;
    var i := toIndex;
    thrown := None;
    while i >= fromIndex
      invariant fromIndex - 1 <= i <= toIndex
      invariant 0 <= toIndex ==> -1 <= i
      invariant 0 <= toIndex < |s| && i >= 0 ==> d == s[..i + 1] + s[toIndex + 1..]
      invariant 0 <= toIndex < |s| && i < 0 ==> d == s[toIndex + 1..]
      invariant !(0 <= toIndex < |s|) ==> i == toIndex && d == s
      invariant thrown.None?
      decreases i - fromIndex + 1
    {
      if i < 0 || i >= |d| {
        return Model(d), Some(IndexOutOfBounds);
      }
      d := d[..i] + d[i + 1..];
      i := i - 1;
    }
    r := Model(d);
  }

  /** `indexOf(element)`: the first position holding an equal element, or
      -1. */
  method IndexOf<E(==)>(m: Model<E>, element: E) returns (index: int)
    ensures index == -1 <==> element !in m.delegate
    ensures index != -1 ==> 0 <= index < |m.delegate| && m.delegate[index] == element
    ensures forall j :: 0 <= j < index ==> m.delegate[j] != element
  {
    index := 0;
    while index < |m.delegate|
      invariant 0 <= index <= |m.delegate|
      invariant forall j :: 0 <= j < index ==> m.delegate[j] != element
    {
      if m.delegate[index] == element {
        return;
      }
      index := index + 1;
    }
    index := -1;
  }

  /** Adding to a sorted model inserts the element after its equals and
      keeps the order of the others; sorting a sorted model changes
      nothing. */
  lemma AddElementInserts<E(!new)>(m: Model<E>, element: E, le: (E, E) -> bool)
    requires SortedBy(m.delegate, le)
    ensures SortModel(m, le) == m
    ensures AddElement(m, element, le).delegate == Insert(element, m.delegate, le)
  {
    SortSorted(m.delegate, le);
    assert (m.delegate + [element])[..|m.delegate|] == m.delegate;
  }
}

=== FILE: sorting.dfy ===
/** A sort over a caller-supplied ordering. It models
    `List.sort(Comparator)` (a merge sort in the JDK); the contracts state
    that the result is ordered and a permutation of the input, and say
    nothing about the order of equal elements. */
module Sorting {

  /** `le` is total and transitive: the ordering a well-behaved
      `Comparator` induces through `compare(a, b) <= 0`. */
  ghost predicate TotalPreorder<T(!new)>(le: (T, T) -> bool) {
    && (forall a, b :: le(a, b) || le(b, a))
    && (forall a, b, c :: le(a, b) && le(b, c) ==> le(a, c))
  }

  predicate SortedBy<T>(s: seq<T>, le: (T, T) -> bool) {
    forall i, j :: 0 <= i < j < |s| ==> le(s[i], s[j])
  }

  /** Insert `x` after every element that is not strictly greater than it. */
  function Insert<T>(x: T, s: seq<T>, le: (T, T) -> bool): seq<T> {
    if |s| == 0 then [x]
    else if le(s[0], x) then [s[0]] + Insert(x, s[1..], le)
    else [x] + s
  }

  /** Insertion sort: elements are taken from the left and each one
      is placed after its equals. */
  function Sort<T>(s: seq<T>, le: (T, T) -> bool): seq<T>
    decreases |s|
  {
    if |s| == 0 then [] else Insert(s[|s| - 1], Sort(s[..|s| - 1], le), le)
  }

  lemma {:induction false} InsertPermutes<T>(x: T, s: seq<T>, le: (T, T) -> bool)
    ensures multiset(Insert(x, s, le)) == multiset(s) + multiset{x}
    decreases |s|
  {
    if |s| > 0 && le(s[0], x) {
      InsertPermutes(x, s[1..], le);
      assert s == [s[0]] + s[1..];
    }
  }

  lemma {:induction false} InsertSorted<T(!new)>(x: T, s: seq<T>, le: (T, T) -> bool)
    requires TotalPreorder(le)
    requires SortedBy(s, le)
    ensures SortedBy(Insert(x, s, le), le)
    decreases |s|
  {
    if |s| > 0 && le(s[0], x) {
      InsertSorted(x, s[1..], le);
      InsertPermutes(x, s[1..], le);
      var r := Insert(x, s[1..], le);
      forall k | 0 <= k < |r|
        ensures le(s[0], r[k])
      {
        assert r[k] in multiset(r);
        assert r[k] in multiset(s[1..]) + multiset{x};
        if r[k] in multiset(s[1..]) {
          var j :| 0 <= j < |s[1..]| && s[1..][j] == r[k];
          assert s[j + 1] == r[k];
        }
      }
    }
  }

  /** `Sort` keeps every element, whatever the ordering. */
  lemma {:induction false} SortPermutes<T>(s: seq<T>, le: (T, T) -> bool)
    ensures multiset(Sort(s, le)) == multiset(s)
    ensures |Sort(s, le)| == |s|
    decreases |s|
  {
    if |s| > 0 {
      var init := s[..|s| - 1];
      SortPermutes(init, le);
      InsertPermutes(s[|s| - 1], Sort(init, le), le);
      assert s == init + [s[|s| - 1]];
      assert |Sort(s, le)| == |multiset(Sort(s, le))| == |multiset(s)| == |s|;
    }
  }

  /** `Sort` yields a permutation of its input in `le` order. */
  lemma {:induction false} SortSpec<T(!new)>(s: seq<T>, le: (T, T) -> bool)
    requires TotalPreorder(le)
    ensures SortedBy(Sort(s, le), le)
    ensures multiset(Sort(s, le)) == multiset(s)
    ensures |Sort(s, le)| == |s|
    decreases |s|
  {
    if |s| > 0 {
      var init := s[..|s| - 1];
      SortSpec(init, le);
      InsertSorted(s[|s| - 1], Sort(init, le), le);
    }
    SortPermutes(s, le);
  }

  /** An element that no element of `s` exceeds goes to the end. */
  lemma {:induction false} InsertAfterAll<T>(x: T, s: seq<T>, le: (T, T) -> bool)
    requires forall i :: 0 <= i < |s| ==> le(s[i], x)
    ensures Insert(x, s, le) == s + [x]
    decreases |s|
  {
    if |s| > 0 {
      InsertAfterAll(x, s[1..], le);
      assert s == [s[0]] + s[1..];
    }
  }

  /** Sorting a sorted list changes nothing. */
  lemma {:induction false} SortSorted<T>(s: seq<T>, le: (T, T) -> bool)
    requires SortedBy(s, le)
    ensures Sort(s, le) == s
    decreases |s|
  {
    if |s| > 0 {
      var init := s[..|s| - 1];
      SortSorted(init, le);
      InsertAfterAll(s[|s| - 1], init, le);
      assert s == init + [s[|s| - 1]];
    }
  }
}

=== FILE: transformation.dfy ===
/** The canvas transformation: a uniform scale and an offset, with the
    mouse handlers that drag the offset and zoom around the cursor.

    Points of the plane are `Vectors.Vector`. The handlers' repaint calls
    are left out; each handler is a function from state to state. */
module Transformation {
  import opened Wrappers
  import opened Vectors

  /** The transformation's fields: the offset, the scale, the offset saved
      when the mouse was pressed and the press point (`null` before the
      first press). */
  datatype State = State(offset: Vector, scale: real, offsetBackup: Vector, pressOffset: Option<Vector>)

  /** A new transformation: zero offset, scale 1, never pressed. */
  const Initial: State := State(Zero, 1.0, Zero, None)

  /** `transform(point)`: scale, then shift by the offset. */
  function Transform(t: State, p: Vector): Vector {
    Vector(t.scale * p.x + t.offset.x, t.scale * p.y + t.offset.y)
  }

  /** `revert(point)`: the inverse map; a zero scale divides by zero and
      leaves the reals, which is `None`. */
  function Revert(t: State, q: Vector): (r: Option<Vector>)
    ensures r.None? <==> t.scale == 0.0
  {
    if t.scale == 0.0 then None
    else Some(Vector((q.x - t.offset.x) / t.scale, (q.y - t.offset.y) / t.scale))
  }

  /** Dividing by a non-zero factor undoes multiplying by it. */
  lemma Cancel(a: real, s: real)
    requires s != 0.0
    ensures (s * a) / s == a && s * (a / s) == a
  {
  }

  /** A quotient is unchanged when both sides are multiplied by the same
      non-zero factor. */
  lemma QuotientScaled(n: real, d: real, a: real)
    requires d != 0.0 && a != 0.0
    ensures (n * a) / (d * a) == n / d
  {
    var q := n / d;
    assert q * d == n;
    var da := d * a;
    assert da != 0.0;
    assert q * da == n * a;
    Cancel(q, da);
  }

  /** `revert` undoes `transform` and `transform` undoes `revert` whenever
      the scale is not zero. */
  lemma RevertTransform(t: State, p: Vector, q: Vector)
    requires t.scale != 0.0
    ensures Revert(t, Transform(t, p)) == Some(p)
    ensures Revert(t, q).Some? && Transform(t, Revert(t, q).value) == q
  {
    RevertAfterTransform(t, p);
    TransformAfterRevert(t, q);
  }

  /** Reverting a transformed point gives the point back. */
  lemma RevertAfterTransform(t: State, p: Vector)
    requires t.scale != 0.0
    ensures Revert(t, Transform(t, p)) == Some(p)
  {
    var s := t.scale;
    var tp := Transform(t, p);
    assert tp.x - t.offset.x == s * p.x && tp.y - t.offset.y == s * p.y;
    Cancel(p.x, s);
    Cancel(p.y, s);
    assert (tp.x - t.offset.x) / s == p.x;
    assert (tp.y - t.offset.y) / s == p.y;
    assert Revert(t, tp) == Some(Vector(p.x, p.y));
  }

  /** Transforming a reverted point gives the point back. */
  lemma TransformAfterRevert(t: State, q: Vector)
    requires t.scale != 0.0
    ensures Revert(t, q).Some? && Transform(t, Revert(t, q).value) == q
  {
    Cancel(q.x - t.offset.x, t.scale);
    Cancel(q.y - t.offset.y, t.scale);
  }

  datatype Line = Line(p1: Vector, p2: Vector)

  /** `transform(line)`: both endpoints transformed. */
  function TransformLine(t: State, l: Line): (m: Line)
    ensures m.p1 == Transform(t, l.p1) && m.p2 == Transform(t, l.p2)
  {
    Line(Transform(t, l.p1), Transform(t, l.p2))
  }

  /** A 2x3 affine matrix `[m00 m01 m02; m10 m11 m12]`, as
      `java.awt.geom.AffineTransform` stores it. */
  datatype Affine = Affine(m00: real, m01: real, m02: real, m10: real, m11: real, m12: real)

  const Identity: Affine := Affine(1.0, 0.0, 0.0, 0.0, 1.0, 0.0)

  /** The matrix applied to a point. */
  function Apply(m: Affine, p: Vector): Vector {
    Vector(m.m00 * p.x + m.m01 * p.y + m.m02, m.m10 * p.x + m.m11 * p.y + m.m12)
  }

  /** `m.translate(tx, ty)`: `m` concatenated with a translation on the
      right, so the translation applies first. */
  function Translate(m: Affine, tx: real, ty: real): Affine {
    Affine(m.m00, m.m01, m.m00 * tx + m.m01 * ty + m.m02,
           m.m10, m.m11, m.m10 * tx + m.m11 * ty + m.m12)
  }

  /** `m.scale(sx, sy)`: concatenated with a scaling on the right. */
  function ScaleBy(m: Affine, sx: real, sy: real): Affine {
    Affine(m.m00 * sx, m.m01 * sy, m.m02, m.m10 * sx, m.m11 * sy, m.m12)
  }

  /** The translated matrix moves a point first, then applies `m`. */
  lemma ApplyTranslate(m: Affine, tx: real, ty: real, p: Vector)
    ensures Apply(Translate(m, tx, ty), p) == Apply(m, Add(p, Vector(tx, ty)))
  {
    assert m.m00 * (p.x + tx) == m.m00 * p.x + m.m00 * tx;
    assert m.m01 * (p.y + ty) == m.m01 * p.y + m.m01 * ty;
    assert m.m10 * (p.x + tx) == m.m10 * p.x + m.m10 * tx;
    assert m.m11 * (p.y + ty) == m.m11 * p.y + m.m11 * ty;
  }

  /** The scaled matrix stretches a point first, then applies `m`. */
  lemma ApplyScale(m: Affine, sx: real, sy: real, p: Vector)
    ensures Apply(ScaleBy(m, sx, sy), p) == Apply(m, Vector(sx * p.x, sy * p.y))
  {
    assert (m.m00 * sx) * p.x == m.m00 * (sx * p.x);
    assert (m.m01 * sy) * p.y == m.m01 * (sy * p.y);
    assert (m.m10 * sx) * p.x == m.m10 * (sx * p.x);
    assert (m.m11 * sy) * p.y == m.m11 * (sy * p.y);
  }

  /** `getAffineTransformation()`: translate by the offset, then scale. */
  function AffineOf(t: State): Affine {
    ScaleBy(Translate(Identity, t.offset.x, t.offset.y), t.scale, t.scale)
  }

  /** The matrix handed to the graphics context maps every point as
      `transform` does. */
  lemma AffineAgreesWithTransform(t: State, p: Vector)
    ensures Apply(AffineOf(t), p) == Transform(t, p)
  {
    var shifted := Translate(Identity, t.offset.x, t.offset.y);
    assert shifted == Affine(1.0, 0.0, t.offset.x, 0.0, 1.0, t.offset.y);
    ApplyScale(shifted, t.scale, t.scale, p);
  }

  /** `mousePressed`: remember the press point and the current offset. */
  function Press(t: State, mouse: Vector): (u: State)
    ensures u.pressOffset == Some(mouse) && u.offsetBackup == t.offset
    ensures u.offset == t.offset && u.scale == t.scale
  {
    t.(pressOffset := Some(mouse), offsetBackup := t.offset)
  }

  /** `mouseDragged`: the offset saved at the press moved by the mouse's
      travel since the press; a drag before any press dereferences
      `null`. */
  function Drag(t: State, mouse: Vector): (r: Result<State>)
    ensures r.Err? <==> t.pressOffset.None?
    ensures r.Err? ==> r.error == NullPointer
    ensures r.Ok? ==> && Subtract(r.value.offset, t.offsetBackup) == Subtract(mouse, t.pressOffset.value)
                      && r.value.scale == t.scale
                      && r.value.offsetBackup == t.offsetBackup
                      && r.value.pressOffset == t.pressOffset
  {
    match t.pressOffset
    case None => Err(NullPointer)
    case Some(press) =>
      Ok(t.(offset := Vector(t.offsetBackup.x + mouse.x - press.x, t.offsetBackup.y + mouse.y - press.y)))
  }

  /** Pressing and dragging back to the press point leaves the offset
      where it was; every drag depends only on the press, not on earlier
      drags. */
  lemma DragBackRestores(t: State, press: Vector, m1: Vector, m2: Vector)
    ensures Drag(Press(t, press), press) == Ok(Press(t, press))
    ensures Drag(Drag(Press(t, press), m1).value, m2) == Drag(Press(t, press), m2)
  {
  }

  /** `mouseWheelMoved`: with `amount = 1.05^scrollAmount` (positive), a
      positive rotation multiplies the scale by it and moves the offset
      away from the cursor `m` by the same factor; otherwise both divide. */
  function Zoom(t: State, m: Vector, amount: real, rotation: real): (u: State)
    requires amount > 0.0
    ensures u.offsetBackup == t.offsetBackup && u.pressOffset == t.pressOffset
    ensures rotation > 0.0 ==> u.scale == t.scale * amount
    ensures rotation <= 0.0 ==> u.scale * amount == t.scale
    ensures rotation > 0.0 ==> Subtract(u.offset, m) == Multiply(Subtract(t.offset, m), amount)
    ensures rotation <= 0.0 ==> Multiply(Subtract(u.offset, m), amount) == Subtract(t.offset, m)
  {
    var dirX := t.offset.x - m.x;
    var dirY := t.offset.y - m.y;
    if rotation > 0.0 then
      t.(scale := t.scale * amount, offset := Vector(m.x + dirX * amount, m.y + dirY * amount))
    else
      t.(scale := t.scale / amount, offset := Vector(m.x + dirX / amount, m.y + dirY / amount))
  }

  /** Scaling both the scale and the cursor's distance to the offset by
      the same non-zero factor keeps the reverted cursor. */
  lemma RevertScaledAround(t: State, u: State, m: Vector, k: real)
    requires k != 0.0
    requires u.scale == t.scale * k
    requires m.x - u.offset.x == (m.x - t.offset.x) * k
    requires m.y - u.offset.y == (m.y - t.offset.y) * k
    ensures Revert(u, m) == Revert(t, m)
  {
    if t.scale != 0.0 {
      var dx := m.x - t.offset.x;
      var dy := m.y - t.offset.y;
      QuotientScaled(dx, t.scale, k);
      QuotientScaled(dy, t.scale, k);
      var nx := m.x - u.offset.x;
      var ny := m.y - u.offset.y;
      var su := u.scale;
      assert nx == dx * k && ny == dy * k && su == t.scale * k;
      assert nx / su == dx / t.scale;
      assert ny / su == dy / t.scale;
    }
  }

  /** Zooming keeps the world point under the cursor under the cursor. */
  lemma ZoomKeepsCursorFixed(t: State, m: Vector, amount: real, rotation: real)
    requires amount > 0.0
    ensures Revert(Zoom(t, m, amount, rotation), m) == Revert(t, m)
  {
    var u := Zoom(t, m, amount, rotation);
    var k := if rotation > 0.0 then amount else 1.0 / amount;
    assert u.scale == t.scale * k;
    RevertScaledAround(t, u, m, k);
  }

  /** Zooming in and then out by the same amount at the same cursor
      restores the scale and the offset. */
  lemma ZoomInThenOut(t: State, m: Vector, amount: real)
    requires amount > 0.0
    ensures Zoom(Zoom(t, m, amount, 1.0), m, amount, -1.0) == t
  {
    var u := Zoom(t, m, amount, 1.0);
    var dx := t.offset.x - m.x;
    var dy := t.offset.y - m.y;
    Cancel(dx, amount);
    Cancel(dy, amount);
    Cancel(t.scale, amount);
    assert t.offset == Vector(m.x + dx, m.y + dy);
  }
}

=== FILE: unix_paths.dfy ===
/** `Path.of(s).toString()` on a Unix file system: runs of separators
    collapse to one, a trailing separator is dropped unless the path is
    the root, and a NUL character is rejected with an
    `InvalidPathException` (an `IllegalArgumentException`). */
module UnixPaths {
  import opened Wrappers

  /** No separator directly follows another. */
  predicate NoDoubleSlash(s: string) {
    forall i :: 0 <= i < |s| - 1 ==> !(s[i] == '/' && s[i + 1] == '/')
  }

  /** The text a `Path` prints: no doubled separators and no trailing one
      except for the root "/". */
  predicate Normal(s: string) {
    && NoDoubleSlash(s)
    && (|s| > 1 ==> s[|s| - 1] != '/')
  }

  /** Every separator that follows another dropped. */
  function Collapse(s: string): (c: string)
    ensures NoDoubleSlash(c)
    ensures |c| <= |s|
    ensures |s| > 0 <==> |c| > 0
    ensures |s| > 0 ==> c[|c| - 1] == s[|s| - 1]
    ensures NoDoubleSlash(s) ==> c == s
    decreases |s|
  {
    if |s| <= 1 then s
    else
      var prefix := s[..|s| - 1];
      var last := s[|s| - 1];
      var r := Collapse(prefix);
      assert NoDoubleSlash(s) ==> NoDoubleSlash(prefix) by {
        if NoDoubleSlash(s) {
          forall i | 0 <= i < |prefix| - 1
            ensures !(prefix[i] == '/' && prefix[i + 1] == '/')
          {
            assert prefix[i] == s[i] && prefix[i + 1] == s[i + 1];
          }
        }
      }
      if last == '/' && s[|s| - 2] == '/' then r
      else
        assert r[|r| - 1] == s[|s| - 2];
        r + [last]
  }

  /** `Path.of(s).toString()`. */
  function PathOf(s: string): (r: Result<string>)
    ensures r.Err? <==> '\0' in s
    ensures r.Err? ==> r.error == IllegalArgument
    ensures r.Ok? ==> Normal(r.value)
    ensures r.Ok? ==> (|r.value| == 0 <==> |s| == 0)
  {
    if '\0' in s then Err(IllegalArgument)
    else
      var c := Collapse(s);
      if |c| > 1 && c[|c| - 1] == '/' then
        assert c[|c| - 2] != '/';
        Ok(c[..|c| - 1])
      else Ok(c)
  }

  /** A path's own text is already normal: printing a parsed path and
      parsing it again changes nothing. */
  lemma PathOfNormal(s: string)
    requires Normal(s) && '\0' !in s
    ensures PathOf(s) == Ok(s)
  {
  }

  /** `Path.of` is idempotent on what it prints. */
  lemma PathOfIdempotent(s: string)
    requires PathOf(s).Ok?
    ensures PathOf(PathOf(s).value) == PathOf(s)
  {
    var t := PathOf(s).value;
    assert forall i :: 0 <= i < |t| ==> t[i] in s by {
      var c := Collapse(s);
      assert forall x :: x in c ==> x in s by {
        CollapseChars(s);
      }
    }
    assert '\0' !in t;
    PathOfNormal(t);
  }

  /** Collapsing only drops characters. */
  lemma {:induction false} CollapseChars(s: string)
    ensures forall x :: x in Collapse(s) ==> x in s
    decreases |s|
  {
    if |s| > 1 {
      CollapseChars(s[..|s| - 1]);
      assert forall x :: x in s[..|s| - 1] ==> x in s;
    }
  }
  /** Every character is a separator (the empty text included). */
  predicate AllSlashes(s: string) {
    forall i :: 0 <= i < |s| ==> s[i] == '/'
  }

  /** Collapsing keeps a text of separators only, and keeps a text with a
      name character. */
  lemma {:induction false} CollapseAllSlashes(s: string)
    ensures AllSlashes(Collapse(s)) <==> AllSlashes(s)
    decreases |s|
  {
    if |s| > 1 {
      var prefix := s[..|s| - 1];
      CollapseAllSlashes(prefix);
      assert AllSlashes(s) <==> AllSlashes(prefix) && s[|s| - 1] == '/' by {
        assert forall i :: 0 <= i < |prefix| ==> prefix[i] == s[i];
      }
      var r := Collapse(prefix);
      if !(s[|s| - 1] == '/' && s[|s| - 2] == '/') {
        assert Collapse(s) == r + [s[|s| - 1]];
        assert forall i :: 0 <= i < |r| ==> (r + [s[|s| - 1]])[i] == r[i];
      }
    }
  }

  /** `Path.of` turns a text of separators only into the root, and any
      other text into one with a name character. */
  lemma PathOfAllSlashes(s: string)
    requires '\0' !in s
    ensures AllSlashes(PathOf(s).value) <==> AllSlashes(s)
  {
    var c := Collapse(s);
    CollapseAllSlashes(s);
    if |c| > 1 && c[|c| - 1] == '/' {
      assert forall i :: 0 <= i < |c| - 1 ==> c[..|c| - 1][i] == c[i];
    }
  }

  /** A name without separators appended to a text survives collapsing. */
  lemma {:induction false} CollapseAppendName(p: string, name: string)
    requires '/' !in name
    ensures Collapse(p + name) == Collapse(p) + name
    decreases |name|
  {
    if |name| > 0 {
      var init := name[..|name| - 1];
      CollapseAppendName(p, init);
      assert (p + name)[..|p + name| - 1] == p + init;
      assert name[|name| - 1] in name;
      assert Collapse(p) + init + [name[|name| - 1]] == Collapse(p) + name;
    } else {
      assert p + name == p;
    }
  }
}

=== FILE: vectors.dfy ===
/** `Vector2D`: an immutable point of the plane with componentwise
    arithmetic. Every operation builds a new vector. */
module Vectors {
  import opened Wrappers

  datatype Vector = Vector(x: real, y: real)

  /** The no-argument constructor: the origin. */
  const Zero: Vector := Vector(0.0, 0.0)

  /** `reduce(v, f)`: `f` applied to each pair of coordinates. */
  function Reduce(u: Vector, v: Vector, f: (real, real) -> real): (w: Vector)
    ensures w.x == f(u.x, v.x) && w.y == f(u.y, v.y)
  {
    Vector(f(u.x, v.x), f(u.y, v.y))
  }

  /** `map(f)`: `f` applied to each coordinate on its own. */
  function Map(v: Vector, f: real -> real): (w: Vector)
    ensures w.x == f(v.x) && w.y == f(v.y)
  {
    Vector(f(v.x), f(v.y))
  }

  function Add(u: Vector, v: Vector): Vector {
    Reduce(u, v, (a, b) => a + b)
  }

  function Subtract(u: Vector, v: Vector): Vector {
    Reduce(u, v, (a, b) => a - b)
  }

  function Multiply(v: Vector, a: real): Vector {
    Vector(a * v.x, a * v.y)
  }

  /** `divide(a)` is `multiply(1 / a)`; a zero divisor makes the
      coordinates infinite or NaN, which leaves the reals: `None`. */
  function Divide(v: Vector, a: real): (r: Option<Vector>)
    ensures r.None? <==> a == 0.0
  {
    if a == 0.0 then None else Some(Multiply(v, 1.0 / a))
  }

  /** Adding and subtracting are componentwise, and adding the zero vector
      changes nothing. */
  lemma AddSubtractComponentwise(u: Vector, v: Vector)
    ensures Add(u, v) == Vector(u.x + v.x, u.y + v.y)
    ensures Subtract(u, v) == Vector(u.x - v.x, u.y - v.y)
    ensures Add(u, Zero) == u && Subtract(u, Zero) == u
  {
  }

  /** Subtracting and then adding the same vector is the identity, in
      either order. */
  lemma SubtractThenAdd(u: Vector, v: Vector)
    ensures Add(Subtract(u, v), v) == u
    ensures Subtract(Add(u, v), v) == u
  {
  }

  lemma AddCommutative(u: Vector, v: Vector)
    ensures Add(u, v) == Add(v, u)
  {
  }

  /** Dividing undoes multiplying by the same non-zero factor, and the
      other way round. */
  lemma MultiplyThenDivide(v: Vector, a: real)
    requires a != 0.0
    ensures Divide(Multiply(v, a), a) == Some(v)
    ensures Divide(v, a).Some? && Multiply(Divide(v, a).value, a) == v
  {
    var q := 1.0 / a;
    assert q * a == 1.0;
    assert q * (a * v.x) == (q * a) * v.x;
    assert q * (a * v.y) == (q * a) * v.y;
    assert a * (q * v.x) == (q * a) * v.x;
    assert a * (q * v.y) == (q * a) * v.y;
    var w := Multiply(v, a);
    assert q * w.x == v.x && q * w.y == v.y;
    assert Multiply(w, q) == Vector(v.x, v.y) == v;
    assert Divide(w, a) == Some(Multiply(w, q));
  }

  /** Scaling is `map` with a multiplication. */
  lemma MultiplyIsMap(v: Vector, a: real)
    ensures Multiply(v, a) == Map(v, t => a * t)
  {
  }
}

=== FILE: workspace.dfy ===
/** The window workspace of a project: where the main and configuration
    windows sit and how large they are, the selected configuration and the
    two split-pane dividers, saved as a "workspace" XML document. */
module Workspaces {
  import opened Wrappers
  import opened Numerics
  import opened Dom
  import Decimal
  import XmlService

  /** `java.awt.Point`. */
  datatype Location = Location(x: Int32, y: Int32)

  /** `java.awt.Dimension`. */
  datatype Size = Size(width: Int32, height: Int32)

  datatype Workspace = Workspace(
    mainLocation: Location,
    mainSize: Size,
    configLocation: Location,
    configSize: Size,
    selectedConfiguration: Int32,
    mainDividerLocation: Int32,
    logDividerLocation: Int32)

  /** `new Workspace()`: windows at the origin with no extent, the second
      configuration selected and both dividers at 50. */
  const Fresh: Workspace := Workspace(Location(0, 0), Size(0, 0), Location(0, 0), Size(0, 0), 1, 50, 50)

  const WorkspaceName: string := "workspace"
  const MainLocationName: string := "mainLocation"
  const MainSizeName: string := "mainSize"
  const ConfigLocationName: string := "configLocation"
  const ConfigSizeName: string := "configSize"
  const ConfigSelectedKey: string := "configSelected"
  const LogDividerKey: string := "logDivider"
  const MainDividerKey: string := "mainDivider"

  /** `serialize(name, point)`: `<name x=".." y=".."/>`. */
  function SerializeLocation(name: string, p: Location): (e: Element)
    ensures e.name == name && e.children == [] && e.attributes.Keys == {"x", "y"}
    ensures e.attributes["x"] == Decimal.IntToString(p.x) && e.attributes["y"] == Decimal.IntToString(p.y)
  {
    AddAttribute(AddAttribute(NewElement(name), "x", Some(Decimal.IntToString(p.x))), "y", Some(Decimal.IntToString(p.y)))
  }

  /** `serialize(name, dimension)`: `<name width=".." height=".."/>`. */
  function SerializeSize(name: string, s: Size): (e: Element)
    ensures e.name == name && e.children == [] && e.attributes.Keys == {"width", "height"}
    ensures e.attributes["width"] == Decimal.IntToString(s.width)
    ensures e.attributes["height"] == Decimal.IntToString(s.height)
  {
    AddAttribute(AddAttribute(NewElement(name), "width", Some(Decimal.IntToString(s.width))),
                 "height", Some(Decimal.IntToString(s.height)))
  }

  /** `XmlService.writeProperty(name, value)` of an `int`. */
  function IntProperty(name: string, i: Int32): (e: Element)
    ensures XmlService.WriteProperty(Some(name), Some(XmlService.IntValue(i))) == Ok(e)
  {
    XmlService.WriteProperty(Some(name), Some(XmlService.IntValue(i))).value
  }

  /** The children `serialize()` writes, in order. */
  function Children(w: Workspace): seq<Element> {
    [ SerializeLocation(MainLocationName, w.mainLocation),
      SerializeSize(MainSizeName, w.mainSize),
      IntProperty(ConfigSelectedKey, w.selectedConfiguration),
      IntProperty(LogDividerKey, w.logDividerLocation),
      IntProperty(MainDividerKey, w.mainDividerLocation),
      SerializeLocation(ConfigLocationName, w.configLocation),
      SerializeSize(ConfigSizeName, w.configSize) ]
  }

  /** `serialize()`: a "workspace" root holding the seven children. */
  function Serialize(w: Workspace): (d: Document)
    ensures d.root.Some? && d.root.value.name == WorkspaceName && d.root.value.children == Children(w)
  {
    Document(Some(Element(WorkspaceName, map[], Children(w))))
  }

  /** An optional integer attribute: 0 when it is missing, otherwise
      `Integer.parseInt` of its text, which throws on anything but a
      decimal `int`. */
  function IntAttribute(e: Element, key: string): (r: Result<Int32>)
    ensures key !in e.attributes ==> r == Ok(0)
    ensures key in e.attributes ==> (r.Ok? <==> Decimal.ParseInt(e.attributes[key]).Some?)
    ensures key in e.attributes && r.Ok? ==> r.value == Decimal.ParseInt(e.attributes[key]).value
    ensures r.Err? ==> r.error == NumberFormat
  {
    if key !in e.attributes then Ok(0)
    else match Decimal.ParseInt(e.attributes[key])
      case Some(i) => Ok(i)
      case None => Err(NumberFormat)
  }

  /** `parsePoint(element)`: the "x" and "y" attributes, each 0 when
      missing. */
  function ParseLocation(e: Element): (r: Result<Location>)
    ensures r.Ok? <==> IntAttribute(e, "x").Ok? && IntAttribute(e, "y").Ok?
    ensures r.Ok? ==> r.value == Location(IntAttribute(e, "x").value, IntAttribute(e, "y").value)
    ensures r.Err? ==> r.error == NumberFormat
  {
    var x :- IntAttribute(e, "x");
    var y :- IntAttribute(e, "y");
    Ok(Location(x, y))
  }

  /** `parseDimension(element)`: the "width" and "height" attributes, each
      0 when missing. */
  function ParseSize(e: Element): (r: Result<Size>)
    ensures r.Ok? <==> IntAttribute(e, "width").Ok? && IntAttribute(e, "height").Ok?
    ensures r.Ok? ==> r.value == Size(IntAttribute(e, "width").value, IntAttribute(e, "height").value)
    ensures r.Err? ==> r.error == NumberFormat
  {
    var width :- IntAttribute(e, "width");
    var height :- IntAttribute(e, "height");
    Ok(Size(width, height))
  }

  /** `Integer.parseInt(value)` on a property value; `null` throws a
      `NumberFormatException` too. */
  function PropertyInt(value: Option<string>): (r: Result<Int32>)
    ensures r.Ok? <==> value.Some? && Decimal.ParseInt(value.value).Some?
    ensures r.Ok? ==> r.value == Decimal.ParseInt(value.value).value
    ensures r.Err? ==> r.error == NumberFormat
  {
    if value.None? then Err(NumberFormat)
    else match Decimal.ParseInt(value.value)
      case Some(i) => Ok(i)
      case None => Err(NumberFormat)
  }

  /** The property consumer of `parse`: the three integer settings, any
      other name ignored. */
  function ApplyProperty(w: Workspace, name: string, value: Option<string>): (r: Result<Workspace>)
    ensures name == ConfigSelectedKey ==> r == (var i :- PropertyInt(value); Ok(w.(selectedConfiguration := i)))
    ensures name == LogDividerKey ==> r == (var i :- PropertyInt(value); Ok(w.(logDividerLocation := i)))
    ensures name == MainDividerKey ==> r == (var i :- PropertyInt(value); Ok(w.(mainDividerLocation := i)))
    ensures name !in {ConfigSelectedKey, LogDividerKey, MainDividerKey} ==> r == Ok(w)
  {
    if name == ConfigSelectedKey then
      var i :- PropertyInt(value);
      Ok(w.(selectedConfiguration := i))
    else if name == LogDividerKey then
      var i :- PropertyInt(value);
      Ok(w.(logDividerLocation := i))
    else if name == MainDividerKey then
      var i :- PropertyInt(value);
      Ok(w.(mainDividerLocation := i))
    else Ok(w)
  }

  /** One child element of the root: the two locations, the two sizes and
      the properties set their fields; any other element changes nothing. */
  function Step(w: Workspace, e: Element): Result<Workspace>
  {
    if e.name == MainLocationName then
      var p :- ParseLocation(e);
      Ok(w.(mainLocation := p))
    else if e.name == MainSizeName then
      var s :- ParseSize(e);
      Ok(w.(mainSize := s))
    else if e.name == ConfigLocationName then
      var p :- ParseLocation(e);
      Ok(w.(configLocation := p))
    else if e.name == ConfigSizeName then
      var s :- ParseSize(e);
      Ok(w.(configSize := s))
    else if e.name == XmlService.PropertyName then
      match XmlService.PropertyOf(e)
      case None => Ok(w)
      case Some((name, value)) => ApplyProperty(w, name, value)
    else Ok(w)
  }

  /** The receiver after the children are visited in order, and the
      exception that stopped the visit, if any: fields set before the
      exception keep their new values. */
  datatype Visit = Visit(state: Workspace, thrown: Option<Exception>)

  function VisitAll(w: Workspace, children: seq<Element>): Visit
    decreases |children|
  {
    if |children| == 0 then Visit(w, None)
    else match Step(w, children[0])
      case Err(e) => Visit(w, Some(e))
      case Ok(next) => VisitAll(next, children[1..])
  }

  /** What `parse(document)` leaves behind: the receiver's state afterwards
      and what the call returns or throws. */
  datatype Outcome = Outcome(receiver: Workspace, result: Result<Workspace>)

  /** `parse(document)`: without a root a fresh workspace is returned and
      the receiver is untouched; otherwise the children are applied to the
      receiver, which is returned. */
  function Parse(receiver: Workspace, d: Document): (o: Outcome)
    ensures d.root.None? ==> o == Outcome(receiver, Ok(Fresh))
    ensures d.root.Some? ==> o.receiver == VisitAll(receiver, d.root.value.children).state
    ensures d.root.Some? && o.result.Ok? ==> o.result.value == o.receiver
    ensures d.root.Some? ==> (o.result.Err? <==> VisitAll(receiver, d.root.value.children).thrown.Some?)
  {
    match d.root
    case None => Outcome(receiver, Ok(Fresh))
    case Some(root) =>
      var v := VisitAll(receiver, root.children);
      Outcome(v.state, if v.thrown.Some? then Err(v.thrown.value) else Ok(v.state))
  }

  /** A serialised point reads back as itself. */
  lemma LocationRoundTrip(name: string, p: Location)
    ensures ParseLocation(SerializeLocation(name, p)) == Ok(p)
  {
    Decimal.ParseIntRoundTrip(p.x);
    Decimal.ParseIntRoundTrip(p.y);
  }

  /** A serialised dimension reads back as itself. */
  lemma SizeRoundTrip(name: string, s: Size)
    ensures ParseSize(SerializeSize(name, s)) == Ok(s)
  {
    Decimal.ParseIntRoundTrip(s.width);
    Decimal.ParseIntRoundTrip(s.height);
  }

  /** An integer property reads back into its field. */
  lemma PropertyIntRoundTrip(name: string, i: Int32)
    ensures var e := IntProperty(name, i);
            && XmlService.PropertyOf(e).Some?
            && XmlService.PropertyOf(e).value == (name, Some(Decimal.IntToString(i)))
            && PropertyInt(XmlService.PropertyOf(e).value.1) == Ok(i)
  {
    Decimal.ParseIntRoundTrip(i);
    assert Decimal.IntToString(i) != XmlService.NullText by {
      assert Decimal.ParseInt(XmlService.NullText).None? by {
        NullIsNoInt();
      }
    }
  }

  /** A written integer property is handed to the consumer as its text,
      which parses back to the integer. */
  lemma IntPropertyStep(w: Workspace, name: string, i: Int32)
    ensures Step(w, IntProperty(name, i)) == ApplyProperty(w, name, Some(Decimal.IntToString(i)))
    ensures PropertyInt(Some(Decimal.IntToString(i))) == Ok(i)
  {
    PropertyIntRoundTrip(name, i);
  }

  /** A serialised integer setting sets the field it is named after. */
  lemma IntStep(v: Workspace, name: string, i: Int32)
    requires name == ConfigSelectedKey || name == LogDividerKey || name == MainDividerKey
    ensures Step(v, IntProperty(name, i)) ==
              Ok(if name == ConfigSelectedKey then v.(selectedConfiguration := i)
                 else if name == LogDividerKey then v.(logDividerLocation := i)
                 else v.(mainDividerLocation := i))
  {
    IntPropertyStep(v, name, i);
  }

  /** The text "null" is no decimal `int`. */
  lemma NullIsNoInt()
    ensures Decimal.ParseInt(XmlService.NullText).None?
  {
    assert XmlService.NullText[0] == 'n';
  }

  /** A serialised location sets the field it is named after. */
  lemma LocationStep(v: Workspace, name: string, p: Location)
    requires name == MainLocationName || name == ConfigLocationName
    ensures Step(v, SerializeLocation(name, p)) ==
              Ok(if name == MainLocationName then v.(mainLocation := p) else v.(configLocation := p))
  {
    LocationRoundTrip(name, p);
  }

  /** A serialised size sets the field it is named after. */
  lemma SizeStep(v: Workspace, name: string, s: Size)
    requires name == MainSizeName || name == ConfigSizeName
    ensures Step(v, SerializeSize(name, s)) ==
              Ok(if name == MainSizeName then v.(mainSize := s) else v.(configSize := s))
  {
    SizeRoundTrip(name, s);
  }

  /** Visiting from child `k` on is one step followed by the visit from
      child `k + 1` on. */
  lemma VisitFrom(v: Workspace, children: seq<Element>, k: nat)
    requires k < |children|
    ensures Step(v, children[k]).Ok? ==>
              VisitAll(v, children[k..]) == VisitAll(Step(v, children[k]).value, children[k + 1..])
    ensures Step(v, children[k]).Err? ==> VisitAll(v, children[k..]) == Visit(v, Some(Step(v, children[k]).error))
  {
    assert children[k..][0] == children[k] && children[k..][1..] == children[k + 1..];
  }

  /** The last child, the configuration window size, ends the visit. */
  lemma VisitConfigSize(v: Workspace, w: Workspace)
    ensures VisitAll(v, [SerializeSize(ConfigSizeName, w.configSize)]) == Visit(v.(configSize := w.configSize), None)
  {
    SizeStep(v, ConfigSizeName, w.configSize);
  }

  /** The last two children set the configuration window. */
  lemma VisitConfigWindow(v: Workspace, w: Workspace)
    ensures VisitAll(v, Children(w)[5..]) == Visit(v.(configLocation := w.configLocation, configSize := w.configSize), None)
  {
    VisitFrom(v, Children(w), 5);
    assert Children(w)[6..] == [SerializeSize(ConfigSizeName, w.configSize)];
    LocationStep(v, ConfigLocationName, w.configLocation);
    VisitConfigSize(v.(configLocation := w.configLocation), w);
  }

  /** From the main divider on, the children set the main divider and the
      configuration window. */
  lemma VisitMainDivider(v: Workspace, w: Workspace)
    ensures VisitAll(v, Children(w)[4..]) ==
              Visit(v.(mainDividerLocation := w.mainDividerLocation, configLocation := w.configLocation,
                       configSize := w.configSize), None)
  {
    VisitFrom(v, Children(w), 4);
    IntStep(v, MainDividerKey, w.mainDividerLocation);
    VisitConfigWindow(v.(mainDividerLocation := w.mainDividerLocation), w);
  }

  /** From the log divider on. */
  lemma VisitLogDivider(v: Workspace, w: Workspace)
    ensures VisitAll(v, Children(w)[3..]) ==
              Visit(v.(logDividerLocation := w.logDividerLocation, mainDividerLocation := w.mainDividerLocation,
                       configLocation := w.configLocation, configSize := w.configSize), None)
  {
    VisitFrom(v, Children(w), 3);
    IntStep(v, LogDividerKey, w.logDividerLocation);
    VisitMainDivider(v.(logDividerLocation := w.logDividerLocation), w);
  }

  /** From the selected configuration on. */
  lemma VisitConfigSelected(v: Workspace, w: Workspace)
    ensures VisitAll(v, Children(w)[2..]) ==
              Visit(v.(selectedConfiguration := w.selectedConfiguration, logDividerLocation := w.logDividerLocation,
                       mainDividerLocation := w.mainDividerLocation, configLocation := w.configLocation,
                       configSize := w.configSize), None)
  {
    VisitFrom(v, Children(w), 2);
    IntStep(v, ConfigSelectedKey, w.selectedConfiguration);
    VisitLogDivider(v.(selectedConfiguration := w.selectedConfiguration), w);
  }

  /** From the main window size on. */
  lemma VisitMainSize(v: Workspace, w: Workspace)
    ensures VisitAll(v, Children(w)[1..]) == Visit(w.(mainLocation := v.mainLocation), None)
  {
    VisitFrom(v, Children(w), 1);
    SizeStep(v, MainSizeName, w.mainSize);
    VisitConfigSelected(v.(mainSize := w.mainSize), w);
  }

  /** Parsing a serialised workspace into any receiver restores every
      field: each one is written, so nothing of the receiver survives, and
      nothing is thrown. */
  lemma ParseSerialize(receiver: Workspace, w: Workspace)
    ensures Parse(receiver, Serialize(w)) == Outcome(w, Ok(w))
  {
    VisitFrom(receiver, Children(w), 0);
    LocationStep(receiver, MainLocationName, w.mainLocation);
    VisitMainSize(receiver.(mainLocation := w.mainLocation), w);
  }
}

=== FILE: wrappers.dfy ===
/** Failure-carrying wrappers shared by every module of the model.

    The Java code signals failure in three ways: by returning `null`, by
    throwing an unchecked exception, or by both in different branches.
    `Option` models a nullable reference; `Result` models a computation that
    either returns a value or throws one of the exceptions named in
    `Exception`.
 */
module Wrappers {

  /** A nullable reference: `None` is Java's `null`. */
  datatype Option<+T> = None | Some(value: T) {

    /** The value, or `default` for `null`. */
    function GetOr(default: T): T {
      match this
      case Some(v) => v
      case None => default
    }
  }

  /** The unchecked exceptions the modelled code can throw. */
  datatype Exception =
    | IndexOutOfBounds
    | IllegalArgument
    | Arithmetic
    | NullPointer
    | NumberFormat
    | ClassCast
    | JsonFormat
    | DateTimeParse
    | Runtime

  /** A Java call that returns a value or throws. */
  datatype Result<+T> = Ok(value: T) | Err(error: Exception) {

    predicate IsFailure() {
      Err?
    }

    function PropagateFailure<U>(): Result<U>
      requires Err?
    {
      Err(error)
    }

    function Extract(): T
      requires Ok?
    {
      value
    }
  }
}

=== FILE: xml_service.dfy ===
/** The XML helpers: properties as `<property name=".." value=".."
    type=".."/>` elements with `null` written as the text "null", lists of
    child elements, the project register, and points as attributes. */
module XmlService {
  import opened Wrappers
  import opened Dom
  import opened Numerics
  import Decimal
  import DiscretePoints
  import IndexEntries
  import UnixPaths

  const PropertyName: string := "property"
  const NameAttribute: string := "name"
  const ValueAttribute: string := "value"
  const TypeAttribute: string := "type"
  const NullText: string := "null"

  /** A non-`null` property value: `String.valueOf(value)` and
      `value.getClass().getSimpleName()`. */
  datatype Value = Value(text: string, className: string)

  /** An `int` property value. */
  function IntValue(i: int): (v: Value)
    ensures v.className == "Integer" && v.text == Decimal.IntToString(i)
  {
    Value(Decimal.IntToString(i), "Integer")
  }

  /** A `String` property value. */
  function StringValue(s: string): (v: Value)
    ensures v.className == "String" && v.text == s
  {
    Value(s, "String")
  }

  /** `writeProperty(name, value, type)`: both `@NonNull` arguments throw
      when `null`; the type is added only when it is neither `null` nor
      empty. */
  function WritePropertyTyped(name: Option<string>, value: Option<string>, typeName: Option<string>): (r: Result<Element>)
    ensures r.Err? <==> name.None? || value.None?
    ensures r.Err? ==> r.error == NullPointer
    ensures r.Ok? ==> r.value.name == PropertyName && r.value.children == []
    ensures r.Ok? ==> (r.value.attributes.Keys ==
              {NameAttribute, ValueAttribute} + (if typeName.Some? && |typeName.value| > 0 then {TypeAttribute} else {}))
    ensures r.Ok? ==> r.value.attributes[NameAttribute] == name.value && r.value.attributes[ValueAttribute] == value.value
    ensures r.Ok? && typeName.Some? && |typeName.value| > 0 ==> r.value.attributes[TypeAttribute] == typeName.value
  {
    if name.None? || value.None? then Err(NullPointer)
    else
      var property := AddAttribute(AddAttribute(NewElement(PropertyName), NameAttribute, name), ValueAttribute, value);
      if typeName.None? || |typeName.value| == 0 then Ok(property)
      else Ok(AddAttribute(property, TypeAttribute, typeName))
  }

  /** `writeProperty(name, value)`: a `null` value becomes the text "null"
      with no type; otherwise the value's text and class name. */
  function WriteProperty(name: Option<string>, value: Option<Value>): (r: Result<Element>)
    ensures r.Err? <==> name.None?
    ensures r.Ok? ==> r.value.name == PropertyName && r.value.children == []
    ensures r.Ok? ==> NameAttribute in r.value.attributes && r.value.attributes[NameAttribute] == name.value
    ensures r.Ok? ==> && ValueAttribute in r.value.attributes
                      && r.value.attributes[ValueAttribute] == (if value.None? then NullText else value.value.text)
    ensures r.Ok? && value.None? ==> TypeAttribute !in r.value.attributes
  {
    var typeName := if value.None? then None else Some(value.value.className);
    WritePropertyTyped(name, Some(if value.None? then NullText else value.value.text), typeName)
  }

  /** A property element's value attribute as `readProperties` hands it
      on: the text "null" is `null`. */
  function Decode(text: string): (v: Option<string>)
    ensures v.None? <==> text == NullText
    ensures v.Some? ==> v.value == text
  {
    if text == NullText then None else Some(text)
  }

  /** The pair a property element yields, if it has both a name and a
      value attribute. */
  function PropertyOf(e: Element): (p: Option<(string, Option<string>)>)
    ensures p.Some? <==> NameAttribute in e.attributes && ValueAttribute in e.attributes
    ensures p.Some? ==> p.value == (e.attributes[NameAttribute], Decode(e.attributes[ValueAttribute]))
  {
    if NameAttribute in e.attributes && ValueAttribute in e.attributes then
      Some((e.attributes[NameAttribute], Decode(e.attributes[ValueAttribute])))
    else None
  }

  /** The pairs of a list of elements, skipping those without a name or
      a value. */
  function Pairs(es: seq<Element>): (ps: seq<(string, Option<string>)>)
    ensures |ps| <= |es|
    ensures (forall i :: 0 <= i < |es| ==> PropertyOf(es[i]).Some?) ==>
              |ps| == |es| && forall i :: 0 <= i < |es| ==> ps[i] == PropertyOf(es[i]).value
    decreases |es|
  {
    if |es| == 0 then []
    else
      var rest := Pairs(es[1..]);
      match PropertyOf(es[0])
      case Some(p) => [p] + rest
      case None => rest
  }

  /** Pairs of a concatenation are the pairs of each part. */
  lemma {:induction false} PairsAppend(a: seq<Element>, b: seq<Element>)
    ensures Pairs(a + b) == Pairs(a) + Pairs(b)
    decreases |a|
  {
    if |a| > 0 {
      assert (a + b)[1..] == a[1..] + b;
      PairsAppend(a[1..], b);
    } else {
      assert a + b == b;
    }
  }

  /** `readProperties(parent, consumer)`: the (name, value) pairs the
      consumer receives, in document order; nothing for a `null` parent. */
  function ReadProperties(parent: Option<Element>): (ps: seq<(string, Option<string>)>)
    ensures parent.None? ==> ps == []
    ensures parent.Some? ==> ps == Pairs(ChildrenNamed(parent.value, PropertyName))
  {
    match parent
    case None => []
    case Some(p) => Pairs(ChildrenNamed(p, PropertyName))
  }

  /** A property written under any name reads back as that name with the
      value's text, `null` as `null`, and a genuine text "null" as `null`
      too. */
  lemma PropertyRoundTrip(name: string, value: Option<Value>)
    ensures var e := WriteProperty(Some(name), value).value;
            && PropertyOf(e).Some?
            && PropertyOf(e).value.0 == name
            && (value.None? ==> PropertyOf(e).value.1 == None)
            && (value.Some? && value.value.text != NullText ==> PropertyOf(e).value.1 == Some(value.value.text))
            && (value.Some? && value.value.text == NullText ==> PropertyOf(e).value.1 == None)
  {
  }

  /** Properties added to an element read back in the order they were
      added, whatever other children sit between them. */
  lemma ReadWrittenProperties(parent: Element, names: seq<string>, values: seq<Option<Value>>)
    requires |names| == |values|
    ensures var written := seq(|names|, i requires 0 <= i < |names| => WriteProperty(Some(names[i]), values[i]).value);
            var ps := ReadProperties(Some(parent.(children := parent.children + written)));
            && ps == ReadProperties(Some(parent)) + Pairs(written)
            && |Pairs(written)| == |names|
            && forall i :: 0 <= i < |names| ==>
                 Pairs(written)[i] == (names[i], if values[i].None? then None else Decode(values[i].value.text))
  {
    var written := seq(|names|, i requires 0 <= i < |names| => WriteProperty(Some(names[i]), values[i]).value);
    FilterAppend(parent.children, written, PropertyName);
    FilterAll(written, PropertyName);
    PairsAppend(Filter(parent.children, PropertyName), written);
    forall i | 0 <= i < |names|
      ensures PropertyOf(written[i]).Some?
    {
      PropertyRoundTrip(names[i], values[i]);
    }
  }

  /** `readElementList(name, parent, action)`: `action` applied to every
      child with that name, in order; a `null` parent throws, and so can
      `action`. */
  function ReadElementList<T>(name: string, parent: Option<Element>, action: Element -> Result<T>): (r: Result<seq<T>>)
    ensures parent.None? ==> r == Err(NullPointer)
    ensures parent.Some? ==> (r.Ok? <==> forall c :: c in ChildrenNamed(parent.value, name) ==> action(c).Ok?)
    ensures r.Ok? ==> var cs := ChildrenNamed(parent.value, name);
                      |r.value| == |cs| && forall i :: 0 <= i < |cs| ==> action(cs[i]) == Ok(r.value[i])
  {
    match parent
    case None => Err(NullPointer)
    case Some(p) => MapAll(ChildrenNamed(p, name), action)
  }

  /** `action` applied to each element in order; the first exception
      stops the walk. */
  function MapAll<T>(es: seq<Element>, action: Element -> Result<T>): (r: Result<seq<T>>)
    ensures r.Ok? <==> forall e :: e in es ==> action(e).Ok?
    ensures r.Ok? ==> |r.value| == |es| && forall i :: 0 <= i < |es| ==> action(es[i]) == Ok(r.value[i])
    ensures r.Err? ==> exists i :: 0 <= i < |es| && action(es[i]) == Err(r.error)
    decreases |es|
  {
    if |es| == 0 then Ok([])
    else
      var first :- action(es[0]);
      var rest :- MapAll(es[1..], action);
      assert forall e :: e in es <==> e == es[0] || e in es[1..];
      Ok([first] + rest)
  }

  /** The entries that parsed, in order; the broken ones are dropped. */
  function Present<D>(entries: seq<Option<IndexEntries.IndexEntry<D>>>): (r: seq<IndexEntries.IndexEntry<D>>)
    ensures |r| <= |entries|
    ensures (forall i :: 0 <= i < |entries| ==> entries[i].Some?) ==>
              |r| == |entries| && forall i :: 0 <= i < |entries| ==> r[i] == entries[i].value
    decreases |entries|
  {
    if |entries| == 0 then []
    else
      var rest := Present(entries[1..]);
      if entries[0].Some? then [entries[0].value] + rest else rest
  }

  /** `IndexEntry::parse` as the register reads entries. */
  function EntryParser<D>(now: D, dates: IndexEntries.DateFormat<D>): (f: Element -> Result<Option<IndexEntries.IndexEntry<D>>>)
    ensures forall e :: f(e) == IndexEntries.Parse(e, now, dates)
  {
    e => IndexEntries.Parse(e, now, dates)
  }

  const RegisterName: string := "register"
  const EntriesName: string := "entries"
  const EntryName: string := "entry"

  /** `readRegister(document)`: no entries unless the root is "register"
      and has an "entries" child; then every "entry" child of the first
      such child parsed, the broken ones (`null`) dropped. */
  function ReadRegister<D>(document: Document, now: D, dates: IndexEntries.DateFormat<D>): (r: Result<seq<IndexEntries.IndexEntry<D>>>)
    ensures document.root.None? || document.root.value.name != RegisterName ==> r == Ok([])
    ensures document.root.Some? && FirstChild(document.root.value, EntriesName).None? ==> r == Ok([])
    ensures document.root.Some? && document.root.value.name == RegisterName
            && FirstChild(document.root.value, EntriesName).Some? ==>
              var parsed := ReadElementList(EntryName, FirstChild(document.root.value, EntriesName),
                                            EntryParser(now, dates));
              r == if parsed.Ok? then Ok(Present(parsed.value)) else Err(parsed.error)
    ensures r.Ok? && |r.value| > 0 ==>
              && document.root.Some? && document.root.value.name == RegisterName
              && FirstChild(document.root.value, EntriesName).Some?
  {
    match document.root
    case None => Ok([])
    case Some(root) =>
      if root.name != RegisterName then Ok([])
      else
        match FirstChild(root, EntriesName)
        case None => Ok([])
        case Some(entries) =>
          var parsed :- ReadElementList(EntryName, Some(entries), EntryParser(now, dates));
          Ok(Present(parsed))
  }

  /** `appendElementList(parent, list, action)`: each item's element
      appended, in order. */
  function AppendElementList<T>(parent: Element, items: seq<T>, action: T -> Element): (r: Element)
    ensures r.name == parent.name && r.attributes == parent.attributes
    ensures |r.children| == |parent.children| + |items|
    ensures r.children[..|parent.children|] == parent.children
    ensures forall i :: 0 <= i < |items| ==> r.children[|parent.children| + i] == action(items[i])
  {
    parent.(children := parent.children + seq(|items|, i requires 0 <= i < |items| => action(items[i])))
  }

  /** `writeRegister(entries)`: a "register" root carrying the running
      version and one "entries" child holding the serialised entries. */
  function WriteRegister<D>(entries: seq<IndexEntries.IndexEntry<D>>, version: string, dates: IndexEntries.DateFormat<D>): (d: Document)
    ensures d.root.Some? && d.root.value.name == RegisterName
    ensures d.root.value.attributes == map["version" := version]
    ensures d.root.value.children == [EntriesElement(entries, dates)]
  {
    var root := AddChild(AddAttribute(NewElement(RegisterName), "version", Some(version)), EntriesElement(entries, dates));
    assert root.children == [] + [EntriesElement(entries, dates)];
    Document(Some(root))
  }

  /** The "entries" element of `writeRegister`. */
  function EntriesElement<D>(entries: seq<IndexEntries.IndexEntry<D>>, dates: IndexEntries.DateFormat<D>): (e: Element)
    ensures e.name == EntriesName
    ensures |e.children| == |entries|
    ensures forall i :: 0 <= i < |entries| ==> e.children[i] == IndexEntries.Serialize(entries[i], dates)
  {
    AppendElementList(NewElement(EntriesName), entries, e => IndexEntries.Serialize(e, dates))
  }

  /** Serialised entries parse back one by one. */
  lemma {:induction false} ParseAll<D>(entries: seq<IndexEntries.IndexEntry<D>>, es: seq<Element>, now: D, dates: IndexEntries.DateFormat<D>)
    requires |es| == |entries|
    requires forall i :: 0 <= i < |entries| ==> es[i] == IndexEntries.Serialize(entries[i], dates)
    requires forall i :: 0 <= i < |entries| ==> IndexEntries.Writable(entries[i], dates)
    ensures var parsed := MapAll(es, EntryParser(now, dates));
            && parsed.Ok? && |parsed.value| == |entries|
            && forall i :: 0 <= i < |entries| ==> parsed.value[i] == Some(IndexEntries.Reread(entries[i]))
  {
    forall i | 0 <= i < |entries|
      ensures IndexEntries.Parse(es[i], now, dates) == Ok(Some(IndexEntries.Reread(entries[i])))
    {
      IndexEntries.ParseSerialize(entries[i], now, dates);
    }
    var action := EntryParser(now, dates);
    assert forall i :: 0 <= i < |es| ==> action(es[i]) == Ok(Some(IndexEntries.Reread(entries[i])));
    assert forall e :: e in es ==> action(e).Ok?;
  }

  /** Every entry `parse` can read back reads back from the register: the
      entries come back in order, each as `IndexEntries.Reread` gives it. */
  lemma RegisterRoundTrip<D>(entries: seq<IndexEntries.IndexEntry<D>>, version: string, now: D, dates: IndexEntries.DateFormat<D>)
    requires forall i :: 0 <= i < |entries| ==> IndexEntries.Writable(entries[i], dates)
    ensures ReadRegister(WriteRegister(entries, version, dates), now, dates) == Ok(IndexEntries.RereadAll(entries))
  {
    var d := WriteRegister(entries, version, dates);
    var e := EntriesElement(entries, dates);
    var es := e.children;
    assert FirstChild(d.root.value, EntriesName) == Some(e) && ChildrenNamed(e, EntryName) == es by {
      RegisterShape(entries, version, dates);
    }
    var expected := IndexEntries.RereadAll(entries);
    var parsed := MapAll(es, EntryParser(now, dates));
    assert parsed.Ok? && |parsed.value| == |entries| && forall i :: 0 <= i < |entries| ==> parsed.value[i] == Some(expected[i]) by {
      ParseAll(entries, es, now, dates);
    }
    assert Present(parsed.value) == expected by {
      PresentAll(parsed.value, expected);
    }
    assert ReadRegister(d, now, dates) == Ok(Present(parsed.value)) by {
      RegisterReads(d, e, now, dates);
    }
  }

  /** The written register has its entries element first among the
      "entries" children, and every child of that is an "entry". */
  lemma RegisterShape<D>(entries: seq<IndexEntries.IndexEntry<D>>, version: string, dates: IndexEntries.DateFormat<D>)
    ensures var d := WriteRegister(entries, version, dates);
            FirstChild(d.root.value, EntriesName) == Some(EntriesElement(entries, dates))
    ensures var e := EntriesElement(entries, dates);
            ChildrenNamed(e, EntryName) == e.children
  {
    var d := WriteRegister(entries, version, dates);
    var e := EntriesElement(entries, dates);
    assert ChildrenNamed(d.root.value, EntriesName) == [e];
    FilterAll(e.children, EntryName);
  }

  /** A register document with an "entries" child reads as the present
      entries among those parsed. */
  lemma RegisterReads<D>(d: Document, entriesElement: Element, now: D, dates: IndexEntries.DateFormat<D>)
    requires d.root.Some? && d.root.value.name == RegisterName
    requires FirstChild(d.root.value, EntriesName) == Some(entriesElement)
    ensures var parsed := MapAll(ChildrenNamed(entriesElement, EntryName), EntryParser(now, dates));
            && (parsed.Ok? ==> ReadRegister(d, now, dates) == Ok(Present(parsed.value)))
            && (parsed.Err? ==> ReadRegister(d, now, dates) == Err(parsed.error))
  {
  }

  /** When every entry parsed, none is dropped. */
  lemma PresentAll<D>(parsed: seq<Option<IndexEntries.IndexEntry<D>>>, expected: seq<IndexEntries.IndexEntry<D>>)
    requires |parsed| == |expected|
    requires forall i :: 0 <= i < |parsed| ==> parsed[i] == Some(expected[i])
    ensures Present(parsed) == expected
  {
  }

  /** `writePoint(name, point)`: the slot and the distance as attributes;
      `doubleText` is `String.valueOf(double)`. */
  function WritePoint(name: string, p: DiscretePoints.Point, doubleText: real -> string): (e: Element)
    ensures e.name == name && e.children == []
    ensures e.attributes.Keys == {"position", "distance"}
    ensures e.attributes["distance"] == doubleText(p.distance)
    ensures IsInt32(p.position) ==> Decimal.ParseInt(e.attributes["position"]) == Some(p.position)
  {
    assert IsInt32(p.position) ==> Decimal.ParseInt(Decimal.IntToString(p.position)) == Some(p.position) by {
      if IsInt32(p.position) { Decimal.ParseIntRoundTrip(p.position); }
    }
    AddAttribute(AddAttribute(NewElement(name), "position", Some(Decimal.IntToString(p.position))),
                 "distance", Some(doubleText(p.distance)))
  }
}
